=== FILE: README.md ===
# Loan marketplace front end: a Dafny model of its business logic

The system is an Angular front end for a loan marketplace. Borrowers apply for
loans and check their eligibility. Lenders keep eligibility rules and decide
applications. Administrators see analytics over all users, lenders and
applications. Most of its code is view and HTTP plumbing. This project models
the integer-valued business logic inside it, in four groups:

- **Eligibility and matching.** Best-rule selection in the API service.
  Per-rule pass/fail in the mock service. Lender match scores, tiers,
  sorting and filtering. The banded eligibility score and the age
  computation. The lender dashboard's risk, confidence and scenario scores,
  its recommendation table and its bulk approve/reject rule.
- **Session and access control.** The authentication service as a class
  with the current user, the token and their stored copies. The
  `jwt-token-{id}-{issuedAt}` token format and its 24-hour validity.
  Login, register, logout, refresh and start-up validation. The role,
  authentication and public route guards as pure allow/redirect decisions.
- **Lists changed in place.** The toast queue with its id counter and its
  two-phase removal. The lender's notification list (prepend and splice).
  The lender-rules editor and its rule list. The document checklist with
  upload and delete.
- **Aggregations.** Status counts, approved sums, amount buckets, the top
  five lenders, rounded percentages and averages. These come from the admin
  analytics dashboard, lender analytics, the borrower's applications, the
  borrower eligibility overview and the admin application list.

Modules follow the source files. Shared pieces have their own modules:
- `Wrappers`: `Option` and `Result`.
- `Js`: JavaScript's `||` defaults and truthiness, `Math.round` on a ratio,
  percentages and averages.
- `Records`: the record shapes, status counts and amount sums.
- `Strings`, `Dates`, `Lists` and `Sorting`: string parsing and splitting,
  the age on a date, removal by key, and the stable descending sort used by
  `Array.prototype.sort` with a `b - a` comparator.

Modelling conventions:
- A method that updates component or service fields is a `class` method with
  a `modifies` clause. Pure lookups and scores are functions.
- Every timer callback (`setTimeout`) is an explicit operation that the
  caller runs later, for example `Toasts.ToastService.PurgeToast` after
  `RemoveToast`.
- The clock (`Date.now()`, `new Date()`) is a parameter.
- `localStorage` is a pair of fields kept in step with the session.
- Scores and amounts are `int`. A fractional multiplier of the source is
  cross-multiplied: `1.5 * min` becomes `2x >= 3min`, and `0.8 * max`
  becomes `5x <= 4max`.
- Interest rates are in basis points.
- Percentages that the source rounds with `Math.round` are integers with
  their rounding stated as a two-sided bound.
- Percentages the source keeps as floating point are exact `real`s.
- An approval rate shown with two decimals is kept in hundredths of a
  percent.

## Model

| member | source | states |
|---|---|---|
| EligibilityMatch.RuleScore | src/app/core/services/api.service.ts:270-275 | the score of a rule is the base 20 plus three independent bonuses, so it lies in 20..60 |
| EligibilityMatch.Qualifies | src/app/core/services/api.service.ts:254-266 | the four hard checks; a rule whose age or loan range is empty lets nobody through |
| EligibilityMatch.RuleScoreMonotone | src/app/core/services/api.service.ts:270-275 | more income, a higher credit score or a smaller loan never lowers a rule's score |
| EligibilityMatch.RuleScoreTop | src/app/core/services/api.service.ts:270-275 | a rule scores 60 exactly when credit is at least min+50, income at least 1.5×min and the loan at most 0.8×max |
| EligibilityMatch.CheckEligibility | src/app/core/services/api.service.ts:246-290 | eligible iff some rule passes all four hard checks; iff a best match exists; score 0 when none qualifies, else in 20..60 and the maximum over qualifying rules; the best match qualifies, reaches that score, and no earlier qualifying rule reaches it, so a later tie never replaces it |
| MockApi.FindUser | src/app/core/services/mock-api.service.ts:22 | the user found has that username; none exactly when no user has it |
| MockApi.Login | src/app/core/services/mock-api.service.ts:20-35 | succeeds iff the username is known; fails with 'Invalid credentials' otherwise; on success the id and roles are those of the first user with that name (FindUser) and the token is 'mock-jwt-token-' followed by that id |
| MockApi.LoginIgnoresPassword | src/app/core/services/mock-api.service.ts:20-35 | the password never changes a mock login's outcome |
| MockApi.Register | src/app/core/services/mock-api.service.ts:37-72 | fails with 'Username already exists' iff the username is taken; otherwise the id is the user count plus one, the roles are [BORROWER] and the token is 'token-' followed by the time |
| MockApi.MaxId | src/app/core/services/mock-api.service.ts:93 | the value is an id of the list and no id exceeds it |
| MockApi.CreateLoanApplication | src/app/core/services/mock-api.service.ts:91-112 | the new id is one more than the largest existing id; status PENDING; loanAmount equals requestedAmount; purpose defaults to 'Personal loan' for a missing or empty purpose |
| MockApi.CreateOnFixturesGetsIdThree | src/app/core/services/mock-api.service.ts:334-377 | on the two fixture applications the next id is 3 |
| MockApi.UpdateLoanApplication | src/app/core/services/mock-api.service.ts:153-169 | an unknown id fails with 'Application not found' and leaves the array unchanged; otherwise the first entry with that id becomes the old entry overlaid by the updates with a fresh updatedAt, and every other entry is unchanged |
| MockApi.Overlay | src/app/core/services/mock-api.service.ts:160-164 | id, customer, borrower, lender, requested amount, purpose, term, creation time and borrower figures are kept; the update time is the new one; an empty patch changes nothing else |
| MockApi.OverlayIdempotent | src/app/core/services/mock-api.service.ts:160-164 | applying the same updates twice gives what applying them once gives |
| MockApi.ByLender | src/app/core/services/mock-api.service.ts:171-175 | exactly the applications with that lenderId |
| MockApi.ByLenderAppend | src/app/core/services/mock-api.service.ts:171-175 | filtering a concatenation filters each part and keeps the original order |
| MockApi.FindLender | src/app/core/services/mock-api.service.ts:193 | the first lender with that id; none exactly when no lender has it |
| MockApi.FindApplication | src/app/core/services/mock-api.service.ts:184 | the first application with that id (IndexOfId); none exactly when no application has it |
| MockApi.RuleEligibleIgnoresMinLoanAndEmployment | src/app/core/services/mock-api.service.ts:196-201 | a rule's minimum loan amount and employment types never change its verdict |
| MockApi.RuleEligible | src/app/core/services/mock-api.service.ts:196-201 | an eligible verdict needs a requested amount and a non-empty age range |
| MockApi.RuleResults | src/app/core/services/mock-api.service.ts:190-215 | each answer is the verdict, thresholds, lender id and lender name of some rule; one answer per rule when every rule is active and its lender exists; RuleResultsAppend and RuleResultsOfOne fix one answer per answered rule, in rule order |
| MockApi.RuleResultsAppend | src/app/core/services/mock-api.service.ts:190-215 | the answers for a concatenation of rules are the answers for each part, in order |
| MockApi.RuleResultsOfOne | src/app/core/services/mock-api.service.ts:190-215 | an active rule whose lender exists gets exactly its own answer, with that lender's id and name; any other rule gets none |
| MockApi.CheckEligibility | src/app/core/services/mock-api.service.ts:178-219 | fails with 'Application not found' iff no application has the id; otherwise the answers are RuleResults for the customer, the first such application's requested amount and the rules |
| MockApi.FixtureEligibility | src/app/core/services/mock-api.service.ts:178-219 | on the fixtures, application 1 meets the first rule and exceeds the second rule's 200000 maximum |
| Strings.Split | src/app/core/services/auth.service.ts:55 | `split` gives at least one part, and more than one only when the separator occurs; the two lemmas below fix the parts |
| Strings.SplitWithoutSeparator | src/app/core/services/auth.service.ts:55 | a string without the separator splits into itself alone |
| Strings.SplitAtFirst | src/app/core/services/auth.service.ts:55 | splitting `a + sep + b`, where a has no separator, gives a followed by the parts of b |
| Strings.NatToString | src/app/core/services/auth.service.ts:98 | the decimal text of a number is non-empty, all digits, and starts with 0 only for 0 |
| Strings.DecimalValueOfNatToString | src/app/core/services/auth.service.ts:58 | reading back the decimal text of a number gives the number |
| Strings.TrimStart | src/app/core/services/auth.service.ts:58 | the leading white space `parseInt` skips: the result is a suffix of the text that does not start with white space |
| Strings.DigitPrefix | src/app/core/services/auth.service.ts:58 | a prefix made of digits, followed by a non-digit or by nothing |
| Strings.HexPrefix | src/app/core/services/auth.service.ts:58 | a prefix made of hexadecimal digits, the digits `parseInt` reads after 0x |
| Strings.ParseIntOfNatToString | src/app/core/services/auth.service.ts:58 | `parseInt` of the decimal text of a number gives the number |
| Strings.ParseInt | src/app/core/services/auth.service.ts:58 | a text without a decimal digit is NaN (None); a negative result needs a '-' in the text |
| Strings.DigitPrefixOfDigits | src/app/core/services/auth.service.ts:58 | the digit prefix of an all-digit string is the whole string |
| Strings.ToLower | src/app/features/borrower/eligibility-check/borrower-eligibility-check.component.ts:123 | A-Z become a-z (code + 32) and every other character is kept, so the length is kept |
| Strings.ToLowerIdempotent | src/app/features/borrower/eligibility-check/borrower-eligibility-check.component.ts:123 | lowering twice is lowering once |
| Auth.NoDashInDigits | src/app/core/services/auth.service.ts:55 | an all-digit text holds no '-' |
| Auth.TokenRoundTrip | src/app/core/services/auth.service.ts:50-70 | a token built as jwt-token-{id}-{t} is valid at now iff now − t is below 24 hours |
| Auth.TokenValid | src/app/core/services/auth.service.ts:50-70 | a missing or empty token, or one without '-', is never valid; TokenRoundTrip gives the 24-hour rule |
| Auth.IsAuthenticated | src/app/core/services/auth.service.ts:34-44 | authenticated iff a user exists and the token is valid; the separate non-empty check adds nothing |
| Auth.HasAnyRole | src/app/core/services/auth.service.ts:193-195 | true iff some listed role is the current user's role; false for an empty list |
| Auth.HasRole | src/app/core/services/auth.service.ts:46-48 | no role is held without a user; RolesExclusive gives at most one |
| Auth.RolesExclusive | src/app/core/services/auth.service.ts:46-48 | a user never holds two different roles at once |
| Auth.NextUserId | src/app/core/services/auth.service.ts:133-136 | the new id is at least 1, larger than every existing id, and one more than the largest id (1 for no users) |
| Auth.FindUser | src/app/core/services/auth.service.ts:85 | the first user with that username; none exactly when no user has it |
| Auth.AuthService.constructor | src/app/core/services/auth.service.ts:17-24 | loads the stored session and logs out exactly when a user and a non-empty token are stored but the token is invalid; storage stays in step |
| Auth.AuthService.Logout | src/app/core/services/auth.service.ts:167-175 | clears the user, the token and both stored entries, so the session is not authenticated at any time |
| Auth.AuthService.ValidateStoredSession | src/app/core/services/auth.service.ts:72-78 | logs out only when a user and a non-empty token exist and the token is invalid; otherwise nothing changes |
| Auth.AuthService.Login | src/app/core/services/auth.service.ts:80-119 | a failed fetch gives its message, or 'Login failed' without one; on the fetched list, succeeds iff the username is known and the password is the demo one; 'User not found' for an unknown username; 'Invalid password' otherwise; state changes only on success, where the user becomes current with token jwt-token-{id}-{now} |
| Auth.AuthService.Register | src/app/core/services/auth.service.ts:121-165 | a failed fetch gives its message, or 'Registration failed' without one; on the fetched list, fails with 'Username already exists' iff the username is taken; every failure leaves the state; otherwise the new user takes the next id and becomes current with a fresh token |
| Auth.AuthService.RefreshToken | src/app/core/services/auth.service.ts:177-185 | re-issues the token at now only when a user and a non-empty token exist; the user never changes |
| Auth.LoginAuthenticates | src/app/core/services/auth.service.ts:34-44 | right after a login the session is authenticated iff less than 24 hours have passed |
| RoleGuard.CanActivate | src/app/core/guards/role.guard.ts:14-37 | allows with no navigation when no roles are required or some required role is the user's; otherwise denies and navigates to '/dashboard' |
| RoleGuard.OrderIndependent | src/app/core/guards/role.guard.ts:26-32 | the order and repetition of the required roles never change the decision |
| RoleGuard.NoUserNeedsNoRoles | src/app/core/guards/role.guard.ts:26-36 | without a user, a route that requires some role is denied |
| AuthGuards.AuthGuard | src/app/core/guards/auth.guard.ts:14-28 | allows iff the session is authenticated; otherwise navigates to '/login' |
| AuthGuards.DashboardFor | src/app/core/guards/auth.guard.ts:51-69 | ADMIN, LENDER and BORROWER go to their own dashboards, any other role to '/dashboard' |
| AuthGuards.PublicGuard | src/app/core/guards/auth.guard.ts:40-70 | allows iff not authenticated; otherwise redirects to the dashboard of the user's role |
| AuthGuards.ExactlyOneGuardAllows | src/app/core/guards/auth.guard.ts:20-48 | for one session at one time exactly one of the two guards allows |
| Lists.FirstIndex | src/app/features/lender/rules/lender-rules.component.ts:152 | the first position whose key matches; none exactly when no key matches |
| Lists.Without | src/app/core/services/toast.service.ts:69-72 | no longer than the list; every kept element comes from the list and has another key, and every element with another key is kept |
| Lists.WithoutAppend | src/app/core/services/toast.service.ts:69-72 | filtering a concatenation filters each part |
| Lists.WithoutAbsent | src/app/core/services/toast.service.ts:69-72 | filtering out a key that no element has changes nothing |
| Lists.WithoutIdempotent | src/app/core/services/toast.service.ts:69-72 | filtering twice by the same key is filtering once |
| Lists.CountKey | src/app/features/lender/rules/lender-rules.component.ts:172 | the number of elements with that key is at most the length |
| Lists.WithoutLength | src/app/features/lender/rules/lender-rules.component.ts:172 | the filtered length is the length minus the number of matching elements |
| Toasts.Hide | src/app/core/services/toast.service.ts:60-66 | the same length and the same ids in the same order |
| Toasts.HideChangesOnlyId | src/app/core/services/toast.service.ts:60-66 | toasts with another id are unchanged; toasts with that id only lose their show flag |
| Toasts.HideUnknownId | src/app/core/services/toast.service.ts:60-66 | hiding an id that no toast carries changes nothing |
| Toasts.WithoutIdIncreasing | src/app/core/services/toast.service.ts:69-72 | purging keeps ids strictly increasing |
| Toasts.ToastService.constructor | src/app/core/services/toast.service.ts:17-21 | an empty queue and a counter at 0 |
| Toasts.ToastService.ShowToast | src/app/core/services/toast.service.ts:39-58 | the counter goes up by one and becomes the new id; the toast is appended with the given fields and show set, earlier toasts keep their order; auto-removal is scheduled iff duration > 0; ids stay strictly increasing |
| Toasts.ToastService.ShowSuccess | src/app/core/services/toast.service.ts:23-25 | a success toast, default duration 5000 |
| Toasts.ToastService.ShowError | src/app/core/services/toast.service.ts:27-29 | an error toast, default duration 7000 |
| Toasts.ToastService.ShowWarning | src/app/core/services/toast.service.ts:31-33 | a warning toast, default duration 6000 |
| Toasts.ToastService.ShowInfo | src/app/core/services/toast.service.ts:35-37 | an info toast, default duration 5000 |
| Toasts.ToastService.RemoveToast | src/app/core/services/toast.service.ts:60-66 | hides exactly the toasts with that id; the counter is unchanged |
| Toasts.ToastService.PurgeToast | src/app/core/services/toast.service.ts:68-72 | the deferred step removes exactly the toasts with that id and keeps the rest in order |
| Toasts.ToastService.ClearAll | src/app/core/services/toast.service.ts:75-77 | empties the list and keeps the counter, so ids are never reused |
| Toasts.DefaultDurations | src/app/core/services/toast.service.ts:23-37 | a fresh service numbers one toast of each kind 1 to 4 with durations 5000, 7000, 6000, 5000, and after clearAll numbers the next one 5 |
| LenderDashboard.CreditRiskPoints | src/app/features/lender/lender-dashboard/lender-dashboard.component.ts:612-615 | one of 20, 40, 60, 80 |
| LenderDashboard.IncomeRatioRiskPoints | src/app/features/lender/lender-dashboard/lender-dashboard.component.ts:618-622 | one of 20, 40, 60, 80 |
| LenderDashboard.EmploymentRiskPoints | src/app/features/lender/lender-dashboard/lender-dashboard.component.ts:625-628 | one of 20, 40, 60, 80 |
| LenderDashboard.RiskPoints | src/app/features/lender/lender-dashboard/lender-dashboard.component.ts:605-628 | the three risk points sum to a total in 60..240 |
| LenderDashboard.AssessRisk | src/app/features/lender/lender-dashboard/lender-dashboard.component.ts:604-635 | low iff the total is at most 99, medium iff it is in 100..198, high iff above 198 |
| LenderDashboard.LowRiskNeedsTwoBestBands | src/app/features/lender/lender-dashboard/lender-dashboard.component.ts:604-635 | a low risk needs the best band in at least two of credit, income ratio and employment, and no worse than the second band in the third |
| LenderDashboard.AssessRiskMonotoneInCredit | src/app/features/lender/lender-dashboard/lender-dashboard.component.ts:604-635 | a higher credit score never makes the assessed risk worse |
| LenderDashboard.GetRecommendation | src/app/features/lender/lender-dashboard/lender-dashboard.component.ts:638-652 | one of four texts: strong iff low risk and credit ≥ 700, moderate iff medium and ≥ 650, high iff high and ≥ 600, otherwise very high risk |
| LenderDashboard.PoorCreditIsVeryHighRisk | src/app/features/lender/lender-dashboard/lender-dashboard.component.ts:638-652 | a credit score below 600 is always advised against |
| LenderDashboard.RiskScore | src/app/features/lender/lender-dashboard/lender-dashboard.component.ts:952-977 | in 0..100 |
| LenderDashboard.FullRiskScoreIsLowRisk | src/app/features/lender/lender-dashboard/lender-dashboard.component.ts:952-977 | a full risk score of 100 implies the assessed risk is low |
| LenderDashboard.ConfidenceScore | src/app/features/lender/lender-dashboard/lender-dashboard.component.ts:1068-1096 | in 40..100 |
| LenderDashboard.ConfidenceMonotoneInIncome | src/app/features/lender/lender-dashboard/lender-dashboard.component.ts:1068-1096 | more income never lowers the confidence score |
| LenderDashboard.ScenarioRiskScore | src/app/features/lender/lender-dashboard/lender-dashboard.component.ts:1193-1215 | in 30..100 |
| LenderDashboard.ScenarioRiskMonotone | src/app/features/lender/lender-dashboard/lender-dashboard.component.ts:1193-1215 | a larger amount, longer term or higher rate never lowers the scenario risk |
| LenderDashboard.ScoreClass | src/app/features/lender/lender-dashboard/lender-dashboard.component.ts:287-292 | 'score-high' iff the score is present, non-zero and ≥ 80; 'score-medium' iff present, non-zero and 60..79; 'score-low' iff missing, zero or below 60 |
| LenderDashboard.StatusClass | src/app/features/lender/lender-dashboard/lender-dashboard.component.ts:269-276 | 'status-approved', 'status-rejected' and 'status-pending' each exactly for its status; 'status-default' exactly for every other status |
| LenderDashboard.StatusIcon | src/app/features/lender/lender-dashboard/lender-dashboard.component.ts:278-285 | ✅ iff APPROVED, ❌ iff REJECTED, ⏳ iff PENDING, ❓ for every other status |
| LenderDashboard.StatusClassAndIconAgree | src/app/features/lender/lender-dashboard/lender-dashboard.component.ts:269-285 | for each status and the default, the class names it iff the icon does |
| LenderDashboard.AffordabilityClass | src/app/features/lender/lender-dashboard/lender-dashboard.component.ts:1335-1340 | excellent iff ≥ 80, good iff 60..79, fair iff 40..59, poor iff < 40 |
| LenderDashboard.RiskClass | src/app/features/lender/lender-dashboard/lender-dashboard.component.ts:1342-1346 | low iff ≤ 30, medium iff 31..60, high iff > 60 |
| LenderDashboard.ScenarioRiskClassAtFloor | src/app/features/lender/lender-dashboard/lender-dashboard.component.ts:1193-1215 | a scenario reads low iff amount ≤ 10000, term ≤ 12 and rate ≤ 8% |
| LenderDashboard.BulkDecision | src/app/features/lender/lender-dashboard/lender-dashboard.component.ts:428-436 | APPROVED iff auto-approve is on and the score reaches the minimum; otherwise REJECTED iff the score (missing as 0) is at most 0; otherwise PENDING |
| LenderDashboard.DefaultSettingsNeverApprove | src/app/features/lender/lender-dashboard/lender-dashboard.component.ts:56-61 | with the default settings bulk processing never approves |
| LenderDashboard.BulkOutcome | src/app/features/lender/lender-dashboard/lender-dashboard.component.ts:428-451 | the id is kept; a non-PENDING application is untouched; a PENDING one takes the decided status, and stays as it was when the decision is PENDING |
| LenderDashboard.BulkOnlyDecidesPending | src/app/features/lender/lender-dashboard/lender-dashboard.component.ts:425-451 | bulk processing only changes PENDING applications, and only to APPROVED or REJECTED |
| LenderDashboard.SpliceStart | src/app/features/lender/lender-dashboard/lender-dashboard.component.ts:396 | where `splice(index, 1)` starts: the index when in range, counted from the end when negative, clamped to the list |
| LenderDashboard.SpliceOne | src/app/features/lender/lender-dashboard/lender-dashboard.component.ts:396 | for 0 ≤ index < length removes exactly that element; an index past the end changes nothing |
| LenderDashboard.NotificationIndex | src/app/features/lender/lender-dashboard/lender-dashboard.component.ts:411 | the first notification with that id; none exactly when no notification has it |
| LenderDashboard.SegmentOf | src/app/features/lender/lender-dashboard/lender-dashboard.component.ts:870-882 | High-Value iff the amount is at least 50000, Medium-Value iff 20000..49999, Low-Value otherwise |
| LenderDashboard.CountInSegment | src/app/features/lender/lender-dashboard/lender-dashboard.component.ts:870-882 | a segment never counts more applications than the list has |
| LenderDashboard.SegmentAppend | src/app/features/lender/lender-dashboard/lender-dashboard.component.ts:870-882 | segment counts and totals of a concatenation add up |
| LenderDashboard.SegmentSnoc | src/app/features/lender/lender-dashboard/lender-dashboard.component.ts:870-882 | one more application adds one to the count, and its amount to the total, of its own segment only |
| LenderDashboard.SegmentsPartition | src/app/features/lender/lender-dashboard/lender-dashboard.component.ts:863-889 | the three counts sum to the number of applications and the three totals to the total amount |
| LenderDashboard.CountRisk | src/app/features/lender/lender-dashboard/lender-dashboard.component.ts:784-791 | a risk level never counts more applications than the list has |
| LenderDashboard.RiskLevelsPartition | src/app/features/lender/lender-dashboard/lender-dashboard.component.ts:784-791 | low + medium + high counts equal the length |
| LenderDashboard.IndexIsPosition | src/app/features/lender/lender-dashboard/lender-dashboard.component.ts:449-451 | with unique ids kept in place, the write-back index of position i is i |
| LenderDashboard.BulkStep | src/app/features/lender/lender-dashboard/lender-dashboard.component.ts:425-451 | one loop step turns the first i decided applications into the first i+1 |
| LenderDashboard.UnvisitedAt | src/app/features/lender/lender-dashboard/lender-dashboard.component.ts:428-451 | before step i the application at position i is still as it was loaded |
| LenderDashboard.ProcessAt | src/app/features/lender/lender-dashboard/lender-dashboard.component.ts:438-452 | handling one application keeps the length and every id in place |
| LenderDashboard.ProcessAtStep | src/app/features/lender/lender-dashboard/lender-dashboard.component.ts:438-452 | with unique ids, handling application i of the snapshot extends the decided prefix by one |
| LenderDashboard.DecidedPrefixKeepsIds | src/app/features/lender/lender-dashboard/lender-dashboard.component.ts:438-452 | a partly decided list has the snapshot's length and ids in place |
| LenderDashboard.ProcessAtIsUpdate | src/app/features/lender/lender-dashboard/lender-dashboard.component.ts:438-452 | with unique ids in place, handling application i replaces position i by its outcome and changes nothing else |
| LenderDashboard.BulkProcessOne | src/app/features/lender/lender-dashboard/lender-dashboard.component.ts:438-452 | the loop body computes ProcessAt: it keeps the length and every id in place and extends the decided prefix by one |
| LenderDashboard.DecideOne | src/app/features/lender/lender-dashboard/lender-dashboard.component.ts:428-445 | the decision of a PENDING application and the application as it is written back |
| LenderDashboard.BulkDecideAll | src/app/features/lender/lender-dashboard/lender-dashboard.component.ts:423-451 | counts the PENDING applications and, with unique ids, leaves every application as BulkOutcome decides it, ids in place |
| LenderDashboard.LenderDashboardComponent.constructor | src/app/features/lender/lender-dashboard/lender-dashboard.component.ts:99-131 | the given user and notifications; the fetched applications, or none when the request failed; default bulk settings; not processing |
| LenderDashboard.LenderDashboardComponent.GetPendingCount | src/app/features/lender/lender-dashboard/lender-dashboard.component.ts:294-296 | the number of PENDING applications |
| LenderDashboard.LenderDashboardComponent.GetApprovedCount | src/app/features/lender/lender-dashboard/lender-dashboard.component.ts:298-300 | the number of APPROVED applications |
| LenderDashboard.LenderDashboardComponent.GetTotalApprovedAmount | src/app/features/lender/lender-dashboard/lender-dashboard.component.ts:482-486 | 0 when nothing is approved; non-negative when every amount is |
| LenderDashboard.LenderDashboardComponent.GetApprovalRate | src/app/features/lender/lender-dashboard/lender-dashboard.component.ts:494-498 | 0 for no applications, otherwise approved × 100 / total, in 0..100 |
| LenderDashboard.LenderDashboardComponent.GetRiskDistribution | src/app/features/lender/lender-dashboard/lender-dashboard.component.ts:784-791 | risk levels of the approved applications: low + medium + high equals the total, which is the approved count |
| LenderDashboard.WithShares | src/app/features/lender/lender-dashboard/lender-dashboard.component.ts:884-888 | the segment keeps its fields and gets its mean amount (0 when empty) and its share in percent, in 0..100, NaN exactly for no applications |
| LenderDashboard.SharesSumToHundred | src/app/features/lender/lender-dashboard/lender-dashboard.component.ts:884-888 | three segments whose counts make up all applications have shares summing to 100 |
| LenderDashboard.LenderDashboardComponent.TallySegments | src/app/features/lender/lender-dashboard/lender-dashboard.component.ts:870-882 | each segment's count and total are the per-segment figures of the list |
| LenderDashboard.LenderDashboardComponent.GetCustomerSegments | src/app/features/lender/lender-dashboard/lender-dashboard.component.ts:863-889 | three named segments whose counts and totals are the per-segment figures, summing to the length and to the total amount; each has its mean amount and its share in percent, NaN for an empty list, and the shares sum to 100 |
| LenderDashboard.LenderDashboardComponent.AddNotification | src/app/features/lender/lender-dashboard/lender-dashboard.component.ts:399-407 | prepends one unread notification whose id is the time as text; the applications, settings, user and busy flag are unchanged |
| LenderDashboard.LenderDashboardComponent.DismissNotification | src/app/features/lender/lender-dashboard/lender-dashboard.component.ts:395-397 | the list after `splice(index, 1)`; the applications, settings, user and busy flag are unchanged |
| LenderDashboard.LenderDashboardComponent.ExpireNotification | src/app/features/lender/lender-dashboard/lender-dashboard.component.ts:410-415 | the deferred removal drops the first notification with that id, and nothing when none has it; the applications, settings, user and busy flag are unchanged |
| LenderDashboard.LenderDashboardComponent.ApplyBulkDecisions | src/app/features/lender/lender-dashboard/lender-dashboard.component.ts:423-451 | the application list becomes the bulk outcome of every application; the pending count is returned; notifications and settings are unchanged |
| LenderDashboard.LenderDashboardComponent.ProcessBulkApplications | src/app/features/lender/lender-dashboard/lender-dashboard.component.ts:423-480 | as written: applies the decisions with the unchanged settings and user, and the busy flag stays raised iff there was no PENDING application; notifications unchanged |
| LenderDashboard.LenderDashboardComponent.ProcessBulkApplicationsCorrected | src/app/features/lender/lender-dashboard/lender-dashboard.component.ts:423-480 | applies the decisions with the unchanged settings and user and always lowers the busy flag; notifications unchanged |
| LenderRules.FormOf | src/app/features/lender/rules/lender-rules.component.ts:73-80 | the form holds the rule's ages and a value for every control |
| LenderRules.FormValid | src/app/features/lender/rules/lender-rules.component.ts:34-40 | an emptied form and the form addRule opens never pass |
| LenderRules.FormOfValid | src/app/features/lender/rules/lender-rules.component.ts:34-40 | the form of a rule passes iff salary ≥ 0, loan cap ≥ 1000, credit score in 300..850 and both ages in 18..100 |
| LenderRules.SubmitRequest | src/app/features/lender/rules/lender-rules.component.ts:103-115 | create iff minAge < maxAge and adding; update iff minAge < maxAge, not adding, editing and the rule id truthy, carrying that id; never a delete |
| LenderRules.ReplaceRule | src/app/features/lender/rules/lender-rules.component.ts:152-155 | the length is kept; an absent id changes nothing; otherwise only the first rule with that id is replaced |
| LenderRules.ReplaceRuleKeepsIds | src/app/features/lender/rules/lender-rules.component.ts:152-155 | replacing by a rule with the same id keeps every id in place |
| LenderRules.LenderRulesComponent.constructor | src/app/features/lender/rules/lender-rules.component.ts:16-42 | no rules yet, not loading, no editor open, no messages |
| LenderRules.LenderRulesComponent.LoadRules | src/app/features/lender/rules/lender-rules.component.ts:48-60 | the service's rules on success; the old rules and 'Failed to load rules: ' with the message on failure; loading ends either way; the editor invariant is kept |
| LenderRules.LenderRulesComponent.AddRule | src/app/features/lender/rules/lender-rules.component.ts:62-67 | adding, not editing, no rule id, the new-rule form; rules unchanged |
| LenderRules.LenderRulesComponent.EditRule | src/app/features/lender/rules/lender-rules.component.ts:69-81 | editing that rule's id with its values in the form, not adding; rules unchanged |
| LenderRules.LenderRulesComponent.CancelEdit | src/app/features/lender/rules/lender-rules.component.ts:83-88 | neither adding nor editing, no id, an empty form |
| LenderRules.LenderRulesComponent.OnSubmit | src/app/features/lender/rules/lender-rules.component.ts:90-120 | an invalid form sends nothing; minAge ≥ maxAge sets the age message and sends nothing; otherwise the request SubmitRequest gives; the list and the editor state are unchanged |
| LenderRules.LenderRulesComponent.OnCreated | src/app/features/lender/rules/lender-rules.component.ts:126-133 | appends the new rule, reports success and closes the editor |
| LenderRules.LenderRulesComponent.OnCreateFailed | src/app/features/lender/rules/lender-rules.component.ts:134-145 | reports the server's message, else the error's, else 'Unknown error', and stops saving |
| LenderRules.LenderRulesComponent.OnUpdated | src/app/features/lender/rules/lender-rules.component.ts:151-160 | replaces the rule with that id in place, reports success and closes the editor |
| LenderRules.LenderRulesComponent.OnUpdateFailed | src/app/features/lender/rules/lender-rules.component.ts:161-164 | reports the failure and stops saving |
| LenderRules.LenderRulesComponent.DeleteRule | src/app/features/lender/rules/lender-rules.component.ts:168-170 | only a confirmed deletion is sent |
| LenderRules.LenderRulesComponent.OnDeleted | src/app/features/lender/rules/lender-rules.component.ts:171-175 | drops exactly the rules with that id, keeping the rest in order, and reports success |
| LenderRules.LenderRulesComponent.OnDeleteFailed | src/app/features/lender/rules/lender-rules.component.ts:176-178 | reports the failure |
| LenderRules.LenderRulesComponent.ClearSuccessMessage | src/app/features/lender/rules/lender-rules.component.ts:132 | the deferred blanking of the success message |
| LenderRules.LenderRulesComponent.ClearErrorMessage | src/app/features/lender/rules/lender-rules.component.ts:144 | the deferred blanking of the error message |
| LenderAnalytics.LenderAnalyticsComponent.constructor | src/app/features/lender/analytics/lender-analytics.component.ts:19-30 | no applications, not loading, every figure at 0 |
| LenderAnalytics.LenderAnalyticsComponent.CalculateAnalytics | src/app/features/lender/analytics/lender-analytics.component.ts:82-98 | the total is the length; the three status counts sum to at most the total; the amount sums loanAmount, else requestedAmount, else 0; average and rate are 0 for no applications; the rate is approved × 100 / total in 0..100 |
| LenderAnalytics.LenderAnalyticsComponent.LoadAnalyticsData | src/app/features/lender/analytics/lender-analytics.component.ts:54-80 | on success the fetched applications with figures consistent with them, as CalculateAnalytics gives; on failure every figure and the list unchanged; loading ends either way |
| SmartMatching.StatusFor | src/app/features/borrower/smart-matching/smart-matching.component.ts:117-120 | ELIGIBLE iff ≥ 80, PARTIALLY_ELIGIBLE iff 60..79, NOT_ELIGIBLE iff < 60 |
| SmartMatching.CalculateMatchScore | src/app/features/borrower/smart-matching/smart-matching.component.ts:69-131 | the score is the sum of points awarded for credit 30, income 25, age 15, loan range 20 and specialization 10, in 0..100; the tier follows the score; 4 reasons, 5 with the specialization; the rate is the lender's minimum; the fee is 500; the max loan is the smaller of the lender's max and the user's limit |
| SmartMatching.Reasons | src/app/features/borrower/smart-matching/smart-matching.component.ts:72-113 | four reasons, five with the specialization; each of the first four starts with ✅ iff its criterion is met, and with ⚠ otherwise |
| SmartMatching.CreditAndIncomeDecide | src/app/features/borrower/smart-matching/smart-matching.component.ts:69-131 | a lender failing both the credit and the income criteria scores at most 45 and is not eligible |
| SmartMatching.CalculateAge | src/app/features/borrower/smart-matching/smart-matching.component.ts:133-143 | 25 without a date of birth, otherwise the age on that day |
| SmartMatching.MatchScoreClass | src/app/features/borrower/smart-matching/smart-matching.component.ts:166-171 | tiers at 80, 70 and 60 |
| SmartMatching.ExcellentIffEligible | src/app/features/borrower/smart-matching/smart-matching.component.ts:117-120 | a match shows the excellent class iff it is ELIGIBLE |
| SmartMatching.FilterMatches | src/app/features/borrower/smart-matching/smart-matching.component.ts:149-155 | keeps exactly the matches with score ≥ min, rate ≤ max and fee ≤ max; FilterMatchesAppend fixes their order and multiplicity |
| SmartMatching.FilterMatchesAppend | src/app/features/borrower/smart-matching/smart-matching.component.ts:149-155 | filtering a concatenation filters each part, so kept matches keep their order and multiplicity |
| SmartMatching.FilterKeepsOrder | src/app/features/borrower/smart-matching/smart-matching.component.ts:149-155 | filtering a list sorted by score leaves it sorted |
| SmartMatching.MatchAll | src/app/features/borrower/smart-matching/smart-matching.component.ts:52-67 | one match per lender, in order |
| SmartMatching.CountEligible | src/app/features/borrower/smart-matching/smart-matching.component.ts:173-175 | at most the number of matches |
| SmartMatching.SmartMatchingComponent.constructor | src/app/features/borrower/smart-matching/smart-matching.component.ts:27-35 | no matches, not loading, and the default filters 70, 15%, 1000 |
| SmartMatching.SmartMatchingComponent.LoadLenderMatches | src/app/features/borrower/smart-matching/smart-matching.component.ts:52-67 | on a fetched list, the matches are the lenders' matches sorted by SortDesc on the score: a permutation, non-increasing, and matches with equal scores keep the lenders' order; a failed fetch keeps the old matches; loading ends either way |
| SmartMatching.SmartMatchingComponent.SortByMatchScore | src/app/features/borrower/smart-matching/smart-matching.component.ts:145-147 | a permutation of the old list, non-increasing by score, matches with equal scores in their old order |
| SmartMatching.SmartMatchingComponent.ApplyFilters | src/app/features/borrower/smart-matching/smart-matching.component.ts:149-155 | the filtered list, still sorted when it was |
| SmartMatching.SmartMatchingComponent.ResetFilters | src/app/features/borrower/smart-matching/smart-matching.component.ts:157-164 | restores 70, 15%, 1000 and reloads: on a fetched list the matches sorted by score, equal scores in the lenders' order; on a failed fetch the old matches; loading ends |
| SmartMatching.SmartMatchingComponent.GetEligibleCount | src/app/features/borrower/smart-matching/smart-matching.component.ts:173-175 | the number of ELIGIBLE matches, at most the number of matches |
| Dates.AgeOn | src/app/features/borrower/apply-loan/borrower-apply-loan.component.ts:116-127 | the number of birthdays reached: the day is on or after the age-th birthday and before the next one |
| Dates.AgeMonotone | src/app/features/borrower/apply-loan/borrower-apply-loan.component.ts:116-127 | the age never decreases as the day moves forward |
| ApplyLoan.CreditPoints | src/app/features/borrower/apply-loan/borrower-apply-loan.component.ts:80-85 | 40, 30, 20 or 10 at 750, 650 and 550; 0 exactly when the score is missing or 0 |
| ApplyLoan.IncomePoints | src/app/features/borrower/apply-loan/borrower-apply-loan.component.ts:88-93 | 30, 25, 20 or 15 at 100000, 50000 and 25000; 0 exactly when income is missing or 0 |
| ApplyLoan.EmploymentPoints | src/app/features/borrower/apply-loan/borrower-apply-loan.component.ts:96-103 | EMPLOYED 20, SELF_EMPLOYED 18, STUDENT 15, any other non-empty text 10; 0 exactly when it is missing or empty |
| ApplyLoan.AgePoints | src/app/features/borrower/apply-loan/borrower-apply-loan.component.ts:106-111 | 10 for 25..55, 8 for 18..65, 5 otherwise; 0 exactly without a date of birth |
| ApplyLoan.EligibilityScore | src/app/features/borrower/apply-loan/borrower-apply-loan.component.ts:78-113 | the four points summed and capped at 100, so in 0..100 |
| ApplyLoan.ScoreMonotoneInCredit | src/app/features/borrower/apply-loan/borrower-apply-loan.component.ts:80-85 | a higher credit score never lowers the eligibility score |
| ApplyLoan.EligibilityClass | src/app/features/borrower/apply-loan/borrower-apply-loan.component.ts:199-204 | excellent iff ≥ 80, good iff 60..79, fair iff 40..59, poor iff < 40 |
| ApplyLoan.EligibilityMessage | src/app/features/borrower/apply-loan/borrower-apply-loan.component.ts:206-211 | one of the four messages |
| ApplyLoan.ClassAndMessageAgree | src/app/features/borrower/apply-loan/borrower-apply-loan.component.ts:199-211 | class and message use the same cut-offs: each class goes with exactly one message |
| ApplyLoan.BorrowerApplyLoanComponent.constructor | src/app/features/borrower/apply-loan/borrower-apply-loan.component.ts:17-23 | the given user, score 0, check hidden |
| ApplyLoan.BorrowerApplyLoanComponent.CalculateEligibilityScore | src/app/features/borrower/apply-loan/borrower-apply-loan.component.ts:74-114 | without a user the score is left as it was; with one it is EligibilityScore, in 0..100 |
| ApplyLoan.BorrowerApplyLoanComponent.CheckEligibility | src/app/features/borrower/apply-loan/borrower-apply-loan.component.ts:129-132 | recomputes the score and shows the check |
| DocumentManagement.RequiredOf | src/app/features/borrower/document-management/document-management.component.ts:45-52 | exactly the types the table marks required |
| DocumentManagement.RequiredTypesAreFive | src/app/features/borrower/document-management/document-management.component.ts:45-52 | the required types, in table order, are PAN, Aadhaar, bank statement, salary slip and address proof |
| DocumentManagement.RequiredMembership | src/app/features/borrower/document-management/document-management.component.ts:45-52 | a type is required exactly when it is not OTHER |
| DocumentManagement.TypesWhere | src/app/features/borrower/document-management/document-management.component.ts:234-243 | exactly the listed types whose upload status matches |
| DocumentManagement.TypesWherePartition | src/app/features/borrower/document-management/document-management.component.ts:225-243 | uploaded and missing types together are the listed types |
| DocumentManagement.MissingDocuments | src/app/features/borrower/document-management/document-management.component.ts:234-243 | exactly the required types no document has; never OTHER |
| DocumentManagement.CompletedTypes | src/app/features/borrower/document-management/document-management.component.ts:225-232 | exactly the required types some document has |
| DocumentManagement.RequiredDocumentsCount | src/app/features/borrower/document-management/document-management.component.ts:259-261 | 5 |
| DocumentManagement.CompletedPlusMissing | src/app/features/borrower/document-management/document-management.component.ts:225-265 | completed plus missing types equal the required count |
| DocumentManagement.CompletionPercentage | src/app/features/borrower/document-management/document-management.component.ts:225-232 | in 0..100, and 100 iff nothing is missing |
| DocumentManagement.TypeInfo | src/app/features/borrower/document-management/document-management.component.ts:190 | the entry found has that type; none exactly when the table lacks it |
| DocumentManagement.DocumentIcon | src/app/features/borrower/document-management/document-management.component.ts:189-192 | never empty; LookupsFindEveryType pins it to the table row's icon |
| DocumentManagement.DocumentTypeLabel | src/app/features/borrower/document-management/document-management.component.ts:194-197 | never empty |
| DocumentManagement.LookupsFindEveryType | src/app/features/borrower/document-management/document-management.component.ts:189-197 | every type is in the table, so the icon and the label are the table row's, and the label is never the fallback |
| DocumentManagement.TypeInfoFindsFirst | src/app/features/borrower/document-management/document-management.component.ts:189-197 | `find` returns the first row whose type matches |
| DocumentManagement.ApplicationName | src/app/features/borrower/document-management/document-management.component.ts:253-257 | 'Not Assigned' for a missing or zero id, 'Application #id' when found, else 'Unknown Application' |
| DocumentManagement.AsWrittenDocumentId | src/app/features/borrower/document-management/document-management.component.ts:168 | as written: the new id is the length plus one |
| DocumentManagement.MaxDocumentId | src/app/features/borrower/document-management/document-management.component.ts:168 | no document id exceeds it |
| DocumentManagement.FreshDocumentId | src/app/features/borrower/document-management/document-management.component.ts:168 | a positive id that no document has |
| DocumentManagement.WithoutDocument | src/app/features/borrower/document-management/document-management.component.ts:179 | the documents whose id is not the given one, in order; a document without an id is kept; with every id present it is the filter on the numeric id |
| DocumentManagement.DuplicateIdAfterDelete | src/app/features/borrower/document-management/document-management.component.ts:150-181 | after deleting document 1 of the initial three, the as-written id of the next upload is 3, which the bank statement already has |
| DocumentManagement.DocumentManagementComponent.constructor | src/app/features/borrower/document-management/document-management.component.ts:60-72 | no documents yet and loading, the form closed, nothing selected; the fetched applications, or none when the request failed (lines 110-120) |
| DocumentManagement.DocumentManagementComponent.LoadDocuments | src/app/features/borrower/document-management/document-management.component.ts:74-107 | the deferred load: the three initial documents, and loading ends |
| DocumentManagement.DocumentManagementComponent.StartUpload | src/app/features/borrower/document-management/document-management.component.ts:150-166 | nothing happens without a selected file; otherwise a PENDING document of the selected type starts uploading |
| DocumentManagement.DocumentManagementComponent.FinishUpload | src/app/features/borrower/document-management/document-management.component.ts:167-174 | as written: inserts the document at the front with id length + 1 and clears the selection |
| DocumentManagement.DocumentManagementComponent.FinishUploadCorrected | src/app/features/borrower/document-management/document-management.component.ts:167-174 | inserts at the front with an id no other document has, and clears the selection |
| DocumentManagement.DocumentManagementComponent.DeleteDocument | src/app/features/borrower/document-management/document-management.component.ts:177-181 | a confirmed deletion removes exactly the documents with that id, keeping the order and any document without an id; otherwise nothing changes |
| DocumentManagement.DocumentManagementComponent.ToggleUploadForm | src/app/features/borrower/document-management/document-management.component.ts:245-251 | flips the flag; closing clears the selected file and application |
| DocumentManagement.DocumentManagementComponent.GetMissingDocumentsCount | src/app/features/borrower/document-management/document-management.component.ts:263-265 | at most 5, and 0 iff completion is 100 |
| MyApplications.StatusBadgeClass | src/app/features/borrower/my-applications/borrower-my-applications.component.ts:132-143 | one badge per APPROVED, REJECTED and CANCELLED; pending exactly for every other status |
| MyApplications.StatusIcon | src/app/features/borrower/my-applications/borrower-my-applications.component.ts:145-156 | one of the four icons |
| MyApplications.BadgeAndIconAgree | src/app/features/borrower/my-applications/borrower-my-applications.component.ts:132-156 | badge and icon always name the same status group |
| MyApplications.LenderName | src/app/features/borrower/my-applications/borrower-my-applications.component.ts:192-199 | ids 1 to 3 have fixed names; every other id is 'Unknown Lender' |
| MyApplications.TotalApprovedAmount | src/app/features/borrower/my-applications/borrower-my-applications.component.ts:223-227 | the sum of loanAmount over APPROVED applications, and NaN (none) exactly when an approved application has no amount |
| MyApplications.SumScoresBounded | src/app/features/borrower/my-applications/borrower-my-applications.component.ts:229-232 | scores in 0..100 sum to at most 100 × length |
| MyApplications.AverageEligibilityScore | src/app/features/borrower/my-applications/borrower-my-applications.component.ts:229-232 | 0 for no applications, otherwise the exact mean of the scores with missing as 0 |
| MyApplications.AverageScoreInRange | src/app/features/borrower/my-applications/borrower-my-applications.component.ts:229-232 | scores in 0..100 have an average in 0..100 |
| MyApplications.BorrowerMyApplicationsComponent.constructor | src/app/features/borrower/my-applications/borrower-my-applications.component.ts:17-21 | the given applications with no selection |
| MyApplications.BorrowerMyApplicationsComponent.ViewApplicationDetails | src/app/features/borrower/my-applications/borrower-my-applications.component.ts:122-125 | selects the application and shows the details |
| MyApplications.BorrowerMyApplicationsComponent.CloseApplicationDetails | src/app/features/borrower/my-applications/borrower-my-applications.component.ts:127-130 | clears the selection and hides the details |
| MyApplications.BorrowerMyApplicationsComponent.GetApplicationStats | src/app/features/borrower/my-applications/borrower-my-applications.component.ts:214-221 | the length and the three status counts, which sum to at most the length |
| EligibilityCheck.EligibleCount | src/app/features/borrower/eligibility-check/borrower-eligibility-check.component.ts:107-109 | at most the length; 0 iff no answer is eligible; the length iff all are |
| EligibilityCheck.RiskClass | src/app/features/borrower/eligibility-check/borrower-eligibility-check.component.ts:122-129 | low, medium and high compared case-insensitively; unknown exactly otherwise |
| EligibilityCheck.RiskIconAsWritten | src/app/features/borrower/eligibility-check/borrower-eligibility-check.component.ts:131-138 | as written: every icon is three or four characters long |
| EligibilityCheck.RiskIcon | src/app/features/borrower/eligibility-check/borrower-eligibility-check.component.ts:131-138 | one circle each, in step with the risk class |
| EligibilityCheck.RiskIconGarbled | src/app/features/borrower/eligibility-check/borrower-eligibility-check.component.ts:131-138 | for LOW the as-written icon is four characters where one was meant |
| EligibilityCheck.TotalScoreBounded | src/app/features/borrower/eligibility-check/borrower-eligibility-check.component.ts:168-172 | scores in 0..100 sum to at most 100 × length |
| EligibilityCheck.OverallScore | src/app/features/borrower/eligibility-check/borrower-eligibility-check.component.ts:168-172 | 0 for no answers, otherwise the mean rounded half up |
| EligibilityCheck.OverallScoreInRange | src/app/features/borrower/eligibility-check/borrower-eligibility-check.component.ts:168-172 | scores in 0..100 give an overall score in 0..100 |
| EligibilityCheck.OverallMessage | src/app/features/borrower/eligibility-check/borrower-eligibility-check.component.ts:179-185 | each message goes with exactly one class of the overall score |
| EligibilityCheck.FixtureOverview | src/app/features/borrower/eligibility-check/borrower-eligibility-check.component.ts:49-102 | the loaded answers: three of four eligible, overall score 70, classed good |
| EligibilityCheck.BorrowerEligibilityCheckComponent.constructor | src/app/features/borrower/eligibility-check/borrower-eligibility-check.component.ts:17-20 | no answers, details hidden, not loading, no error |
| EligibilityCheck.BorrowerEligibilityCheckComponent.CheckEligibility | src/app/features/borrower/eligibility-check/borrower-eligibility-check.component.ts:43-45 | raises the loading flag and clears the error; the answers are left as they were |
| EligibilityCheck.BorrowerEligibilityCheckComponent.FinishCheckEligibility | src/app/features/borrower/eligibility-check/borrower-eligibility-check.component.ts:48-104 | the deferred step: loads the four fixed answers and lowers the loading flag |
| EligibilityCheck.BorrowerEligibilityCheckComponent.ViewDetailedResults | src/app/features/borrower/eligibility-check/borrower-eligibility-check.component.ts:155-157 | toggles the details flag |
| EligibilityCheck.BorrowerEligibilityCheckComponent.GetEligibleCount | src/app/features/borrower/eligibility-check/borrower-eligibility-check.component.ts:107-109 | the eligible count, at most the total |
| EligibilityCheck.BorrowerEligibilityCheckComponent.GetTotalCount | src/app/features/borrower/eligibility-check/borrower-eligibility-check.component.ts:111-113 | the number of answers |
| EligibilityCheck.BorrowerEligibilityCheckComponent.GetOverallEligibilityClass | src/app/features/borrower/eligibility-check/borrower-eligibility-check.component.ts:174-177 | excellent iff the overall score is ≥ 80, good iff 60..79, fair iff 40..59, poor iff < 40 |
| Records.IndexOfId | src/app/core/services/mock-api.service.ts:155 | the first position with that id; none exactly when no application has it |
| Records.CountStatus | src/app/features/borrower/my-applications/borrower-my-applications.component.ts:217-219 | at most the length |
| Records.WithStatus | src/app/features/borrower/my-applications/borrower-my-applications.component.ts:217-219 | exactly the applications with that status, as many as CountStatus says |
| Records.Stats | src/app/features/borrower/my-applications/borrower-my-applications.component.ts:214-221 | the length and the three status counts, which sum to at most the length |
| Records.ApprovedAmountIsSumOfApproved | src/app/features/admin/applications/admin-applications.component.ts:104-108 | the approved amount is the loan total of the approved sub-list |
| Records.ThreeStatusCountsBounded | src/app/features/borrower/my-applications/borrower-my-applications.component.ts:214-221 | three different statuses never count more than the length |
| Records.CountStatusAppend | src/app/features/admin/analytics-dashboard/analytics-dashboard.component.ts:178-191 | status counts of a concatenation add up |
| Records.SumLoanAmountAppend | src/app/features/admin/analytics-dashboard/analytics-dashboard.component.ts:89 | loan totals of a concatenation add up |
| Sorting.Insert | src/app/features/borrower/smart-matching/smart-matching.component.ts:146 | one element longer, holding the old elements and the new one |
| Sorting.InsertMember | src/app/features/borrower/smart-matching/smart-matching.component.ts:146 | every element after inserting is the new one or one of the list |
| Sorting.ConsSorted | src/app/features/borrower/smart-matching/smart-matching.component.ts:146 | an element with a key at least every key of a sorted list can go first |
| Sorting.TailSorted | src/app/features/borrower/smart-matching/smart-matching.component.ts:146 | the tail of a sorted list is sorted |
| Sorting.InsertSorted | src/app/features/borrower/smart-matching/smart-matching.component.ts:146 | inserting into a sorted list keeps it sorted |
| Sorting.SortDesc | src/app/features/borrower/smart-matching/smart-matching.component.ts:146 | a permutation, non-increasing by key; SortDescStable proves it stable |
| Sorting.KeyFilter | src/app/features/borrower/smart-matching/smart-matching.component.ts:146 | the elements with key k, in order: no more than the list, all with key k |
| Sorting.KeyFilterAppend | src/app/features/borrower/smart-matching/smart-matching.component.ts:146 | filtering a concatenation by key filters each part |
| Sorting.InsertStable | src/app/features/borrower/smart-matching/smart-matching.component.ts:146 | inserting puts the new element before every old one with its key |
| Sorting.SortDescStable | src/app/features/borrower/smart-matching/smart-matching.component.ts:146 | sorting keeps, for every key, the elements with that key in their input order (`Array.prototype.sort` is stable) |
| Sorting.Take | src/app/features/admin/analytics-dashboard/analytics-dashboard.component.ts:175 | `slice(0, n)`: the first min(n, length) elements |
| Sorting.TakeKeepsFirstTies | src/app/features/admin/analytics-dashboard/analytics-dashboard.component.ts:174-175 | among elements with the same key, the first n of the sorted list keep a prefix of them in input order |
| Sorting.TakeSorted | src/app/features/admin/analytics-dashboard/analytics-dashboard.component.ts:174-175 | a prefix of a sorted list is sorted |
| Sorting.TakeRest | src/app/features/admin/analytics-dashboard/analytics-dashboard.component.ts:174-175 | the list is the prefix followed by the rest, as a sequence and as a multiset |
| Sorting.OutsideSortedPrefix | src/app/features/admin/analytics-dashboard/analytics-dashboard.component.ts:174-175 | an element of a sorted list left out of its first n has a key no larger than any of them |
| Sorting.InsertSum | src/app/features/admin/analytics-dashboard/analytics-dashboard.component.ts:190 | inserting adds the key to the sum of keys |
| Sorting.SortDescSum | src/app/features/admin/analytics-dashboard/analytics-dashboard.component.ts:190 | sorting keeps the sum of keys |
| Sorting.InsertDistinct | src/app/features/admin/analytics-dashboard/analytics-dashboard.component.ts:190 | inserting a new name keeps names distinct |
| Sorting.SortDescDistinct | src/app/features/admin/analytics-dashboard/analytics-dashboard.component.ts:190 | sorting keeps names distinct |
| Js.RoundDiv | src/app/features/admin/analytics-dashboard/analytics-dashboard.component.ts:189 | `Math.round(num / den)`: the integer nearest to the ratio, halves rounded up |
| Js.RoundedPercentBounds | src/app/features/admin/analytics-dashboard/analytics-dashboard.component.ts:189 | a rounded share of a total is in 0..100 |
| Js.MulMono | src/app/features/admin/analytics-dashboard/analytics-dashboard.component.ts:123 | multiplying by a positive number keeps the order |
| Js.RoundDivBetween | src/app/features/admin/analytics-dashboard/analytics-dashboard.component.ts:189 | rounding a quotient that lies between two integers gives a result between them |
| Js.RoundedHundredthsBounds | src/app/features/admin/analytics-dashboard/analytics-dashboard.component.ts:91-92 | a rate in hundredths of a percent is in 0..10000 |
| Js.Percent | src/app/features/lender/analytics/lender-analytics.component.ts:94 | count × 100 / total exactly, in 0..100 when count ≤ total |
| Js.Average | src/app/features/lender/analytics/lender-analytics.component.ts:91 | 0 for no items, otherwise the exact quotient |
| Js.AverageBetween | src/app/features/borrower/my-applications/borrower-my-applications.component.ts:229-232 | items bounded by lo and hi have an average between them |
| AdminAnalytics.RoundedPercent | src/app/features/admin/analytics-dashboard/analytics-dashboard.component.ts:189 | 0 for an empty total, otherwise in 0..100 and the nearest integer to count × 100 / total |
| AdminAnalytics.RateHundredths | src/app/features/admin/analytics-dashboard/analytics-dashboard.component.ts:91-123 | 0 for no applications, otherwise in 0..10000 and the nearest integer to approved × 10000 / total |
| AdminAnalytics.CountBorrowers | src/app/features/admin/analytics-dashboard/analytics-dashboard.component.ts:86 | at most the number of users, and 0 iff no user has role BORROWER |
| AdminAnalytics.AppsOfLender | src/app/features/admin/analytics-dashboard/analytics-dashboard.component.ts:163-165 | exactly the applications of that lender; none for a lender without an id; AppsOfLenderAppend fixes their order and multiplicity |
| AdminAnalytics.AppsOfLenderAppend | src/app/features/admin/analytics-dashboard/analytics-dashboard.component.ts:163-165 | filtering a concatenation filters each part, in order |
| AdminAnalytics.LenderStatOf | src/app/features/admin/analytics-dashboard/analytics-dashboard.component.ts:162-172 | the number of the lender's applications, and the approval rate in hundredths of a percent rounded half up: 2n·rate ≤ 20000·approved + n < 2n·(rate + 1) for n applications; 0 with no applications |
| AdminAnalytics.StatsOfLenders | src/app/features/admin/analytics-dashboard/analytics-dashboard.component.ts:162-173 | one entry per lender, in order |
| AdminAnalytics.StatOfSomeLender | src/app/features/admin/analytics-dashboard/analytics-dashboard.component.ts:162-173 | every entry is the figure of one of the lenders |
| AdminAnalytics.Ranked | src/app/features/admin/analytics-dashboard/analytics-dashboard.component.ts:174 | a permutation of the entries, non-increasing by application count; entries with the same count keep the lenders' order |
| AdminAnalytics.TopLenders | src/app/features/admin/analytics-dashboard/analytics-dashboard.component.ts:161-176 | min(5, lenders) entries, non-increasing by count, drawn from the lenders' true figures; among lenders with the same count the ones kept come first in the lenders' order |
| AdminAnalytics.TopLendersAreTop | src/app/features/admin/analytics-dashboard/analytics-dashboard.component.ts:161-176 | a lender left out has no more applications than any lender kept |
| AdminAnalytics.DistinctStatuses | src/app/features/admin/analytics-dashboard/analytics-dashboard.component.ts:182-186 | no status twice, and every status of the list among them |
| AdminAnalytics.DistinctStatusesOccur | src/app/features/admin/analytics-dashboard/analytics-dashboard.component.ts:182-186 | and nothing else: every key is the status of some application |
| AdminAnalytics.CountStatusOfMember | src/app/features/admin/analytics-dashboard/analytics-dashboard.component.ts:182-184 | a status that occurs counts at least 1 |
| AdminAnalytics.CountStatusOfAbsent | src/app/features/admin/analytics-dashboard/analytics-dashboard.component.ts:182-184 | a status that does not occur counts 0 |
| AdminAnalytics.StatusEntries | src/app/features/admin/analytics-dashboard/analytics-dashboard.component.ts:186-190 | one entry per status key, in order |
| AdminAnalytics.StatusEntriesSnoc | src/app/features/admin/analytics-dashboard/analytics-dashboard.component.ts:186-189 | a key added last gives an entry added last |
| AdminAnalytics.StatusSumSnoc | src/app/features/admin/analytics-dashboard/analytics-dashboard.component.ts:182-184 | adding an application adds one to the counts' sum |
| AdminAnalytics.SumKeysAppend | src/app/features/admin/analytics-dashboard/analytics-dashboard.component.ts:186-190 | the count sum of a concatenation adds up |
| AdminAnalytics.StatusCountsSum | src/app/features/admin/analytics-dashboard/analytics-dashboard.component.ts:178-191 | the counts of the distinct statuses sum to the number of applications |
| AdminAnalytics.StatusTable | src/app/features/admin/analytics-dashboard/analytics-dashboard.component.ts:186-190 | one entry per distinct status, in order of first appearance |
| AdminAnalytics.StatusTableCounted | src/app/features/admin/analytics-dashboard/analytics-dashboard.component.ts:186-190 | each entry's count is its status count, at least 1 |
| AdminAnalytics.StatusTableCovers | src/app/features/admin/analytics-dashboard/analytics-dashboard.component.ts:186-190 | every status of the list has an entry |
| AdminAnalytics.PermutationKeepsFacts | src/app/features/admin/analytics-dashboard/analytics-dashboard.component.ts:190 | sorting the table keeps it counted and covering |
| AdminAnalytics.ApplicationStatuses | src/app/features/admin/analytics-dashboard/analytics-dashboard.component.ts:178-191 | one entry per distinct status, each count the status count, counts summing to the total, sorted non-increasing |
| AdminAnalytics.CountAfter | src/app/features/admin/analytics-dashboard/analytics-dashboard.component.ts:182-184 | adding an application adds one to its own status count only |
| AdminAnalytics.DistinctAfter | src/app/features/admin/analytics-dashboard/analytics-dashboard.component.ts:182-186 | a new status is added at the end of the distinct list; a known one leaves it |
| AdminAnalytics.TallySeen | src/app/features/admin/analytics-dashboard/analytics-dashboard.component.ts:183 | incrementing a known status keeps the dictionary a true tally |
| AdminAnalytics.TallyNew | src/app/features/admin/analytics-dashboard/analytics-dashboard.component.ts:183 | inserting a new status at 1 keeps the dictionary a true tally |
| AdminAnalytics.IncrementCounts | src/app/features/admin/analytics-dashboard/analytics-dashboard.component.ts:183 | adding one to a seen status's count keeps every count exact |
| AdminAnalytics.FirstCount | src/app/features/admin/analytics-dashboard/analytics-dashboard.component.ts:183 | a count of 1 for an unseen status keeps every count exact |
| AdminAnalytics.Entries | src/app/features/admin/analytics-dashboard/analytics-dashboard.component.ts:186-190 | one entry per dictionary key, in insertion order |
| AdminAnalytics.EntriesOfTally | src/app/features/admin/analytics-dashboard/analytics-dashboard.component.ts:186-190 | the entries of a true tally are the status table |
| AdminAnalytics.CalculateApplicationStatuses | src/app/features/admin/analytics-dashboard/analytics-dashboard.component.ts:178-191 | the loop that fills the count dictionary ends with ApplicationStatuses |
| AdminAnalytics.EachAmountInOneRange | src/app/features/admin/analytics-dashboard/analytics-dashboard.component.ts:194-204 | a non-negative amount is in some range and the ranges never overlap |
| AdminAnalytics.CountInRange | src/app/features/admin/analytics-dashboard/analytics-dashboard.component.ts:203-205 | at most the length |
| AdminAnalytics.CountNonNegative | src/app/features/admin/analytics-dashboard/analytics-dashboard.component.ts:203-205 | at most the length |
| AdminAnalytics.RangeStatsOf | src/app/features/admin/analytics-dashboard/analytics-dashboard.component.ts:202-211 | one entry per range with its label, count and rounded share |
| AdminAnalytics.SumOfRangeStats | src/app/features/admin/analytics-dashboard/analytics-dashboard.component.ts:202-211 | the entries' counts sum to the ranges' counts |
| AdminAnalytics.RangeCountsSum | src/app/features/admin/analytics-dashboard/analytics-dashboard.component.ts:193-214 | the five counts sum to the number of non-negative amounts |
| AdminAnalytics.FiveRangesSum | src/app/features/admin/analytics-dashboard/analytics-dashboard.component.ts:193-214 | the five range counts add up to the non-negative count |
| AdminAnalytics.NonEmptyRanges | src/app/features/admin/analytics-dashboard/analytics-dashboard.component.ts:213 | an entry is kept exactly when it has a positive count; the count sum is unchanged; NonEmptyRangesAppend fixes the order |
| AdminAnalytics.NonEmptyRangesAppend | src/app/features/admin/analytics-dashboard/analytics-dashboard.component.ts:213 | dropping empty ranges from a concatenation drops them from each part |
| AdminAnalytics.RangePosition | src/app/features/admin/analytics-dashboard/analytics-dashboard.component.ts:193-199 | the position of a label among the five ranges, or 5 for none |
| AdminAnalytics.AllRangesInOrder | src/app/features/admin/analytics-dashboard/analytics-dashboard.component.ts:193-211 | the range stats before filtering follow the five ranges in order |
| AdminAnalytics.NonEmptyInRangeOrder | src/app/features/admin/analytics-dashboard/analytics-dashboard.component.ts:213 | dropping empty ranges keeps range order |
| AdminAnalytics.RangeStatAt | src/app/features/admin/analytics-dashboard/analytics-dashboard.component.ts:202-211 | the stat at position j is labelled with range j |
| AdminAnalytics.LoanAmountRanges | src/app/features/admin/analytics-dashboard/analytics-dashboard.component.ts:193-214 | only the non-empty ranges, in the order of the five ranges; each entry has one range's label and count and the share Math.round(100·count/total); every non-empty range is present; the counts sum to the applications with an amount ≥ 0 |
| AdminAnalytics.StatusClass | src/app/features/admin/analytics-dashboard/analytics-dashboard.component.ts:220-228 | one class per APPROVED, PENDING, REJECTED and UNDER_REVIEW; 'status-default' exactly otherwise |
| AdminAnalytics.StatusIcon | src/app/features/admin/analytics-dashboard/analytics-dashboard.component.ts:230-238 | ✅ iff APPROVED, ⏳ iff PENDING, ❌ iff REJECTED, 🔍 iff UNDER_REVIEW, 📋 for every other status; always one character |
| AdminAnalytics.ClassAndIconAgree | src/app/features/admin/analytics-dashboard/analytics-dashboard.component.ts:220-238 | for each of the four statuses and the default, the class names it iff the icon does |
| AdminAnalytics.CalculateAnalytics | src/app/features/admin/analytics-dashboard/analytics-dashboard.component.ts:85-130 | borrowers, lenders, applications, the loan total, the rounded approval rate (0 for none) and the three tables |
| AdminAnalytics.AnalyticsDashboardComponent.constructor | src/app/features/admin/analytics-dashboard/analytics-dashboard.component.ts:29-33 | no data, not loading |
| AdminAnalytics.AnalyticsDashboardComponent.LoadAnalyticsData | src/app/features/admin/analytics-dashboard/analytics-dashboard.component.ts:64-83 | with all four lists fetched, the data is CalculateAnalytics and the time is updated; otherwise both stay; loading always ends |
| AdminApplications.StatusBadgeClass | src/app/features/admin/applications/admin-applications.component.ts:48-61 | UNDER_REVIEW info; PENDING and every unknown status warning |
| AdminApplications.EligibilityClass | src/app/features/admin/applications/admin-applications.component.ts:63-68 | unknown for a missing or zero score, then high at 80, medium at 60, else low |
| AdminApplications.TotalLoanVolume | src/app/features/admin/applications/admin-applications.component.ts:104-110 | the loan total of the APPROVED applications, non-negative when every amount is |
| AdminApplications.ApprovedAmountNonNegative | src/app/features/admin/applications/admin-applications.component.ts:104-110 | non-negative amounts give a non-negative approved total |
| AdminApplications.TotalLoanVolumeAppend | src/app/features/admin/applications/admin-applications.component.ts:104-110 | volumes of a concatenation add up |
| AdminApplications.AdminApplicationsComponent.constructor | src/app/features/admin/applications/admin-applications.component.ts:16-20 | no applications, not loading, no selection, no error |
| AdminApplications.AdminApplicationsComponent.LoadApplications | src/app/features/admin/applications/admin-applications.component.ts:32-46 | the service's list on success; the old list and a prefixed message on failure; loading ends either way |
| AdminApplications.AdminApplicationsComponent.ViewApplicationDetails | src/app/features/admin/applications/admin-applications.component.ts:85-88 | selects the application and shows the details |
| AdminApplications.AdminApplicationsComponent.CloseApplicationDetails | src/app/features/admin/applications/admin-applications.component.ts:90-93 | clears the selection and hides the details |
| AdminApplications.AdminApplicationsComponent.GetApplicationStats | src/app/features/admin/applications/admin-applications.component.ts:95-102 | the length and the three status counts, which sum to at most the length |
| AdminApplications.AdminApplicationsComponent.GetTotalLoanVolume | src/app/features/admin/applications/admin-applications.component.ts:104-110 | the loan total of the approved applications |

## Left out

- HTTP and RxJS plumbing: every observable, error mapping and backend call outside the listed operations. The CRUD methods of the API service, the rule endpoints of the mock service, the random `simulateDelay` latency and the HTTP interceptor are not part of this model. A backend answer is a `Result` parameter of the operation that receives it, including the initial loads that the lender dashboard's and the document screen's constructors stand for.
- Timers: every `setTimeout` and `setInterval` effect is a separate operation that the caller runs later. These are `PurgeToast`, `ExpireNotification`, `ClearSuccessMessage`, `ClearErrorMessage`, `FinishUpload`, `LoadDocuments` and `FinishCheckEligibility`. The analytics auto-refresh is not modelled.
- `localStorage` is a pair of fields kept in step with the session. `Date.now()` and `new Date()` are parameters.
- Locale formatting (`Intl.NumberFormat`, `toLocaleString`, the currency and date formatters, `formatFileSize`) is not modelled. Amounts stay numbers.
- Floating point: rates the source computes in floating point are exact rationals, or integers in hundredths of a percent.
- The monthly-application chart and the average processing time of the admin dashboard are left out. They depend on calendar dates and floating-point day arithmetic.
- `processBulkApplicationsWithRisk`, the scenario comparison, `Math.random` data and CSV or JSON export of the lender dashboard are left out. These are random data and browser download plumbing.
- The completion counter that `processBulkApplications` keeps across asynchronous callbacks is not modelled. Its updates are applied one after the other. The model also leaves out what happens after them: the reload, the `showBulkProcessing = false` of the last callback, the success toast and the error toast (lender-dashboard.component.ts:456-458, 464-467, 470-474). A failed update is not modelled; every update is taken to succeed.
- The lender dashboard's rule form, its application-review dialog, its rules load and its `isLoading` flag (lender-dashboard.component.ts:109-119, 160-267) are not part of this model. The flag is raised by the initial load and lowered only by those dialogs. No modelled operation reads the rules.
- The lender analytics page's fixed processing time of 2.5 days, the mock chart tables of `generateChartData` and its separate rules load (lender-analytics.component.ts:58-66, 96, 100-134) are not modelled. They are constants or are not read by the figures.
- Angular form wiring (`markAllAsTouched`, per-control validators) is reduced to one validity predicate over the form's values.
- The fixture list of the borrower's applications screen is not part of this model. The screen is built over any list.
- The eligibility classes of the borrower's applications screen (borrower-my-applications.component.ts:158-163) and of the eligibility overview (borrower-eligibility-check.component.ts:115-120) use the same cut-offs as `ApplyLoan.EligibilityClass`, which models them all.
- `Object.entries` lists integer-like keys first. Status names are never integer-like, so the model keeps plain insertion order.
- The mock service's `register` pushes the new user onto a list that is rebuilt on every call. The model returns the answer and does not keep the list.
- `MockApi.CreateLoanApplication`: requires a non-empty list. The service always calls it on its non-empty fixture list. On an empty list `Math.max` would give `-Infinity`.
- `MockApi.UpdateLoanApplication`: only the fields of a patch that callers send are modelled (status, score, comments, decision fields). The `undefined` values of a spread are treated as absent.
- `Auth.AuthService.Register`: a token whose id is negative is not modelled. Ids come from `NextUserId` and are at least 1.
- ToLower: only ASCII A-Z are lowered. Non-ASCII letters that `toLowerCase` would change are kept as they are.
- Date-string parsing is not modelled (smart-matching.component.ts:133-142, borrower-apply-loan.component.ts:106-127). An invalid date string gives NaN there, and a date-only string is read as UTC midnight. `SmartMatching.CalculateAge` and `ApplyLoan.AgePoints` take an already parsed `Option<Date>`.
- LenderDashboard.BulkDecideAll: writes back the component's own entry with the decision overlaid. The source writes back the service's answer, which overlays the decision on the service's own copy of that application (lender-dashboard.component.ts:447-451, mock-api.service.ts:153-167). The model assumes the service holds the same entries as the component. An id the service lacks throws there and stops the remaining updates; the model does not capture that.
- Route tables, view templates and the toast component's icon lookup are not part of this model.

## Findings

| source | as written | input that shows it | evidently intended | confidence | as-written member | corrected member |
|---|---|---|---|---|---|---|
| src/app/features/lender/lender-dashboard/lender-dashboard.component.ts:423-480 | `isBulkProcessing` is lowered only inside the callback of the last update, so it stays raised when there is no PENDING application | a dashboard whose applications are all APPROVED or REJECTED | the busy flag is lowered once processing ends, whatever the number of updates | not executed | LenderDashboard.LenderDashboardComponent.ProcessBulkApplications | LenderDashboard.LenderDashboardComponent.ProcessBulkApplicationsCorrected |
| src/app/features/borrower/document-management/document-management.component.ts:150-181 | a new document's id is `documents.length + 1` | delete document 1 of the initial three, then upload: the new id is 3, which the bank statement already has | every document id is unique | not executed | DocumentManagement.DuplicateIdAfterDelete | DocumentManagement.DocumentManagementComponent.FinishUploadCorrected |
| src/app/features/borrower/eligibility-check/borrower-eligibility-check.component.ts:131-138 | the risk icons are UTF-8 bytes read as Windows-1252, so each is a run of three or four Latin characters | risk level 'LOW' | one coloured circle per risk level | not executed | EligibilityCheck.RiskIconAsWritten | EligibilityCheck.RiskIcon |

=== FILE: admin_analytics.dfy ===
/**
 * The administrator's analytics dashboard (`AnalyticsDashboardComponent`):
 * platform totals, the approval rate, the five lenders with most
 * applications, the distribution of statuses and of loan amounts over fixed
 * ranges. Rates rounded to two decimals are kept in hundredths of a percent
 * (37.5% = 3750); whole percentages as integers.
 */
module AdminAnalytics {
  import opened Wrappers
  import opened Records
  import Js
  import Sorting

  /** `Math.round(count / total * 100)`, and 0 for an empty list. */
  function RoundedPercent(count: nat, total: nat): (p: int)
    requires count <= total
    ensures total == 0 ==> p == 0
    ensures total > 0 ==> 0 <= p <= 100 && 2 * total * p <= 200 * count + total < 2 * total * (p + 1)
  {
    if total == 0 then 0
    else
      Js.RoundedPercentBounds(count, total);
      Js.RoundDiv(100 * count, total)
  }

  /** `Math.round(approved / total * 100 * 100) / 100` in hundredths, and 0 for an empty list. */
  function RateHundredths(approved: nat, total: nat): (r: int)
    requires approved <= total
    ensures total == 0 ==> r == 0
    ensures total > 0 ==> 0 <= r <= 10000 && 2 * total * r <= 20000 * approved + total < 2 * total * (r + 1)
  {
    if total == 0 then 0
    else
      Js.RoundedHundredthsBounds(approved, total);
      Js.RoundDiv(10000 * approved, total)
  }

  /** The users whose role is BORROWER. */
  function CountBorrowers(users: seq<User>): (n: nat)
    ensures n <= |users|
    ensures n == 0 <==> forall i :: 0 <= i < |users| ==> users[i].role != Some(BORROWER)
  {
    if users == [] then 0
    else (if users[0].role == Some(BORROWER) then 1 else 0) + CountBorrowers(users[1..])
  }

  // ---------------------------------------------------------------- top lenders

  datatype LenderStat = LenderStat(lender: Lender, applications: nat, approvalRate: int)

  /** `applications.filter(app => app.lenderId === lender.id)`; a lender without an id matches nothing. */
  function AppsOfLender(apps: seq<LoanApplication>, id: Option<int>): (r: seq<LoanApplication>)
    ensures |r| <= |apps|
    ensures id.None? ==> r == []
    ensures forall i :: 0 <= i < |r| ==> r[i] in apps && Some(r[i].lenderId) == id
    ensures forall i :: 0 <= i < |apps| && Some(apps[i].lenderId) == id ==> apps[i] in r
  {
    if apps == [] then []
    else
      var rest := AppsOfLender(apps[1..], id);
      if Some(apps[0].lenderId) == id then [apps[0]] + rest else rest
  }

  /** Selecting one lender's applications distributes over concatenation, so it keeps their order. */
  lemma {:induction false} AppsOfLenderAppend(a: seq<LoanApplication>, b: seq<LoanApplication>, id: Option<int>)
    ensures AppsOfLender(a + b, id) == AppsOfLender(a, id) + AppsOfLender(b, id)
  {
    if a == [] {
      assert a + b == b;
    } else {
      assert (a + b)[1..] == a[1..] + b;
      AppsOfLenderAppend(a[1..], b, id);
    }
  }

  /**
   * One lender's application count and approval rate: the share of its
   * applications that are APPROVED, in hundredths of a percent, rounded.
   */
  function LenderStatOf(l: Lender, apps: seq<LoanApplication>): (e: LenderStat)
    ensures e.lender == l
    ensures e.applications == |AppsOfLender(apps, l.id)|
    ensures 0 <= e.approvalRate <= 10000
    ensures e.applications == 0 ==> e.approvalRate == 0
    ensures e.applications > 0 ==>
      2 * e.applications * e.approvalRate
        <= 20000 * CountStatus(AppsOfLender(apps, l.id), APPROVED) + e.applications
        < 2 * e.applications * (e.approvalRate + 1)
  {
    var mine := AppsOfLender(apps, l.id);
    LenderStat(l, |mine|, RateHundredths(CountStatus(mine, APPROVED), |mine|))
  }

  /** `lenders.map(...)`: one entry per lender, in order. */
  function StatsOfLenders(lenders: seq<Lender>, apps: seq<LoanApplication>): (r: seq<LenderStat>)
    ensures |r| == |lenders|
    ensures forall i :: 0 <= i < |lenders| ==> r[i] == LenderStatOf(lenders[i], apps)
  {
    if lenders == [] then [] else [LenderStatOf(lenders[0], apps)] + StatsOfLenders(lenders[1..], apps)
  }

  function AppCount(e: LenderStat): int {
    e.applications
  }

  /** Every entry of the map belongs to one of the lenders. */
  lemma StatOfSomeLender(lenders: seq<Lender>, apps: seq<LoanApplication>, e: LenderStat)
    requires e in multiset(StatsOfLenders(lenders, apps))
    ensures e.lender in lenders && e == LenderStatOf(e.lender, apps)
  {
    var stats := StatsOfLenders(lenders, apps);
    var k :| 0 <= k < |stats| && stats[k] == e;
  }

  /** The entries sorted by application count, most first; ties keep the lenders' order. */
  function Ranked(lenders: seq<Lender>, apps: seq<LoanApplication>): (r: seq<LenderStat>)
    ensures |r| == |lenders|
    ensures multiset(r) == multiset(StatsOfLenders(lenders, apps))
    ensures Sorting.SortedDesc(r, AppCount)
    ensures forall k :: Sorting.KeyFilter(r, AppCount, k) == Sorting.KeyFilter(StatsOfLenders(lenders, apps), AppCount, k)
  {
    var stats := StatsOfLenders(lenders, apps);
    forall k {
      Sorting.SortDescStable(stats, AppCount, k);
    }
    Sorting.SortDesc(stats, AppCount)
  }

  /** `calculateTopLenders`: the first five ranked entries. */
  function TopLenders(lenders: seq<Lender>, apps: seq<LoanApplication>): (r: seq<LenderStat>)
    ensures |r| == Js.Min(5, |lenders|)
    ensures Sorting.SortedDesc(r, AppCount)
    ensures multiset(r) <= multiset(StatsOfLenders(lenders, apps))
    ensures forall i :: 0 <= i < |r| ==> r[i].lender in lenders && r[i] == LenderStatOf(r[i].lender, apps)
    ensures forall k :: Sorting.KeyFilter(r, AppCount, k) <= Sorting.KeyFilter(StatsOfLenders(lenders, apps), AppCount, k)
  {
    var ranked := Ranked(lenders, apps);
    forall k {
      Sorting.TakeKeepsFirstTies(StatsOfLenders(lenders, apps), 5, AppCount, k);
    }
    Sorting.TakeSorted(ranked, 5, AppCount);
    Sorting.TakeRest(ranked, 5);
    var r := Sorting.Take(ranked, 5);
    forall i | 0 <= i < |r|
      ensures r[i].lender in lenders && r[i] == LenderStatOf(r[i].lender, apps)
    {
      assert r[i] in multiset(r);
      StatOfSomeLender(lenders, apps, r[i]);
    }
    r
  }

  /** A lender whose entry is not among the top five has no more applications than any that is. */
  lemma {:induction false} TopLendersAreTop(lenders: seq<Lender>, apps: seq<LoanApplication>, i: nat)
    requires i < |lenders|
    ensures LenderStatOf(lenders[i], apps) !in TopLenders(lenders, apps) ==>
      forall j :: 0 <= j < |TopLenders(lenders, apps)| ==>
        LenderStatOf(lenders[i], apps).applications <= TopLenders(lenders, apps)[j].applications
  {
    var ranked := Ranked(lenders, apps);
    var top := TopLenders(lenders, apps);
    var e := LenderStatOf(lenders[i], apps);
    assert top == Sorting.Take(ranked, 5);
    if e !in top {
      assert e in multiset(StatsOfLenders(lenders, apps)) by {
        assert StatsOfLenders(lenders, apps)[i] == e;
      }
      assert e in multiset(ranked);
      Sorting.OutsideSortedPrefix(ranked, 5, AppCount, e);
    }
  }


  // ---------------------------------------------------------------- statuses

  datatype StatusStat = StatusStat(status: string, count: nat, percentage: int)

  /** The statuses of the list, each once, in order of first occurrence (the object's key order). */
  function DistinctStatuses(apps: seq<LoanApplication>): (r: seq<string>)
    ensures forall i, j :: 0 <= i < j < |r| ==> r[i] != r[j]
    ensures forall k :: 0 <= k < |apps| ==> apps[k].status in r
  {
    if apps == [] then []
    else
      var prefix := apps[..|apps| - 1];
      var d := DistinctStatuses(prefix);
      assert forall k :: 0 <= k < |prefix| ==> prefix[k] == apps[k];
      if apps[|apps| - 1].status in d then d else d + [apps[|apps| - 1].status]
  }

  /** Every key is the status of some application. */
  lemma {:induction false} DistinctStatusesOccur(apps: seq<LoanApplication>)
    ensures forall i :: 0 <= i < |DistinctStatuses(apps)| ==>
      exists k :: 0 <= k < |apps| && apps[k].status == DistinctStatuses(apps)[i]
  {
    if apps != [] {
      var prefix := apps[..|apps| - 1];
      DistinctStatusesOccur(prefix);
      var d, r := DistinctStatuses(prefix), DistinctStatuses(apps);
      var last := apps[|apps| - 1];
      assert r == if last.status in d then d else d + [last.status];
      forall i | 0 <= i < |r|
        ensures exists k :: 0 <= k < |apps| && apps[k].status == r[i]
      {
        if i < |d| {
          var k :| 0 <= k < |prefix| && prefix[k].status == d[i];
          assert apps[k] == prefix[k];
        } else {
          assert last.status == r[i];
        }
      }
    } else {
      assert DistinctStatuses(apps) == [];
    }
  }

  /** A status that occurs in the list is counted at least once. */
  lemma {:induction false} CountStatusOfMember(apps: seq<LoanApplication>, k: nat)
    requires k < |apps|
    ensures CountStatus(apps, apps[k].status) >= 1
  {
    if k > 0 {
      CountStatusOfMember(apps[1..], k - 1);
    }
  }

  /** A status that occurs nowhere in the list is counted zero times. */
  lemma {:induction false} CountStatusOfAbsent(apps: seq<LoanApplication>, status: string)
    requires forall k :: 0 <= k < |apps| ==> apps[k].status != status
    ensures CountStatus(apps, status) == 0
  {
    if apps != [] {
      CountStatusOfAbsent(apps[1..], status);
    }
  }

  function StatusEntry(status: string, apps: seq<LoanApplication>): StatusStat {
    StatusStat(status, CountStatus(apps, status), RoundedPercent(CountStatus(apps, status), |apps|))
  }

  /** `Object.entries(statusCounts).map(...)` over the given keys. */
  function StatusEntries(keys: seq<string>, apps: seq<LoanApplication>): (r: seq<StatusStat>)
    ensures |r| == |keys|
    ensures forall i :: 0 <= i < |keys| ==> r[i] == StatusEntry(keys[i], apps)
  {
    if keys == [] then [] else [StatusEntry(keys[0], apps)] + StatusEntries(keys[1..], apps)
  }

  function StatusCount(e: StatusStat): int {
    e.count
  }

  function StatusName(e: StatusStat): string {
    e.status
  }

  /** Sum of the counts over some distinct keys after one more application: one more exactly when its status is a key. */
  lemma {:induction false} StatusSumSnoc(keys: seq<string>, apps: seq<LoanApplication>, a: LoanApplication)
    requires forall i, j :: 0 <= i < j < |keys| ==> keys[i] != keys[j]
    ensures Sorting.SumKeys(StatusEntries(keys, apps + [a]), StatusCount)
            == Sorting.SumKeys(StatusEntries(keys, apps), StatusCount) + (if a.status in keys then 1 else 0)
  {
    if keys != [] {
      StatusSumSnoc(keys[1..], apps, a);
      CountStatusAppend(apps, [a], keys[0]);
      assert a.status in keys <==> a.status == keys[0] || a.status in keys[1..];
      if a.status == keys[0] {
        assert a.status !in keys[1..];
      }
    }
  }

  lemma {:induction false} SumKeysAppend(a: seq<StatusStat>, b: seq<StatusStat>)
    ensures Sorting.SumKeys(a + b, StatusCount) == Sorting.SumKeys(a, StatusCount) + Sorting.SumKeys(b, StatusCount)
  {
    if a == [] {
      assert a + b == b;
    } else {
      assert (a + b)[1..] == a[1..] + b;
      SumKeysAppend(a[1..], b);
    }
  }

  /** One more key adds its entry at the end. */
  lemma StatusEntriesSnoc(keys: seq<string>, status: string, apps: seq<LoanApplication>)
    ensures StatusEntries(keys + [status], apps) == StatusEntries(keys, apps) + [StatusEntry(status, apps)]
  {
    var l, r := StatusEntries(keys + [status], apps), StatusEntries(keys, apps) + [StatusEntry(status, apps)];
    forall i | 0 <= i < |l|
      ensures l[i] == r[i]
    {
      assert (keys + [status])[i] == if i < |keys| then keys[i] else status;
    }
  }

  /** The per-status counts add up to the number of applications. */
  lemma {:induction false} StatusCountsSum(apps: seq<LoanApplication>)
    ensures Sorting.SumKeys(StatusEntries(DistinctStatuses(apps), apps), StatusCount) == |apps|
  {
    if apps != [] {
      var prefix, a := apps[..|apps| - 1], apps[|apps| - 1];
      assert apps == prefix + [a];
      var d := DistinctStatuses(prefix);
      StatusCountsSum(prefix);
      StatusSumSnoc(d, prefix, a);
      if a.status in d {
        assert DistinctStatuses(apps) == d by {
          DistinctAfter(prefix, a);
        }
      } else {
        assert DistinctStatuses(apps) == d + [a.status] by {
          DistinctAfter(prefix, a);
        }
        var last := StatusEntry(a.status, apps);
        StatusEntriesSnoc(d, a.status, apps);
        SumKeysAppend(StatusEntries(d, apps), [last]);
        assert Sorting.SumKeys([last], StatusCount) == 1 by {
          assert [last][1..] == [];
          CountAfter(prefix, a, a.status);
          CountStatusOfAbsent(prefix, a.status);
        }
      }
    }
  }

  /** The tally in key order, before sorting. */
  function StatusTable(apps: seq<LoanApplication>): (t: seq<StatusStat>)
    ensures |t| == |DistinctStatuses(apps)|
    ensures forall j :: 0 <= j < |t| ==> t[j] == StatusEntry(DistinctStatuses(apps)[j], apps)
  {
    StatusEntries(DistinctStatuses(apps), apps)
  }

  /** Each entry carries its status's count (at least one) and that count's rounded share. */
  ghost predicate WellCounted(r: seq<StatusStat>, apps: seq<LoanApplication>) {
    forall i :: 0 <= i < |r| ==>
      && r[i].count == CountStatus(apps, r[i].status) && 1 <= r[i].count <= |apps|
      && r[i].percentage == RoundedPercent(r[i].count, |apps|)
  }

  /** Every application's status has an entry. */
  ghost predicate Covers(r: seq<StatusStat>, apps: seq<LoanApplication>) {
    forall k :: 0 <= k < |apps| ==> exists i :: 0 <= i < |r| && r[i].status == apps[k].status
  }

  lemma {:induction false} StatusTableCounted(apps: seq<LoanApplication>)
    ensures WellCounted(StatusTable(apps), apps)
  {
    var keys, t := DistinctStatuses(apps), StatusTable(apps);
    DistinctStatusesOccur(apps);
    forall j | 0 <= j < |t|
      ensures t[j].count == CountStatus(apps, t[j].status) && 1 <= t[j].count <= |apps|
    {
      var k :| 0 <= k < |apps| && apps[k].status == keys[j];
      CountStatusOfMember(apps, k);
    }
  }

  lemma {:induction false} StatusTableCovers(apps: seq<LoanApplication>)
    ensures Covers(StatusTable(apps), apps)
  {
    var keys, t := DistinctStatuses(apps), StatusTable(apps);
    forall k | 0 <= k < |apps|
      ensures exists j :: 0 <= j < |t| && t[j].status == apps[k].status
    {
      var j :| 0 <= j < |keys| && keys[j] == apps[k].status;
      assert t[j].status == apps[k].status;
    }
  }

  /** Reordering the entries keeps their counts and their coverage. */
  lemma {:induction false} PermutationKeepsFacts(t: seq<StatusStat>, r: seq<StatusStat>, apps: seq<LoanApplication>)
    requires multiset(r) == multiset(t)
    requires WellCounted(t, apps) && Covers(t, apps)
    ensures WellCounted(r, apps) && Covers(r, apps)
  {
    forall i | 0 <= i < |r|
      ensures r[i].count == CountStatus(apps, r[i].status) && 1 <= r[i].count <= |apps|
      ensures r[i].percentage == RoundedPercent(r[i].count, |apps|)
    {
      assert r[i] in multiset(t);
      var j :| 0 <= j < |t| && t[j] == r[i];
    }
    forall k | 0 <= k < |apps|
      ensures exists i :: 0 <= i < |r| && r[i].status == apps[k].status
    {
      var j :| 0 <= j < |t| && t[j].status == apps[k].status;
      assert t[j] in multiset(r);
      var i :| 0 <= i < |r| && r[i] == t[j];
    }
  }

  /**
   * `calculateApplicationStatuses`: one entry per distinct status with its
   * count and rounded share, sorted by count, most first (ties in order of
   * first occurrence); the counts add up to the number of applications.
   */
  function ApplicationStatuses(apps: seq<LoanApplication>): (r: seq<StatusStat>)
    ensures Sorting.SortedDesc(r, StatusCount)
    ensures Sorting.DistinctBy(r, StatusName)
    ensures WellCounted(r, apps) && Covers(r, apps)
    ensures Sorting.SumKeys(r, StatusCount) == |apps|
    ensures forall k :: Sorting.KeyFilter(r, StatusCount, k) == Sorting.KeyFilter(StatusTable(apps), StatusCount, k)
  {
    var t := StatusTable(apps);
    forall k {
      Sorting.SortDescStable(t, StatusCount, k);
    }
    StatusTableCounted(apps);
    StatusTableCovers(apps);
    StatusCountsSum(apps);
    Sorting.SortDescDistinct(t, StatusCount, StatusName);
    Sorting.SortDescSum(t, StatusCount);
    PermutationKeepsFacts(t, Sorting.SortDesc(t, StatusCount), apps);
    Sorting.SortDesc(t, StatusCount)
  }

  /** One more application adds one to its own status's count and leaves the others. */
  lemma {:induction false} CountAfter(prefix: seq<LoanApplication>, a: LoanApplication, status: string)
    ensures CountStatus(prefix + [a], status) == CountStatus(prefix, status) + (if a.status == status then 1 else 0)
  {
    CountStatusAppend(prefix, [a], status);
    assert [a][1..] == [];
  }

  /** One more application adds its status to the keys when it is new. */
  lemma {:induction false} DistinctAfter(prefix: seq<LoanApplication>, a: LoanApplication)
    ensures DistinctStatuses(prefix + [a]) ==
      if a.status in DistinctStatuses(prefix) then DistinctStatuses(prefix) else DistinctStatuses(prefix) + [a.status]
  {
    assert (prefix + [a])[..|prefix|] == prefix;
  }

  /** `statusCounts` after the applications of `prefix`: its keys in insertion order and its counts. */
  ghost predicate Tallied(keys: seq<string>, counts: map<string, nat>, prefix: seq<LoanApplication>) {
    && keys == DistinctStatuses(prefix)
    && (forall k :: k in counts <==> k in keys)
    && (forall k :: k in counts ==> counts[k] == CountStatus(prefix, k))
  }

  /** `statusCounts[app.status] = (statusCounts[app.status] || 0) + 1` for a status already seen. */
  lemma {:induction false} TallySeen(keys: seq<string>, counts: map<string, nat>, prefix: seq<LoanApplication>, a: LoanApplication)
    requires Tallied(keys, counts, prefix) && a.status in counts
    ensures Tallied(keys, counts[a.status := counts[a.status] + 1], prefix + [a])
  {
    DistinctAfter(prefix, a);
    IncrementCounts(counts, prefix, a);
  }

  /** Adding one to the count of the new application's status keeps every count exact. */
  lemma IncrementCounts(counts: map<string, nat>, prefix: seq<LoanApplication>, a: LoanApplication)
    requires a.status in counts
    requires forall k :: k in counts ==> counts[k] == CountStatus(prefix, k)
    ensures forall k :: k in counts[a.status := counts[a.status] + 1] ==>
      counts[a.status := counts[a.status] + 1][k] == CountStatus(prefix + [a], k)
  {
    forall k | k in counts[a.status := counts[a.status] + 1]
      ensures counts[a.status := counts[a.status] + 1][k] == CountStatus(prefix + [a], k)
    {
      CountAfter(prefix, a, k);
    }
  }

  /** The same for a status seen for the first time: it becomes the last key, with count 1. */
  lemma {:induction false} TallyNew(keys: seq<string>, counts: map<string, nat>, prefix: seq<LoanApplication>, a: LoanApplication)
    requires Tallied(keys, counts, prefix) && a.status !in counts
    ensures Tallied(keys + [a.status], counts[a.status := 1], prefix + [a])
  {
    assert keys + [a.status] == DistinctStatuses(prefix + [a]) by {
      assert a.status !in DistinctStatuses(prefix);
      DistinctAfter(prefix, a);
    }
    CountStatusOfAbsent(prefix, a.status);
    FirstCount(counts, prefix, a);
  }

  /** Recording a count of 1 for a status not counted before keeps every count exact. */
  lemma FirstCount(counts: map<string, nat>, prefix: seq<LoanApplication>, a: LoanApplication)
    requires CountStatus(prefix, a.status) == 0
    requires forall k :: k in counts ==> counts[k] == CountStatus(prefix, k)
    ensures forall k :: k in counts[a.status := 1] ==> counts[a.status := 1][k] == CountStatus(prefix + [a], k)
  {
    forall k | k in counts[a.status := 1]
      ensures counts[a.status := 1][k] == CountStatus(prefix + [a], k)
    {
      CountAfter(prefix, a, k);
    }
  }

  /** `Object.entries(statusCounts).map(...)`: each key with its count and rounded share. */
  function Entries(keys: seq<string>, counts: map<string, nat>, total: nat): (r: seq<StatusStat>)
    ensures |r| == |keys|
  {
    if keys == [] then []
    else
      var count := if keys[0] in counts then counts[keys[0]] else 0;
      [StatusStat(keys[0], count, if count <= total then RoundedPercent(count, total) else 0)]
      + Entries(keys[1..], counts, total)
  }

  lemma {:induction false} EntriesOfTally(keys: seq<string>, counts: map<string, nat>, apps: seq<LoanApplication>)
    requires forall k :: k in keys ==> k in counts && counts[k] == CountStatus(apps, k)
    ensures Entries(keys, counts, |apps|) == StatusEntries(keys, apps)
  {
    if keys != [] {
      EntriesOfTally(keys[1..], counts, apps);
    }
  }

  /** The forEach that tallies the statuses into an object, then its entries sorted by count. */
  method CalculateApplicationStatuses(apps: seq<LoanApplication>) returns (r: seq<StatusStat>)
    ensures r == ApplicationStatuses(apps)
  {
    var keys: seq<string> := [];
    var statusCounts: map<string, nat> := map[];
    for i := 0 to |apps|
      invariant Tallied(keys, statusCounts, apps[..i])
    {
      assert apps[..i + 1] == apps[..i] + [apps[i]];
      var status := apps[i].status;
      if status in statusCounts {
        TallySeen(keys, statusCounts, apps[..i], apps[i]);
        statusCounts := statusCounts[status := statusCounts[status] + 1];
      } else {
        TallyNew(keys, statusCounts, apps[..i], apps[i]);
        statusCounts := statusCounts[status := 1];
        keys := keys + [status];
      }
    }
    assert apps[..|apps|] == apps;
    EntriesOfTally(keys, statusCounts, apps);
    assert Entries(keys, statusCounts, |apps|) == StatusTable(apps);
    r := Sorting.SortDesc(Entries(keys, statusCounts, |apps|), StatusCount);
    assert r == Sorting.SortDesc(StatusTable(apps), StatusCount);
  }

  // ---------------------------------------------------------------- loan amount ranges

  /** A half-open range of amounts; `max` None stands for Infinity. */
  datatype AmountRange = AmountRange(min: int, max: Option<int>, displayLabel: string)

  const AmountRanges: seq<AmountRange> := [
    AmountRange(0, Some(50000), "\U{20B9}0 - \U{20B9}50K"),
    AmountRange(50000, Some(200000), "\U{20B9}50K - \U{20B9}2L"),
    AmountRange(200000, Some(500000), "\U{20B9}2L - \U{20B9}5L"),
    AmountRange(500000, Some(1000000), "\U{20B9}5L - \U{20B9}10L"),
    AmountRange(1000000, None, "\U{20B9}10L+")
  ]

  predicate InRange(amount: int, r: AmountRange) {
    r.min <= amount && (r.max.None? || amount < r.max.value)
  }

  /** Every non-negative amount lies in exactly one range; a negative one in none. */
  lemma EachAmountInOneRange(amount: int)
    ensures amount >= 0 <==> exists i :: 0 <= i < |AmountRanges| && InRange(amount, AmountRanges[i])
    ensures forall i, j :: 0 <= i < j < |AmountRanges| ==>
              !(InRange(amount, AmountRanges[i]) && InRange(amount, AmountRanges[j]))
  {
    if amount >= 0 {
      var i := if amount < 50000 then 0 else if amount < 200000 then 1 else if amount < 500000 then 2
               else if amount < 1000000 then 3 else 4;
      assert InRange(amount, AmountRanges[i]);
    }
  }

  datatype RangeStat = RangeStat(range: string, count: nat, percentage: int)

  /** Applications whose `loanAmount || 0` lies in the range. */
  function CountInRange(apps: seq<LoanApplication>, r: AmountRange): (n: nat)
    ensures n <= |apps|
  {
    if apps == [] then 0
    else (if InRange(LoanAmount(apps[0]), r) then 1 else 0) + CountInRange(apps[1..], r)
  }

  /** Applications whose `loanAmount || 0` is not negative. */
  function CountNonNegative(apps: seq<LoanApplication>): (n: nat)
    ensures n <= |apps|
  {
    if apps == [] then 0
    else (if LoanAmount(apps[0]) >= 0 then 1 else 0) + CountNonNegative(apps[1..])
  }

  /** `ranges.map(...)`: every range with its count and rounded share. */
  function RangeStatsOf(ranges: seq<AmountRange>, apps: seq<LoanApplication>): (r: seq<RangeStat>)
    ensures |r| == |ranges|
    ensures forall i :: 0 <= i < |ranges| ==>
      && r[i].range == ranges[i].displayLabel
      && r[i].count == CountInRange(apps, ranges[i])
      && r[i].percentage == RoundedPercent(r[i].count, |apps|)
  {
    if ranges == [] then []
    else
      var count := CountInRange(apps, ranges[0]);
      [RangeStat(ranges[0].displayLabel, count, RoundedPercent(count, |apps|))] + RangeStatsOf(ranges[1..], apps)
  }

  function RangeCount(e: RangeStat): int {
    e.count
  }

  /** Sum of the range counts over a list of ranges. */
  function RangesTotal(ranges: seq<AmountRange>, apps: seq<LoanApplication>): int {
    if ranges == [] then 0 else CountInRange(apps, ranges[0]) + RangesTotal(ranges[1..], apps)
  }

  lemma {:induction false} SumOfRangeStats(ranges: seq<AmountRange>, apps: seq<LoanApplication>)
    ensures Sorting.SumKeys(RangeStatsOf(ranges, apps), RangeCount) == RangesTotal(ranges, apps)
  {
    if ranges != [] {
      var s := RangeStatsOf(ranges, apps);
      assert s[1..] == RangeStatsOf(ranges[1..], apps);
      SumOfRangeStats(ranges[1..], apps);
    }
  }

  /** The five range counts together count every application with a non-negative amount once. */
  lemma {:induction false} RangeCountsSum(apps: seq<LoanApplication>)
    ensures Sorting.SumKeys(RangeStatsOf(AmountRanges, apps), RangeCount) == CountNonNegative(apps)
  {
    SumOfRangeStats(AmountRanges, apps);
    var rs := AmountRanges;
    assert RangesTotal(rs[4..], apps) == CountInRange(apps, rs[4]) by {
      assert rs[4..][1..] == [];
    }
    assert RangesTotal(rs[3..], apps) == CountInRange(apps, rs[3]) + RangesTotal(rs[4..], apps) by {
      assert rs[3..][1..] == rs[4..];
    }
    assert RangesTotal(rs[2..], apps) == CountInRange(apps, rs[2]) + RangesTotal(rs[3..], apps) by {
      assert rs[2..][1..] == rs[3..];
    }
    assert RangesTotal(rs[1..], apps) == CountInRange(apps, rs[1]) + RangesTotal(rs[2..], apps) by {
      assert rs[1..][1..] == rs[2..];
    }
    assert RangesTotal(rs, apps) == CountInRange(apps, rs[0]) + RangesTotal(rs[1..], apps);
    FiveRangesSum(apps);
  }

  lemma {:induction false} FiveRangesSum(apps: seq<LoanApplication>)
    ensures CountInRange(apps, AmountRanges[0]) + CountInRange(apps, AmountRanges[1])
            + CountInRange(apps, AmountRanges[2]) + CountInRange(apps, AmountRanges[3])
            + CountInRange(apps, AmountRanges[4]) == CountNonNegative(apps)
  {
    if apps != [] {
      FiveRangesSum(apps[1..]);
      EachAmountInOneRange(LoanAmount(apps[0]));
    }
  }

  /** `rangeCounts.filter(r => r.count > 0)`: the same ranges in the same order, without the empty ones. */
  function NonEmptyRanges(s: seq<RangeStat>): (r: seq<RangeStat>)
    ensures |r| <= |s|
    ensures forall x :: x in r <==> x in s && x.count > 0
    ensures Sorting.SumKeys(r, RangeCount) == Sorting.SumKeys(s, RangeCount)
  {
    if s == [] then []
    else
      var rest := NonEmptyRanges(s[1..]);
      if s[0].count > 0 then
        assert ([s[0]] + rest)[1..] == rest;
        [s[0]] + rest
      else rest
  }

  /** Dropping the empty ranges of a concatenation drops them from each part, so the rest keep their order. */
  lemma {:induction false} NonEmptyRangesAppend(a: seq<RangeStat>, b: seq<RangeStat>)
    ensures NonEmptyRanges(a + b) == NonEmptyRanges(a) + NonEmptyRanges(b)
  {
    if a == [] {
      assert a + b == b;
    } else {
      assert (a + b)[1..] == a[1..] + b;
      NonEmptyRangesAppend(a[1..], b);
    }
  }

  /** The position of the range with this label among the five, and 5 for none. */
  function RangePosition(displayLabel: string): (p: nat)
    ensures p <= |AmountRanges|
    ensures p < |AmountRanges| ==> AmountRanges[p].displayLabel == displayLabel
    ensures p == |AmountRanges| ==> forall j :: 0 <= j < |AmountRanges| ==> AmountRanges[j].displayLabel != displayLabel
  {
    if displayLabel == AmountRanges[0].displayLabel then 0
    else if displayLabel == AmountRanges[1].displayLabel then 1
    else if displayLabel == AmountRanges[2].displayLabel then 2
    else if displayLabel == AmountRanges[3].displayLabel then 3
    else if displayLabel == AmountRanges[4].displayLabel then 4
    else 5
  }

  /** The entries come in the order of their ranges, each range at most once. */
  ghost predicate InRangeOrder(s: seq<RangeStat>) {
    forall i, j :: 0 <= i < j < |s| ==> RangePosition(s[i].range) < RangePosition(s[j].range)
  }

  lemma AllRangesInOrder(apps: seq<LoanApplication>)
    ensures InRangeOrder(RangeStatsOf(AmountRanges, apps))
  {
    var all := RangeStatsOf(AmountRanges, apps);
    assert forall i :: 0 <= i < |all| ==> RangePosition(all[i].range) == i by {
      assert AmountRanges[0].displayLabel != AmountRanges[1].displayLabel;
      assert AmountRanges[0].displayLabel != AmountRanges[2].displayLabel;
      assert AmountRanges[0].displayLabel != AmountRanges[3].displayLabel;
      assert AmountRanges[0].displayLabel != AmountRanges[4].displayLabel;
      assert AmountRanges[1].displayLabel != AmountRanges[2].displayLabel;
      assert AmountRanges[1].displayLabel != AmountRanges[3].displayLabel;
      assert AmountRanges[1].displayLabel != AmountRanges[4].displayLabel;
      assert AmountRanges[2].displayLabel != AmountRanges[3].displayLabel;
      assert AmountRanges[2].displayLabel != AmountRanges[4].displayLabel;
      assert AmountRanges[3].displayLabel != AmountRanges[4].displayLabel;
    }
  }

  /** Dropping entries keeps the rest in range order. */
  lemma {:induction false} NonEmptyInRangeOrder(s: seq<RangeStat>)
    requires InRangeOrder(s)
    ensures InRangeOrder(NonEmptyRanges(s))
  {
    if s != [] {
      assert InRangeOrder(s[1..]);
      NonEmptyInRangeOrder(s[1..]);
      var rest := NonEmptyRanges(s[1..]);
      if s[0].count > 0 {
        var r := [s[0]] + rest;
        forall i, j | 0 <= i < j < |r|
          ensures RangePosition(r[i].range) < RangePosition(r[j].range)
        {
          if i == 0 {
            assert r[j] == rest[j - 1] && rest[j - 1] in s[1..];
          }
        }
      }
    }
  }

  /**
   * `calculateLoanAmountRanges`: the non-empty ranges in range order, each
   * with its count and rounded share; their counts cover every non-negative
   * amount.
   */
  function LoanAmountRanges(apps: seq<LoanApplication>): (r: seq<RangeStat>)
    ensures |r| <= |AmountRanges|
    ensures InRangeOrder(r)
    ensures forall i :: 0 <= i < |r| ==>
      && RangePosition(r[i].range) < |AmountRanges|
      && r[i].count == CountInRange(apps, AmountRanges[RangePosition(r[i].range)])
      && 0 < r[i].count <= |apps|
      && r[i].percentage == RoundedPercent(r[i].count, |apps|)
    ensures forall j :: 0 <= j < |AmountRanges| && CountInRange(apps, AmountRanges[j]) > 0 ==>
      exists i :: 0 <= i < |r| && r[i].range == AmountRanges[j].displayLabel
    ensures Sorting.SumKeys(r, RangeCount) == CountNonNegative(apps)
  {
    var all := RangeStatsOf(AmountRanges, apps);
    RangeCountsSum(apps);
    AllRangesInOrder(apps);
    NonEmptyInRangeOrder(all);
    var r := NonEmptyRanges(all);
    forall i | 0 <= i < |r|
      ensures RangePosition(r[i].range) < |AmountRanges|
      ensures r[i].count == CountInRange(apps, AmountRanges[RangePosition(r[i].range)])
      ensures 0 < r[i].count <= |apps|
      ensures r[i].percentage == RoundedPercent(r[i].count, |apps|)
    {
      assert r[i] in all;
      var j :| 0 <= j < |all| && all[j] == r[i];
      RangeStatAt(apps, j);
    }
    forall j | 0 <= j < |AmountRanges| && CountInRange(apps, AmountRanges[j]) > 0
      ensures exists i :: 0 <= i < |r| && r[i].range == AmountRanges[j].displayLabel
    {
      assert all[j] in r;
    }
    r
  }

  /** The label of the `j`-th range stat names the `j`-th range. */
  lemma RangeStatAt(apps: seq<LoanApplication>, j: nat)
    requires j < |AmountRanges|
    ensures RangePosition(RangeStatsOf(AmountRanges, apps)[j].range) == j
  {
    AllRangesInOrder(apps);
  }

  // ---------------------------------------------------------------- status lookups

  /** `getStatusClass`: the four known statuses, `status-default` for anything else. */
  function StatusClass(status: string): (c: string)
    ensures c == "status-approved" <==> status == APPROVED
    ensures c == "status-pending" <==> status == PENDING
    ensures c == "status-rejected" <==> status == REJECTED
    ensures c == "status-review" <==> status == UNDER_REVIEW
    ensures c == "status-default" <==> status !in {APPROVED, PENDING, REJECTED, UNDER_REVIEW}
  {
    if status == APPROVED then "status-approved"
    else if status == PENDING then "status-pending"
    else if status == REJECTED then "status-rejected"
    else if status == UNDER_REVIEW then "status-review"
    else "status-default"
  }

  /** `getStatusIcon`: check mark, hourglass, cross, magnifier, or a clipboard for anything else. */
  function StatusIcon(status: string): (icon: string)
    ensures |icon| == 1
    ensures icon == "\U{2705}" <==> status == APPROVED
    ensures icon == "\U{23F3}" <==> status == PENDING
    ensures icon == "\U{274C}" <==> status == REJECTED
    ensures icon == "\U{1F50D}" <==> status == UNDER_REVIEW
    ensures icon == "\U{1F4CB}" <==> status !in {APPROVED, PENDING, REJECTED, UNDER_REVIEW}
  {
    if status == APPROVED then "\U{2705}"
    else if status == PENDING then "\U{23F3}"
    else if status == REJECTED then "\U{274C}"
    else if status == UNDER_REVIEW then "\U{1F50D}"
    else "\U{1F4CB}"
  }

  /** The class and the icon single out the same statuses. */
  lemma ClassAndIconAgree(status: string)
    ensures StatusClass(status) == "status-approved" <==> StatusIcon(status) == "\U{2705}"
    ensures StatusClass(status) == "status-pending" <==> StatusIcon(status) == "\U{23F3}"
    ensures StatusClass(status) == "status-rejected" <==> StatusIcon(status) == "\U{274C}"
    ensures StatusClass(status) == "status-review" <==> StatusIcon(status) == "\U{1F50D}"
    ensures StatusClass(status) == "status-default" <==> StatusIcon(status) == "\U{1F4CB}"
  {
  }

  // ---------------------------------------------------------------- the dashboard

  /** The figures the dashboard shows (the monthly series and processing time are not modelled). */
  datatype AnalyticsData = AnalyticsData(
    totalUsers: nat,
    totalLenders: nat,
    totalApplications: nat,
    totalLoanAmount: int,
    approvalRate: int,
    topLenders: seq<LenderStat>,
    applicationStatuses: seq<StatusStat>,
    loanAmountRanges: seq<RangeStat>)

  /** `calculateAnalytics`. */
  function CalculateAnalytics(users: seq<User>, lenders: seq<Lender>, apps: seq<LoanApplication>): (d: AnalyticsData)
    ensures d.totalUsers == CountBorrowers(users) && d.totalUsers <= |users|
    ensures d.totalLenders == |lenders| && d.totalApplications == |apps|
    ensures d.totalLoanAmount == SumLoanAmount(apps)
    ensures 0 <= d.approvalRate <= 10000
    ensures apps == [] ==> d.approvalRate == 0
    ensures apps != [] ==>
      2 * |apps| * d.approvalRate <= 20000 * CountStatus(apps, APPROVED) + |apps| < 2 * |apps| * (d.approvalRate + 1)
    ensures d.topLenders == TopLenders(lenders, apps)
    ensures d.applicationStatuses == ApplicationStatuses(apps)
    ensures d.loanAmountRanges == LoanAmountRanges(apps)
  {
    var approved := CountStatus(apps, APPROVED);
    var rate := RateHundredths(approved, |apps|);
    assert apps != [] ==> 2 * |apps| * rate <= 20000 * approved + |apps| < 2 * |apps| * (rate + 1);
    var d := AnalyticsData(
      CountBorrowers(users), |lenders|, |apps|, SumLoanAmount(apps), rate,
      TopLenders(lenders, apps), ApplicationStatuses(apps), LoanAmountRanges(apps));
    assert d.approvalRate == rate;
    d
  }

  /** What the four parallel requests delivered; a request may yield nothing. */
  datatype Fetched = Fetched(
    users: Option<seq<User>>,
    lenders: Option<seq<Lender>>,
    applications: Option<seq<LoanApplication>>,
    rules: Option<seq<EligibilityRule>>)

  class AnalyticsDashboardComponent {
    var analyticsData: Option<AnalyticsData>
    var isLoading: bool
    var lastUpdated: int

    constructor(now: int)
      ensures analyticsData.None? && !isLoading && lastUpdated == now
    {
      analyticsData := None;
      isLoading := false;
      lastUpdated := now;
    }

    /**
     * `loadAnalyticsData` once the requests settle: with all four lists the
     * figures are recomputed and stamped with `now`; when one is missing or
     * a request failed, the old figures stay. Loading ends either way.
     */
    method LoadAnalyticsData(outcome: Result<Fetched>, now: int)
      modifies this
      ensures !isLoading
      ensures (outcome.Success? && outcome.value.users.Some? && outcome.value.lenders.Some?
               && outcome.value.applications.Some? && outcome.value.rules.Some?) ==>
        && analyticsData == Some(CalculateAnalytics(outcome.value.users.value, outcome.value.lenders.value,
                                                    outcome.value.applications.value))
        && lastUpdated == now
      ensures !(outcome.Success? && outcome.value.users.Some? && outcome.value.lenders.Some?
                && outcome.value.applications.Some? && outcome.value.rules.Some?) ==>
        analyticsData == old(analyticsData) && lastUpdated == old(lastUpdated)
    {
      isLoading := true;
      if outcome.Success? {
        var f := outcome.value;
        if f.users.Some? && f.lenders.Some? && f.applications.Some? && f.rules.Some? {
          analyticsData := Some(CalculateAnalytics(f.users.value, f.lenders.value, f.applications.value));
          lastUpdated := now;
        }
      }
      isLoading := false;
    }
  }
}

=== FILE: admin_applications.dfy ===
/**
 * The administrator's list of every loan application
 * (`AdminApplicationsComponent`): status badges, eligibility classes, the
 * detail panel and the tallies above the list.
 */
module AdminApplications {
  import opened Wrappers
  import opened Records
  import Js

  /** `getStatusBadgeClass`: PENDING and any unknown status share the warning badge. */
  function StatusBadgeClass(status: string): (c: string)
    ensures c == "badge--success" <==> status == APPROVED
    ensures c == "badge--danger" <==> status == REJECTED
    ensures c == "badge--info" <==> status == UNDER_REVIEW
    ensures c == "badge--warning" <==> status !in {APPROVED, REJECTED, UNDER_REVIEW}
  {
    if status == APPROVED then "badge--success"
    else if status == REJECTED then "badge--danger"
    else if status == PENDING then "badge--warning"
    else if status == UNDER_REVIEW then "badge--info"
    else "badge--warning"
  }

  /** `getEligibilityClass`: unknown for a missing or zero score, then high from 80 and medium from 60. */
  function EligibilityClass(score: Option<int>): (c: string)
    ensures c == "eligibility--unknown" <==> Js.OrZero(score) == 0
    ensures c == "eligibility--high" <==> Js.OrZero(score) != 0 && score.value >= 80
    ensures c == "eligibility--medium" <==> Js.OrZero(score) != 0 && 60 <= score.value < 80
    ensures c == "eligibility--low" <==> Js.OrZero(score) != 0 && score.value < 60
  {
    if Js.OrZero(score) == 0 then "eligibility--unknown"
    else if score.value >= 80 then "eligibility--high"
    else if score.value >= 60 then "eligibility--medium"
    else "eligibility--low"
  }

  /** `getTotalLoanVolume` before formatting: `loanAmount || 0` summed over the APPROVED applications. */
  function TotalLoanVolume(apps: seq<LoanApplication>): (v: int)
    ensures v == SumLoanAmount(WithStatus(apps, APPROVED))
    ensures (forall i :: 0 <= i < |apps| ==> Js.OrZero(apps[i].loanAmount) >= 0) ==> v >= 0
  {
    ApprovedAmountIsSumOfApproved(apps);
    ApprovedAmountNonNegative(apps);
    ApprovedAmount(apps)
  }

  lemma {:induction false} ApprovedAmountNonNegative(apps: seq<LoanApplication>)
    ensures (forall i :: 0 <= i < |apps| ==> Js.OrZero(apps[i].loanAmount) >= 0) ==> ApprovedAmount(apps) >= 0
  {
    if apps != [] {
      ApprovedAmountNonNegative(apps[1..]);
      if forall i :: 0 <= i < |apps| ==> Js.OrZero(apps[i].loanAmount) >= 0 {
        assert forall i :: 0 <= i < |apps[1..]| ==> apps[1..][i] == apps[i + 1];
      }
    }
  }

  /** Appending applications adds their approved volume. */
  lemma {:induction false} TotalLoanVolumeAppend(a: seq<LoanApplication>, b: seq<LoanApplication>)
    ensures TotalLoanVolume(a + b) == TotalLoanVolume(a) + TotalLoanVolume(b)
  {
    if a == [] {
      assert a + b == b;
    } else {
      assert (a + b)[1..] == a[1..] + b;
      TotalLoanVolumeAppend(a[1..], b);
    }
  }

  class AdminApplicationsComponent {
    var applications: seq<LoanApplication>
    var selectedApplication: Option<LoanApplication>
    var showApplicationDetails: bool
    var errorMessage: string
    var isLoading: bool

    constructor()
      ensures applications == [] && selectedApplication.None? && !showApplicationDetails && errorMessage == ""
      ensures !isLoading
    {
      applications := [];
      isLoading := false;
      selectedApplication := None;
      showApplicationDetails := false;
      errorMessage := "";
    }

    /**
     * `loadApplications`: the service's list on success, its message after a
     * prefix on failure. Loading ends either way.
     */
    method LoadApplications(response: Result<seq<LoanApplication>>)
      modifies this`applications, this`errorMessage, this`isLoading
      ensures !isLoading
      ensures response.Success? ==> applications == response.value && errorMessage == ""
      ensures response.Failure? ==>
        && applications == old(applications)
        && errorMessage == "Failed to load applications: " + response.error
    {
      isLoading := true;
      errorMessage := "";
      match response {
        case Success(apps) => applications := apps;
        case Failure(message) => errorMessage := "Failed to load applications: " + message;
      }
      isLoading := false;
    }

    /** Opens the detail panel on one application. */
    method ViewApplicationDetails(app: LoanApplication)
      modifies this`selectedApplication, this`showApplicationDetails
      ensures selectedApplication == Some(app) && showApplicationDetails
    {
      selectedApplication := Some(app);
      showApplicationDetails := true;
    }

    /** Closes the detail panel and forgets the selection. */
    method CloseApplicationDetails()
      modifies this`selectedApplication, this`showApplicationDetails
      ensures selectedApplication.None? && !showApplicationDetails
    {
      selectedApplication := None;
      showApplicationDetails := false;
    }

    /** `getApplicationStats`: the length and the approved, rejected and pending counts. */
    function GetApplicationStats(): (s: ApplicationStats)
      reads this
      ensures s.total == |applications|
      ensures s.approved == |WithStatus(applications, APPROVED)|
      ensures s.rejected == |WithStatus(applications, REJECTED)|
      ensures s.pending == |WithStatus(applications, PENDING)|
      ensures s.approved + s.rejected + s.pending <= s.total
    {
      Stats(applications)
    }

    /** `getTotalLoanVolume` before formatting. */
    function GetTotalLoanVolume(): (v: int)
      reads this
      ensures v == SumLoanAmount(WithStatus(applications, APPROVED))
    {
      TotalLoanVolume(applications)
    }
  }
}

=== FILE: apply_loan.dfy ===
/**
 * The borrower's loan application page (`BorrowerApplyLoanComponent`): the
 * eligibility score shown beside the form, built from four banded
 * contributions of the signed-in user's profile, and its class and message.
 * A number counts only when it is truthy (present and not 0), a string only
 * when present and non-empty. The date of birth is already a calendar date.
 */
module ApplyLoan {
  import opened Wrappers
  import opened Records
  import Js
  import Dates

  /** Credit: 40 from 750, 30 from 650, 20 from 550, else 10; nothing without a score. */
  function CreditPoints(creditScore: Option<int>): (p: int)
    ensures p in {0, 10, 20, 30, 40}
    ensures p == 0 <==> Js.OrZero(creditScore) == 0
  {
    var c := Js.OrZero(creditScore);
    if c == 0 then 0
    else if c >= 750 then 40
    else if c >= 650 then 30
    else if c >= 550 then 20
    else 10
  }

  /** Income: 30 from 100000, 25 from 50000, 20 from 25000, else 15; nothing without one. */
  function IncomePoints(monthlyIncome: Option<int>): (p: int)
    ensures p in {0, 15, 20, 25, 30}
    ensures p == 0 <==> Js.OrZero(monthlyIncome) == 0
  {
    var m := Js.OrZero(monthlyIncome);
    if m == 0 then 0
    else if m >= 100000 then 30
    else if m >= 50000 then 25
    else if m >= 25000 then 20
    else 15
  }

  /** Employment: EMPLOYED 20, SELF_EMPLOYED 18, STUDENT 15, any other 10; nothing without one. */
  function EmploymentPoints(status: Option<string>): (p: int)
    ensures p in {0, 10, 15, 18, 20}
    ensures p == 0 <==> !Js.Truthy(status)
  {
    if !Js.Truthy(status) then 0
    else if status.value == "EMPLOYED" then 20
    else if status.value == "SELF_EMPLOYED" then 18
    else if status.value == "STUDENT" then 15
    else 10
  }

  /** Age: 10 for 25..55, 8 for 18..65, else 5; nothing without a date of birth. */
  function AgePoints(dateOfBirth: Option<Dates.Date>, today: Dates.Date): (p: int)
    ensures p in {0, 5, 8, 10}
    ensures p == 0 <==> dateOfBirth.None?
  {
    if dateOfBirth.None? then 0
    else
      var age := Dates.AgeOn(dateOfBirth.value, today);
      if 25 <= age <= 55 then 10
      else if 18 <= age <= 65 then 8
      else 5
  }

  /** The score of a profile: the four contributions, capped at 100. */
  function EligibilityScore(u: User, today: Dates.Date): (score: int)
    ensures 0 <= score <= 100
    ensures score == CreditPoints(u.creditScore) + IncomePoints(u.monthlyIncome)
                     + EmploymentPoints(u.employmentStatus) + AgePoints(u.dateOfBirth, today)
  {
    Js.Min(100, CreditPoints(u.creditScore) + IncomePoints(u.monthlyIncome)
                + EmploymentPoints(u.employmentStatus) + AgePoints(u.dateOfBirth, today))
  }

  /** A higher credit score never lowers the eligibility score. */
  lemma {:induction false} ScoreMonotoneInCredit(u: User, better: int, today: Dates.Date)
    requires u.creditScore.Some? && u.creditScore.value > 0 && better >= u.creditScore.value
    ensures EligibilityScore(u, today) <= EligibilityScore(u.(creditScore := Some(better)), today)
  {
    assert CreditPoints(u.creditScore) <= CreditPoints(Some(better));
  }

  const ExcellentMessage := "Excellent! You have a very high chance of approval."
  const GoodMessage := "Good! You have a high chance of approval."
  const FairMessage := "Fair. Consider improving your profile for better chances."
  const PoorMessage := "Poor. We recommend improving your financial profile before applying."

  function EligibilityClass(score: int): (c: string)
    ensures c == "excellent" <==> score >= 80
    ensures c == "good" <==> 60 <= score < 80
    ensures c == "fair" <==> 40 <= score < 60
    ensures c == "poor" <==> score < 40
  {
    if score >= 80 then "excellent" else if score >= 60 then "good" else if score >= 40 then "fair" else "poor"
  }

  function EligibilityMessage(score: int): (m: string)
    ensures m in {ExcellentMessage, GoodMessage, FairMessage, PoorMessage}
  {
    if score >= 80 then ExcellentMessage
    else if score >= 60 then GoodMessage
    else if score >= 40 then FairMessage
    else PoorMessage
  }

  /** The class and the message follow the same cut-offs. */
  lemma ClassAndMessageAgree(score: int)
    ensures EligibilityClass(score) == "excellent" <==> EligibilityMessage(score) == ExcellentMessage
    ensures EligibilityClass(score) == "good" <==> EligibilityMessage(score) == GoodMessage
    ensures EligibilityClass(score) == "fair" <==> EligibilityMessage(score) == FairMessage
    ensures EligibilityClass(score) == "poor" <==> EligibilityMessage(score) == PoorMessage
  {
  }

  class BorrowerApplyLoanComponent {
    var currentUser: Option<User>
    var eligibilityScore: int
    var showEligibilityCheck: bool

    constructor(user: Option<User>)
      ensures currentUser == user && eligibilityScore == 0 && !showEligibilityCheck
    {
      currentUser := user;
      eligibilityScore := 0;
      showEligibilityCheck := false;
    }

    /**
     * Adds up the contributions of the current user's profile and stores the
     * capped total; without a user the stored score is left as it was.
     */
    method CalculateEligibilityScore(today: Dates.Date)
      modifies this`eligibilityScore
      ensures currentUser.None? ==> eligibilityScore == old(eligibilityScore)
      ensures currentUser.Some? ==> eligibilityScore == EligibilityScore(currentUser.value, today)
      ensures currentUser.Some? ==> 0 <= eligibilityScore <= 100
    {
      if currentUser.None? {
        return;
      }
      var u := currentUser.value;
      var score := 0;
      if Js.OrZero(u.creditScore) != 0 {
        var c := u.creditScore.value;
        if c >= 750 { score := score + 40; }
        else if c >= 650 { score := score + 30; }
        else if c >= 550 { score := score + 20; }
        else { score := score + 10; }
      }
      assert score == CreditPoints(u.creditScore);
      if Js.OrZero(u.monthlyIncome) != 0 {
        var m := u.monthlyIncome.value;
        if m >= 100000 { score := score + 30; }
        else if m >= 50000 { score := score + 25; }
        else if m >= 25000 { score := score + 20; }
        else { score := score + 15; }
      }
      assert score == CreditPoints(u.creditScore) + IncomePoints(u.monthlyIncome);
      if Js.Truthy(u.employmentStatus) {
        match u.employmentStatus.value
        case "EMPLOYED" => score := score + 20;
        case "SELF_EMPLOYED" => score := score + 18;
        case "STUDENT" => score := score + 15;
        case _ => score := score + 10;
      }
      assert score == CreditPoints(u.creditScore) + IncomePoints(u.monthlyIncome) + EmploymentPoints(u.employmentStatus);
      if u.dateOfBirth.Some? {
        var age := Dates.AgeOn(u.dateOfBirth.value, today);
        if 25 <= age <= 55 { score := score + 10; }
        else if 18 <= age <= 65 { score := score + 8; }
        else { score := score + 5; }
      }
      eligibilityScore := Js.Min(100, score);
    }

    /** Opens the eligibility panel and recomputes the score. */
    method CheckEligibility(today: Dates.Date)
      modifies this`eligibilityScore, this`showEligibilityCheck
      ensures showEligibilityCheck
      ensures currentUser.None? ==> eligibilityScore == old(eligibilityScore)
      ensures currentUser.Some? ==> eligibilityScore == EligibilityScore(currentUser.value, today)
    {
      showEligibilityCheck := true;
      CalculateEligibilityScore(today);
    }
  }
}

=== FILE: auth.dfy ===
/**
 * The session state of the client (`AuthService`): the current user and the
 * bearer token, the `jwt-token-{id}-{timestamp}` token format with its
 * 24-hour validity, role checks, and login, registration, logout and token
 * refresh. The browser's local storage is modelled by two fields that the
 * service writes through to.
 */
module Auth {
  import opened Wrappers
  import opened Records
  import Strings

  /** Tokens expire 24 hours after they were issued (in milliseconds). */
  const MaxTokenAge := 24 * 60 * 60 * 1000

  /** The demo password every account shares. */
  const DemoPassword := "password123"

  /** What the guards see of the service: the current user and the token. */
  datatype Session = Session(user: Option<User>, token: Option<string>)

  datatype AuthResponse = AuthResponse(user: User, token: string, message: string)

  /** `jwt-token-{id}-{issuedAt}` as login, registration and refresh build it. */
  function MakeToken(id: int, issuedAt: nat): string {
    "jwt-token-" + Strings.IntToString(id) + "-" + Strings.NatToString(issuedAt)
  }

  /**
   * A token is valid when it splits on '-' into at least four pieces, the
   * fourth parses as an integer, and less than 24 hours have passed since it.
   * A missing or empty token is never valid, and neither is one without a
   * '-' in it, since it does not split into four pieces.
   */
  predicate TokenValid(token: Option<string>, now: int)
    ensures TokenValid(token, now) ==> token.Some? && '-' in token.value
  {
    && token.Some? && token.value != ""
    && var parts := Strings.Split(token.value, '-');
    && |parts| >= 4
    && var issuedAt := Strings.ParseInt(parts[3]);
    && issuedAt.Some?
    && now - issuedAt.value < MaxTokenAge
  }

  lemma NoDashInDigits(s: string)
    requires Strings.AllDigits(s)
    ensures '-' !in s
  {
  }

  /**
   * Round trip of the token format: a token issued at `issuedAt` for a user
   * with a non-negative id is valid exactly while less than 24 hours have
   * passed.
   */
  lemma TokenRoundTrip(id: nat, issuedAt: nat, now: int)
    ensures TokenValid(Some(MakeToken(id, issuedAt)), now) <==> now - issuedAt < MaxTokenAge
  {
    var idText := Strings.NatToString(id);
    var timeText := Strings.NatToString(issuedAt);
    NoDashInDigits(idText);
    NoDashInDigits(timeText);
    var tail2 := idText + "-" + timeText;
    var tail1 := "token" + "-" + tail2;
    var whole := "jwt" + "-" + tail1;
    assert MakeToken(id, issuedAt) == whole;
    Strings.SplitWithoutSeparator(timeText, '-');
    Strings.SplitAtFirst(idText, timeText, '-');
    Strings.SplitAtFirst("token", tail2, '-');
    Strings.SplitAtFirst("jwt", tail1, '-');
    var parts := Strings.Split(whole, '-');
    assert parts == ["jwt", "token", idText, timeText];
    Strings.ParseIntOfNatToString(issuedAt);
  }

  /**
   * A token exists, a user exists, and the token is still valid. The check
   * for a non-empty token adds nothing to the validity of the token.
   */
  predicate IsAuthenticated(s: Session, now: int)
    ensures IsAuthenticated(s, now) <==> s.user.Some? && TokenValid(s.token, now)
  {
    && s.token.Some? && s.token.value != ""
    && s.user.Some?
    && TokenValid(s.token, now)
  }

  /** `currentUser?.role === role`: without a signed-in user no role is held. */
  predicate HasRole(s: Session, role: string)
    ensures s.user.None? ==> !HasRole(s, role)
  {
    s.user.Some? && s.user.value.role == Some(role)
  }

  /** `roles.some(r => hasRole(r))`. */
  function HasAnyRole(s: Session, roles: seq<string>): (b: bool)
    ensures b <==> exists i :: 0 <= i < |roles| && HasRole(s, roles[i])
  {
    if roles == [] then false
    else
      assert forall i :: 1 <= i < |roles| ==> roles[1..][i - 1] == roles[i];
      HasRole(s, roles[0]) || HasAnyRole(s, roles[1..])
  }

  /** A user holds at most one role, so two different roles are never both held. */
  lemma RolesExclusive(s: Session, r1: string, r2: string)
    requires r1 != r2 && HasRole(s, r1)
    ensures !HasRole(s, r2)
  {
  }

  /** `Math.max(...users.map(u => u.id), 0) + 1`. */
  function NextUserId(users: seq<User>): (id: int)
    ensures id >= 1
    ensures forall i :: 0 <= i < |users| ==> users[i].id < id
    ensures id == 1 || exists i :: 0 <= i < |users| && users[i].id == id - 1
  {
    if users == [] then 1
    else
      var rest := NextUserId(users[1..]);
      assert forall i :: 1 <= i < |users| ==> users[1..][i - 1] == users[i];
      if users[0].id + 1 >= rest then users[0].id + 1 else rest
  }

  /** `users.find(u => u.username === name)`: the first user with that name. */
  function FindUser(users: seq<User>, username: string): (r: Option<User>)
    ensures r.None? <==> forall i :: 0 <= i < |users| ==> users[i].username != username
    ensures r.Some? ==> r.value in users && r.value.username == username
    ensures r.Some? ==>
      exists k :: 0 <= k < |users| && users[k] == r.value
        && forall i :: 0 <= i < k ==> users[i].username != username
  {
    if users == [] then None
    else if users[0].username == username then Some(users[0])
    else
      var r := FindUser(users[1..], username);
      assert r.Some? ==> forall k :: 0 <= k < |users[1..]| ==> users[1..][k] == users[k + 1];
      r
  }

  class AuthService {
    var currentUser: Option<User>
    var token: Option<string>
    /** The 'currentUser' and 'token' entries of local storage. */
    var storedUser: Option<User>
    var storedToken: Option<string>

    function CurrentSession(): Session
      reads this
    {
      Session(currentUser, token)
    }

    /** Local storage mirrors the in-memory session. */
    ghost predicate Synced()
      reads this
    {
      storedUser == currentUser && storedToken == token
    }

    /**
     * Restores the stored session, then drops it when a user and a token
     * were stored but the token is no longer valid.
     */
    constructor(savedUser: Option<User>, savedToken: Option<string>, now: int)
      ensures Synced()
      ensures (savedUser.Some? && savedToken.Some? && savedToken.value != "" && !TokenValid(savedToken, now))
        ==> currentUser.None? && token.None?
      ensures !(savedUser.Some? && savedToken.Some? && savedToken.value != "" && !TokenValid(savedToken, now))
        ==> currentUser == savedUser && token == savedToken
    {
      currentUser := savedUser;
      token := savedToken;
      storedUser := savedUser;
      storedToken := savedToken;
      new;
      ValidateStoredSession(now);
    }

    /** Clears the session and its stored copy. */
    method Logout()
      modifies this
      ensures currentUser.None? && token.None?
      ensures storedUser.None? && storedToken.None?
      ensures forall now :: !IsAuthenticated(CurrentSession(), now)
    {
      currentUser := None;
      token := None;
      storedUser := None;
      storedToken := None;
    }

    /** Logs out only when a user and a token exist and the token is invalid. */
    method ValidateStoredSession(now: int)
      modifies this
      requires Synced()
      ensures Synced()
      ensures (old(currentUser).Some? && old(token).Some? && old(token).value != "" && !TokenValid(old(token), now))
        ==> currentUser.None? && token.None?
      ensures !(old(currentUser).Some? && old(token).Some? && old(token).value != "" && !TokenValid(old(token), now))
        ==> currentUser == old(currentUser) && token == old(token)
    {
      if currentUser.Some? && token.Some? && token.value != "" && !TokenValid(token, now) {
        Logout();
      }
    }

    /**
     * Finds the user by name in the fetched list and accepts only the demo
     * password; on success the user and a fresh token become the session. A
     * failed fetch is rethrown with its message, or "Login failed" when it
     * has none. On any failure nothing changes.
     */
    method Login(fetched: Result<seq<User>>, username: string, password: string, now: nat) returns (r: Result<AuthResponse>)
      modifies this
      requires Synced()
      ensures Synced()
      ensures fetched.Failure? ==> r == Failure(if fetched.error == "" then "Login failed" else fetched.error)
      ensures fetched.Success? && FindUser(fetched.value, username).None? ==> r == Failure("User not found")
      ensures fetched.Success? && FindUser(fetched.value, username).Some? && password != DemoPassword
        ==> r == Failure("Invalid password")
      ensures fetched.Success? && FindUser(fetched.value, username).Some? && password == DemoPassword ==> r.Success?
      ensures r.Failure? ==> currentUser == old(currentUser) && token == old(token)
      ensures r.Success? ==>
        && fetched.Success? && FindUser(fetched.value, username).Some? && password == DemoPassword
        && var u := FindUser(fetched.value, username).value;
        && r.value == AuthResponse(u, MakeToken(u.id, now), "Login successful")
        && currentUser == Some(u) && token == Some(MakeToken(u.id, now))
    {
      if fetched.Failure? {
        return Failure(if fetched.error == "" then "Login failed" else fetched.error);
      }
      var found := FindUser(fetched.value, username);
      if found.None? {
        return Failure("User not found");
      }
      if password != DemoPassword {
        return Failure("Invalid password");
      }
      var user := found.value;
      var newToken := MakeToken(user.id, now);
      currentUser := Some(user);
      token := Some(newToken);
      storedUser := Some(user);
      storedToken := Some(newToken);
      return Success(AuthResponse(user, newToken, "Login successful"));
    }

    /**
     * Refuses a username taken in the fetched list; otherwise the new user
     * gets the next id and becomes the session together with a fresh token.
     * A failed fetch is rethrown with its message, or "Registration failed"
     * when it has none.
     */
    method Register(fetched: Result<seq<User>>, userData: User, now: nat) returns (r: Result<AuthResponse>)
      modifies this
      requires Synced()
      ensures Synced()
      ensures fetched.Failure? ==> r == Failure(if fetched.error == "" then "Registration failed" else fetched.error)
      ensures fetched.Success? ==> (FindUser(fetched.value, userData.username).Some? <==> r.Failure?)
      ensures fetched.Success? && r.Failure? ==> r.error == "Username already exists"
      ensures r.Failure? ==> currentUser == old(currentUser) && token == old(token)
      ensures r.Success? ==>
        && fetched.Success?
        && var u := userData.(id := NextUserId(fetched.value));
        && r.value == AuthResponse(u, MakeToken(u.id, now), "Registration successful")
        && currentUser == Some(u) && token == Some(MakeToken(u.id, now))
    {
      if fetched.Failure? {
        return Failure(if fetched.error == "" then "Registration failed" else fetched.error);
      }
      var users := fetched.value;
      if FindUser(users, userData.username).Some? {
        return Failure("Username already exists");
      }
      var user := userData.(id := NextUserId(users));
      var newToken := MakeToken(user.id, now);
      currentUser := Some(user);
      token := Some(newToken);
      storedUser := Some(user);
      storedToken := Some(newToken);
      return Success(AuthResponse(user, newToken, "Registration successful"));
    }

    /** Re-issues the token at `now`, and only when a user and a token exist. */
    method RefreshToken(now: nat)
      modifies this
      requires Synced()
      ensures Synced()
      ensures currentUser == old(currentUser)
      ensures old(currentUser).Some? && old(token).Some? && old(token).value != ""
        ==> token == Some(MakeToken(currentUser.value.id, now))
      ensures !(old(currentUser).Some? && old(token).Some? && old(token).value != "")
        ==> token == old(token)
    {
      if currentUser.Some? && token.Some? && token.value != "" {
        var newToken := MakeToken(currentUser.value.id, now);
        token := Some(newToken);
        storedToken := Some(newToken);
      }
    }
  }

  /**
   * Right after a successful login the session is authenticated for 24 hours
   * (for users with a non-negative id).
   */
  lemma LoginAuthenticates(u: User, issuedAt: nat, now: int)
    requires u.id >= 0
    ensures IsAuthenticated(Session(Some(u), Some(MakeToken(u.id, issuedAt))), now) <==> now - issuedAt < MaxTokenAge
  {
    TokenRoundTrip(u.id, issuedAt, now);
  }
}

=== FILE: auth_guards.dfy ===
/**
 * The two authentication guards: `AuthGuard` opens protected routes to an
 * authenticated session and sends everyone else to '/login'; `PublicGuard`
 * opens public pages (login, register) only to visitors who are not
 * authenticated and sends signed-in users to their role's dashboard.
 */
module AuthGuards {
  import opened Wrappers
  import opened Records
  import Auth

  datatype Decision = Decision(allow: bool, navigateTo: Option<string>)

  function AuthGuard(s: Auth.Session, now: int): (d: Decision)
    ensures d.allow <==> Auth.IsAuthenticated(s, now)
    ensures d.allow ==> d.navigateTo.None?
    ensures !d.allow ==> d.navigateTo == Some("/login")
  {
    if Auth.IsAuthenticated(s, now) then Decision(true, None) else Decision(false, Some("/login"))
  }

  /** The dashboard of each role; any other role lands on the generic one. */
  function DashboardFor(role: Option<string>): (url: string)
    ensures role == Some(ADMIN) ==> url == "/admin/dashboard"
    ensures role == Some(LENDER) ==> url == "/lender/dashboard"
    ensures role == Some(BORROWER) ==> url == "/borrower/dashboard"
    ensures role !in {Some(ADMIN), Some(LENDER), Some(BORROWER)} ==> url == "/dashboard"
  {
    match role
      case Some(r) =>
        if r == ADMIN then "/admin/dashboard"
        else if r == LENDER then "/lender/dashboard"
        else if r == BORROWER then "/borrower/dashboard"
        else "/dashboard"
      case None => "/dashboard"
  }

  /**
   * Allows without navigation when not authenticated; an authenticated
   * visitor is refused and sent to the dashboard of their role.
   */
  function PublicGuard(s: Auth.Session, now: int): (d: Decision)
    ensures d.allow <==> !Auth.IsAuthenticated(s, now)
    ensures d.allow ==> d.navigateTo.None?
    ensures !d.allow ==> s.user.Some? && d.navigateTo == Some(DashboardFor(s.user.value.role))
  {
    if !Auth.IsAuthenticated(s, now) then Decision(true, None)
    else match s.user
      case Some(u) => Decision(false, Some(DashboardFor(u.role)))
      case None => Decision(false, None)
  }

  /** For one session at one instant exactly one of the two guards opens. */
  lemma ExactlyOneGuardAllows(s: Auth.Session, now: int)
    ensures AuthGuard(s, now).allow != PublicGuard(s, now).allow
  {
  }
}

=== FILE: dates.dfy ===
/** Calendar dates as the components read them: year, month and day of month. */
module Dates {

  datatype Date = Date(year: int, month: int, day: int)

  /** Strict calendar order: by year, then month, then day. */
  predicate Before(a: Date, b: Date) {
    a.year < b.year
    || (a.year == b.year && a.month < b.month)
    || (a.year == b.year && a.month == b.month && a.day < b.day)
  }

  /** The same month and day, `years` years after d. */
  function Anniversary(d: Date, years: int): Date {
    Date(d.year + years, d.month, d.day)
  }

  /**
   * Age in whole years on `today`: the difference of the years, less one when
   * this year's birthday (month, then day of month) is still to come.
   * The result is the number of anniversaries reached: the age-th has been
   * reached and the next one has not.
   */
  function AgeOn(birth: Date, today: Date): (age: int)
    ensures !Before(today, Anniversary(birth, age))
    ensures Before(today, Anniversary(birth, age + 1))
  {
    var age := today.year - birth.year;
    var monthDiff := today.month - birth.month;
    if monthDiff < 0 || (monthDiff == 0 && today.day < birth.day) then age - 1 else age
  }

  /** Age never decreases as time passes. */
  lemma AgeMonotone(birth: Date, d1: Date, d2: Date)
    requires !Before(d2, d1)
    ensures AgeOn(birth, d1) <= AgeOn(birth, d2)
  {
  }
}

=== FILE: document_management.dfy ===
/**
 * The borrower's documents page (`DocumentManagementComponent`): the checklist
 * of the five required document types, the completion percentage, uploading
 * (a new document goes to the front of the list once the simulated upload
 * delay is over) and deletion, and the lookups the page displays.
 * The upload delay is the explicit second step `FinishUpload`.
 */
module DocumentManagement {
  import opened Wrappers
  import opened Records
  import Js
  import Lists
  import Strings

  datatype DocType = PanCard | AadharCard | BankStatement | SalarySlip | AddressProof | Other

  datatype Document = Document(
    id: Option<int>,
    name: string,
    kind: DocType,
    status: string,
    uploadedAt: string,
    size: int,
    url: string,
    applicationId: Option<int>)

  datatype DocumentTypeInfo = DocumentTypeInfo(value: DocType, displayLabel: string, icon: string, required: bool)

  /** The table of document types, in display order. */
  const DocumentTypes: seq<DocumentTypeInfo> := [
    DocumentTypeInfo(PanCard, "PAN Card", "\U{1F194}", true),
    DocumentTypeInfo(AadharCard, "Aadhar Card", "\U{1F194}", true),
    DocumentTypeInfo(BankStatement, "Bank Statement (3 months)", "\U{1F3E6}", true),
    DocumentTypeInfo(SalarySlip, "Salary Slip (3 months)", "\U{1F4B0}", true),
    DocumentTypeInfo(AddressProof, "Address Proof", "\U{1F3E0}", true),
    DocumentTypeInfo(Other, "Other Documents", "\U{1F4C4}", false)]

  const DefaultIcon := "\U{1F4C4}"
  const DefaultLabel := "Document"

  /** The values of the required rows, in table order. */
  function RequiredOf(table: seq<DocumentTypeInfo>): (r: seq<DocType>)
    ensures |r| <= |table|
    ensures forall t :: t in r <==> exists i :: 0 <= i < |table| && table[i].required && table[i].value == t
  {
    if table == [] then []
    else (if table[0].required then [table[0].value] else []) + RequiredOf(table[1..])
  }

  /** Every type but OTHER is required, in table order. */
  lemma RequiredTypesAreFive()
    ensures RequiredOf(DocumentTypes) == [PanCard, AadharCard, BankStatement, SalarySlip, AddressProof]
  {
    assert DocumentTypes[1..][1..][1..][1..][1..][1..] == [];
  }

  /** A type is required exactly when it is not OTHER. */
  lemma RequiredMembership()
    ensures forall t :: t in RequiredOf(DocumentTypes) <==> t != Other
  {
    RequiredTypesAreFive();
    forall t
      ensures t in RequiredOf(DocumentTypes) <==> t != Other
    {
      match t
      case PanCard => assert RequiredOf(DocumentTypes)[0] == t;
      case AadharCard => assert RequiredOf(DocumentTypes)[1] == t;
      case BankStatement => assert RequiredOf(DocumentTypes)[2] == t;
      case SalarySlip => assert RequiredOf(DocumentTypes)[3] == t;
      case AddressProof => assert RequiredOf(DocumentTypes)[4] == t;
      case Other =>
    }
  }

  /** Some document of that type has been uploaded. */
  predicate Uploaded(docs: seq<Document>, t: DocType) {
    exists i :: 0 <= i < |docs| && docs[i].kind == t
  }

  /** The types of ts, in order, whose upload state is `uploaded`. */
  function TypesWhere(ts: seq<DocType>, docs: seq<Document>, uploaded: bool): (r: seq<DocType>)
    ensures |r| <= |ts|
    ensures forall t :: t in r <==> t in ts && Uploaded(docs, t) == uploaded
  {
    if ts == [] then []
    else (if Uploaded(docs, ts[0]) == uploaded then [ts[0]] else []) + TypesWhere(ts[1..], docs, uploaded)
  }

  /** Every type lands on exactly one side. */
  lemma {:induction false} TypesWherePartition(ts: seq<DocType>, docs: seq<Document>)
    ensures |TypesWhere(ts, docs, true)| + |TypesWhere(ts, docs, false)| == |ts|
  {
    if ts != [] {
      TypesWherePartition(ts[1..], docs);
    }
  }

  /** `getMissingDocuments`: the required types no document has, in table order. */
  function MissingDocuments(docs: seq<Document>): (r: seq<DocType>)
    ensures Other !in r
    ensures forall t :: t in r <==> t != Other && !Uploaded(docs, t)
  {
    RequiredMembership();
    TypesWhere(RequiredOf(DocumentTypes), docs, false)
  }

  /** The required types some document has. */
  function CompletedTypes(docs: seq<Document>): (r: seq<DocType>)
    ensures forall t :: t in r <==> t != Other && Uploaded(docs, t)
  {
    RequiredMembership();
    TypesWhere(RequiredOf(DocumentTypes), docs, true)
  }

  /** `getRequiredDocumentsCount`. */
  function RequiredDocumentsCount(): (n: nat)
    ensures n == 5
  {
    RequiredTypesAreFive();
    |RequiredOf(DocumentTypes)|
  }

  /** Completed and missing required types together make up the required count. */
  lemma CompletedPlusMissing(docs: seq<Document>)
    ensures |CompletedTypes(docs)| + |MissingDocuments(docs)| == RequiredDocumentsCount()
  {
    TypesWherePartition(RequiredOf(DocumentTypes), docs);
  }

  /** Out of five, each completed type is exactly 20 percent. */
  lemma FifthAsPercent(done: int)
    ensures Js.RoundDiv(100 * done, 5) == 20 * done
  {
  }

  /** `getCompletionPercentage`: completed over required, as a rounded percentage. */
  function CompletionPercentage(docs: seq<Document>): (p: int)
    ensures 0 <= p <= 100
    ensures p == 100 <==> MissingDocuments(docs) == []
  {
    CompletedPlusMissing(docs);
    var done := |CompletedTypes(docs)|;
    FifthAsPercent(done);
    Js.RoundDiv(100 * done, RequiredDocumentsCount())
  }

  /** The table row of a type (`documentTypes.find`). */
  function TypeInfo(table: seq<DocumentTypeInfo>, t: DocType): (r: Option<DocumentTypeInfo>)
    ensures r.Some? ==> r.value in table && r.value.value == t
    ensures r.None? ==> forall i :: 0 <= i < |table| ==> table[i].value != t
  {
    if table == [] then None
    else if table[0].value == t then Some(table[0])
    else TypeInfo(table[1..], t)
  }

  /** `getDocumentIcon`: the row's icon, falling back to a page icon. */
  function DocumentIcon(t: DocType): (icon: string)
    ensures icon != ""
  {
    var info := TypeInfo(DocumentTypes, t);
    if info.Some? && info.value.icon != "" then info.value.icon else DefaultIcon
  }

  /** `getDocumentTypeLabel`: the row's label, falling back to "Document". */
  function DocumentTypeLabel(t: DocType): (text: string)
    ensures text != ""
  {
    var info := TypeInfo(DocumentTypes, t);
    if info.Some? && info.value.displayLabel != "" then info.value.displayLabel else DefaultLabel
  }

  /** Every type has a row, so the lookups never fall back: icon and label are the row's. */
  lemma LookupsFindEveryType(t: DocType)
    ensures TypeInfo(DocumentTypes, t).Some?
    ensures DocumentIcon(t) == TypeInfo(DocumentTypes, t).value.icon
    ensures DocumentTypeLabel(t) == TypeInfo(DocumentTypes, t).value.displayLabel
    ensures DocumentTypeLabel(t) != DefaultLabel
  {
    var k := match t
      case PanCard => 0
      case AadharCard => 1
      case BankStatement => 2
      case SalarySlip => 3
      case AddressProof => 4
      case Other => 5;
    TypeInfoFindsFirst(DocumentTypes, t, k);
    assert DocumentTypes[k].displayLabel != "" && DocumentTypes[k].displayLabel != DefaultLabel;
    assert DocumentTypes[k].icon != "";
  }

  /** The lookup returns the first row of the type. */
  lemma {:induction false} TypeInfoFindsFirst(table: seq<DocumentTypeInfo>, t: DocType, k: nat)
    requires k < |table| && table[k].value == t
    requires forall j :: 0 <= j < k ==> table[j].value != t
    ensures TypeInfo(table, t) == Some(table[k])
  {
    if k > 0 {
      assert table[0].value != t;
      assert table[1..][k - 1] == table[k];
      TypeInfoFindsFirst(table[1..], t, k - 1);
    }
  }

  /** `getApplicationName`: not assigned for a falsy id, the number when found, else unknown. */
  function ApplicationName(apps: seq<LoanApplication>, applicationId: Option<int>): (name: string)
    ensures Js.OrZero(applicationId) == 0 ==> name == "Not Assigned"
    ensures Js.OrZero(applicationId) != 0 && IndexOfId(apps, applicationId.value).Some? ==>
      name == "Application #" + Strings.IntToString(applicationId.value)
    ensures Js.OrZero(applicationId) != 0 && IndexOfId(apps, applicationId.value).None? ==>
      name == "Unknown Application"
  {
    if Js.OrZero(applicationId) == 0 then "Not Assigned"
    else match IndexOfId(apps, applicationId.value)
      case Some(k) => "Application #" + Strings.IntToString(apps[k].id)
      case None => "Unknown Application"
  }

  function DocumentId(d: Document): int {
    Js.OrZero(d.id)
  }

  /**
   * `documents.filter(doc => doc.id !== documentId)`: the documents not
   * carrying that id, in their order. A document without an id is kept.
   * When every document has an id, this is the filter on `DocumentId`.
   */
  function WithoutDocument(docs: seq<Document>, documentId: int): (r: seq<Document>)
    ensures |r| <= |docs|
    ensures forall i :: 0 <= i < |r| ==> r[i] in docs && r[i].id != Some(documentId)
    ensures forall i :: 0 <= i < |docs| && docs[i].id != Some(documentId) ==> docs[i] in r
    ensures (forall i :: 0 <= i < |docs| ==> docs[i].id.Some?) ==> r == Lists.Without(docs, DocumentId, documentId)
  {
    if docs == [] then []
    else
      var rest := WithoutDocument(docs[1..], documentId);
      assert forall i :: 1 <= i < |docs| ==> docs[i] == docs[1..][i - 1];
      if docs[0].id == Some(documentId) then rest else [docs[0]] + rest
  }

  /** The id the upload gives, as written: one more than the list's length. */
  function AsWrittenDocumentId(docs: seq<Document>): (id: int)
    ensures id == |docs| + 1
  {
    |docs| + 1
  }

  /** The largest id in the list, or 0. */
  function MaxDocumentId(docs: seq<Document>): (m: int)
    ensures m >= 0
    ensures forall i :: 0 <= i < |docs| ==> DocumentId(docs[i]) <= m
  {
    if docs == [] then 0 else Js.Max(DocumentId(docs[0]), MaxDocumentId(docs[1..]))
  }

  /** The corrected id: one more than the largest id, so no document already has it. */
  function FreshDocumentId(docs: seq<Document>): (id: int)
    ensures id >= 1
    ensures forall i :: 0 <= i < |docs| ==> DocumentId(docs[i]) != id
  {
    MaxDocumentId(docs) + 1
  }

  /** The three documents the page starts with. */
  const InitialDocuments: seq<Document> := [
    Document(Some(1), "PAN_Card_2024.pdf", PanCard, APPROVED, "2024-01-15T10:30:00Z", 245760,
             "https://example.com/pan_card.pdf", Some(1)),
    Document(Some(2), "Aadhar_Card_2024.pdf", AadharCard, APPROVED, "2024-01-15T10:35:00Z", 512000,
             "https://example.com/aadhar_card.pdf", Some(1)),
    Document(Some(3), "Bank_Statement_Jan2024.pdf", BankStatement, PENDING, "2024-01-16T14:20:00Z", 1024000,
             "https://example.com/bank_statement.pdf", Some(1))]

  /**
   * Deleting document 1 and then uploading gives the new document id 3,
   * which the bank statement still carries.
   */
  lemma DuplicateIdAfterDelete()
    ensures var after := WithoutDocument(InitialDocuments, 1);
      && |after| == 2
      && AsWrittenDocumentId(after) == 3
      && after[1].id == Some(3)
  {
    var docs := InitialDocuments;
    assert DocumentId(docs[0]) == 1 && DocumentId(docs[1]) == 2 && DocumentId(docs[2]) == 3;
    assert docs[1..][1..][1..] == [];
    assert WithoutDocument(docs, 1) == docs[1..];
  }

  datatype FileInfo = FileInfo(name: string, size: int)

  class DocumentManagementComponent {
    var documents: seq<Document>
    var loanApplications: seq<LoanApplication>
    var showUploadForm: bool
    var selectedFile: Option<FileInfo>
    var selectedDocumentType: DocType
    var selectedApplicationId: Option<int>
    var isLoading: bool

    /**
     * The component as `ngOnInit` leaves it: no documents yet and loading
     * under way, the borrower's applications as the service answered them,
     * or none when that request failed (the error is only logged).
     */
    constructor(applications: Result<seq<LoanApplication>>)
      ensures documents == [] && isLoading
      ensures applications.Success? ==> loanApplications == applications.value
      ensures applications.Failure? ==> loanApplications == []
      ensures !showUploadForm && selectedFile.None? && selectedDocumentType == PanCard
      ensures selectedApplicationId.None?
    {
      documents := [];
      loanApplications := if applications.Success? then applications.value else [];
      showUploadForm := false;
      selectedFile := None;
      selectedDocumentType := PanCard;
      selectedApplicationId := None;
      isLoading := true;
    }

    /** `loadDocuments` once its delay is over: the three sample documents replace the list. */
    method LoadDocuments()
      modifies this`documents, this`isLoading
      ensures documents == InitialDocuments && !isLoading
    {
      documents := InitialDocuments;
      isLoading := false;
    }

    /**
     * First step of an upload: without a selected file nothing happens;
     * otherwise the PENDING document to be added is prepared, with no id yet.
     */
    method StartUpload(nowIso: string) returns (pending: Option<Document>)
      modifies this`isLoading
      ensures selectedFile.None? ==> pending.None? && isLoading == old(isLoading)
      ensures selectedFile.Some? ==>
        && pending == Some(Document(None, selectedFile.value.name, selectedDocumentType, PENDING, nowIso,
                                    selectedFile.value.size, "", selectedApplicationId))
        && isLoading
    {
      if selectedFile.None? {
        return None;
      }
      pending := Some(Document(None, selectedFile.value.name, selectedDocumentType, PENDING, nowIso,
                               selectedFile.value.size, "", selectedApplicationId));
      isLoading := true;
    }

    /**
     * Second step, once the delay is over, as written: the document gets the
     * id `documents.length + 1`, goes to the front, and the form closes with
     * its selection cleared.
     */
    method FinishUpload(doc: Document)
      modifies this
      ensures documents == [doc.(id := Some(AsWrittenDocumentId(old(documents))))] + old(documents)
      ensures !isLoading && !showUploadForm && selectedFile.None? && selectedApplicationId.None?
      ensures loanApplications == old(loanApplications) && selectedDocumentType == old(selectedDocumentType)
    {
      var d := doc.(id := Some(|documents| + 1));
      documents := [d] + documents;
      isLoading := false;
      showUploadForm := false;
      selectedFile := None;
      selectedApplicationId := None;
    }

    /** The same step with an id no document in the list carries. */
    method FinishUploadCorrected(doc: Document)
      modifies this
      ensures documents == [doc.(id := Some(FreshDocumentId(old(documents))))] + old(documents)
      ensures forall i :: 1 <= i < |documents| ==> DocumentId(documents[i]) != DocumentId(documents[0])
      ensures !isLoading && !showUploadForm && selectedFile.None? && selectedApplicationId.None?
      ensures loanApplications == old(loanApplications) && selectedDocumentType == old(selectedDocumentType)
    {
      var d := doc.(id := Some(FreshDocumentId(documents)));
      documents := [d] + documents;
      isLoading := false;
      showUploadForm := false;
      selectedFile := None;
      selectedApplicationId := None;
    }

    /** A confirmed deletion drops every document with that id, keeping the rest in order. */
    method DeleteDocument(documentId: int, confirmed: bool)
      modifies this`documents
      ensures confirmed ==> documents == WithoutDocument(old(documents), documentId)
      ensures !confirmed ==> documents == old(documents)
    {
      if confirmed {
        documents := WithoutDocument(documents, documentId);
      }
    }

    /** Opens or closes the upload form; closing clears the selection. */
    method ToggleUploadForm()
      modifies this`showUploadForm, this`selectedFile, this`selectedApplicationId
      ensures showUploadForm == !old(showUploadForm)
      ensures !showUploadForm ==> selectedFile.None? && selectedApplicationId.None?
      ensures showUploadForm ==> selectedFile == old(selectedFile) && selectedApplicationId == old(selectedApplicationId)
    {
      showUploadForm := !showUploadForm;
      if !showUploadForm {
        selectedFile := None;
        selectedApplicationId := None;
      }
    }

    function GetMissingDocumentsCount(): (n: nat)
      reads this
      ensures n <= RequiredDocumentsCount()
      ensures n == 0 <==> CompletionPercentage(documents) == 100
    {
      CompletedPlusMissing(documents);
      |MissingDocuments(documents)|
    }
  }
}

=== FILE: eligibility_check.dfy ===
/**
 * The borrower's eligibility overview (`BorrowerEligibilityCheckComponent`):
 * a fixed list of per-lender answers, their counts, the risk badge of each,
 * and an overall score (the rounded mean of the per-lender scores) with its
 * class and message.
 */
module EligibilityCheck {
  import opened Wrappers
  import Js
  import Strings
  import ApplyLoan

  /** One lender's answer as the screen lists it; rate and fee are display strings. */
  datatype LenderAnswer = LenderAnswer(
    lenderId: int,
    lenderName: string,
    eligible: bool,
    maxLoanAmount: int,
    interestRate: string,
    processingFee: string,
    eligibilityScore: int,
    requirements: seq<string>,
    reasons: seq<string>,
    riskLevel: string,
    approvalTime: string)

  /**
   * The four answers `checkEligibility` loads. The rupee sign in each income
   * requirement is kept as the file holds it: its UTF-8 bytes read as
   * Windows-1252, the same mis-decoding as the risk icons below.
   */
  const FixtureAnswers: seq<LenderAnswer> := [
    LenderAnswer(1, "City Bank", true, 1000000, "12%", "2%", 85,
                 ["Credit Score: 650+", "Income: \U{00E2}\U{201A}\U{00B9}25,000+", "Age: 18-65"],
                 ["Excellent credit score", "Stable income", "Good employment history"], "LOW", "2-3 business days"),
    LenderAnswer(2, "State Bank", true, 500000, "14%", "1.5%", 78,
                 ["Credit Score: 600+", "Income: \U{00E2}\U{201A}\U{00B9}20,000+", "Age: 21-60"],
                 ["Good credit score", "Adequate income", "Regular employment"], "MEDIUM", "3-5 business days"),
    LenderAnswer(3, "National Bank", false, 750000, "13%", "2.5%", 45,
                 ["Credit Score: 700+", "Income: \U{00E2}\U{201A}\U{00B9}50,000+", "Age: 25-55"],
                 ["Credit score below requirement", "Income below threshold"], "HIGH", "5-7 business days"),
    LenderAnswer(4, "Metro Bank", true, 300000, "15%", "3%", 72,
                 ["Credit Score: 550+", "Income: \U{00E2}\U{201A}\U{00B9}15,000+", "Age: 18-70"],
                 ["Acceptable credit score", "Minimum income met", "Flexible age range"], "MEDIUM", "4-6 business days")
  ]

  /** The number of answers that say eligible. */
  function EligibleCount(answers: seq<LenderAnswer>): (n: nat)
    ensures n <= |answers|
    ensures n == 0 <==> forall i :: 0 <= i < |answers| ==> !answers[i].eligible
    ensures n == |answers| <==> forall i :: 0 <= i < |answers| ==> answers[i].eligible
  {
    if answers == [] then 0
    else (if answers[0].eligible then 1 else 0) + EligibleCount(answers[1..])
  }

  /** `getRiskClass`: the level compared case-insensitively with low, medium and high. */
  function RiskClass(riskLevel: string): (c: string)
    ensures c == "low-risk" <==> Strings.ToLower(riskLevel) == "low"
    ensures c == "medium-risk" <==> Strings.ToLower(riskLevel) == "medium"
    ensures c == "high-risk" <==> Strings.ToLower(riskLevel) == "high"
    ensures c == "unknown-risk" <==> Strings.ToLower(riskLevel) !in {"low", "medium", "high"}
  {
    var level := Strings.ToLower(riskLevel);
    if level == "low" then "low-risk"
    else if level == "medium" then "medium-risk"
    else if level == "high" then "high-risk"
    else "unknown-risk"
  }

  /**
   * `getRiskIcon` as the file holds it: each emoji's UTF-8 bytes were saved
   * as if they were Windows-1252 characters, so every icon is a run of
   * three or four Latin characters instead of one coloured circle.
   */
  function RiskIconAsWritten(riskLevel: string): (icon: string)
    ensures |icon| == if Strings.ToLower(riskLevel) in {"low", "medium", "high"} then 4 else 3
  {
    var level := Strings.ToLower(riskLevel);
    if level == "low" then "\U{00F0}\U{0178}\U{0178}\U{00A2}"
    else if level == "medium" then "\U{00F0}\U{0178}\U{0178}\U{00A1}"
    else if level == "high" then "\U{00F0}\U{0178}\U{201D}\U{00B4}"
    else "\U{00E2}\U{0161}\U{00AA}"
  }

  /** The risk icon as evidently intended: one green, yellow, red or white circle. */
  function RiskIcon(riskLevel: string): (icon: string)
    ensures |icon| == 1
    ensures icon == "\U{1F7E2}" <==> RiskClass(riskLevel) == "low-risk"
    ensures icon == "\U{1F7E1}" <==> RiskClass(riskLevel) == "medium-risk"
    ensures icon == "\U{1F534}" <==> RiskClass(riskLevel) == "high-risk"
    ensures icon == "\U{26AA}" <==> RiskClass(riskLevel) == "unknown-risk"
  {
    var level := Strings.ToLower(riskLevel);
    if level == "low" then "\U{1F7E2}"
    else if level == "medium" then "\U{1F7E1}"
    else if level == "high" then "\U{1F534}"
    else "\U{26AA}"
  }

  /** For a LOW risk the file's icon is four characters where one circle was meant. */
  lemma RiskIconGarbled()
    ensures Strings.ToLower("LOW") == "low"
    ensures RiskIconAsWritten("LOW") != RiskIcon("LOW")
    ensures |RiskIconAsWritten("LOW")| == 4 && |RiskIcon("LOW")| == 1
  {
    assert Strings.ToLower("LOW") == "low" by {
      assert Strings.ToLower("W") == "w";
      assert Strings.ToLower("OW") == "ow";
    }
  }

  /** Sum of the per-lender scores. */
  function TotalScore(answers: seq<LenderAnswer>): int {
    if answers == [] then 0 else answers[0].eligibilityScore + TotalScore(answers[1..])
  }

  /** Every per-lender score lies in 0..100. */
  ghost predicate ScoresInRange(answers: seq<LenderAnswer>) {
    forall i :: 0 <= i < |answers| ==> 0 <= answers[i].eligibilityScore <= 100
  }

  lemma {:induction false} TotalScoreBounded(answers: seq<LenderAnswer>)
    requires ScoresInRange(answers)
    ensures 0 <= TotalScore(answers) <= 100 * |answers|
  {
    if answers != [] {
      assert ScoresInRange(answers[1..]) by {
        forall i | 0 <= i < |answers[1..]|
          ensures 0 <= answers[1..][i].eligibilityScore <= 100
        {
          assert answers[1..][i] == answers[i + 1];
        }
      }
      TotalScoreBounded(answers[1..]);
    }
  }

  /**
   * `getOverallEligibilityScore`: 0 for no answers, otherwise the mean score
   * rounded half up, i.e. the integer nearest to total / n.
   */
  function OverallScore(answers: seq<LenderAnswer>): (score: int)
    ensures answers == [] ==> score == 0
    ensures answers != [] ==>
      2 * |answers| * score <= 2 * TotalScore(answers) + |answers| < 2 * |answers| * (score + 1)
  {
    if answers == [] then 0 else Js.RoundDiv(TotalScore(answers), |answers|)
  }

  /** The overall score of scores in 0..100 is in 0..100 too. */
  lemma OverallScoreInRange(answers: seq<LenderAnswer>)
    requires ScoresInRange(answers)
    ensures 0 <= OverallScore(answers) <= 100
  {
    TotalScoreBounded(answers);
    if answers != [] {
      Js.RoundDivBetween(TotalScore(answers), |answers|, 0, 100);
    }
  }

  const VeryHighMessage := "Excellent! You have very high chances of approval with most lenders."
  const HighMessage := "Good! You have high chances of approval with several lenders."
  const FairMessage := "Fair. Consider improving your profile for better chances."
  const PoorMessage := "Poor. We recommend improving your financial profile before applying."

  /** `getOverallEligibilityMessage`: the message for the overall score, with the class cut-offs. */
  function OverallMessage(answers: seq<LenderAnswer>): (m: string)
    ensures m == VeryHighMessage <==> ApplyLoan.EligibilityClass(OverallScore(answers)) == "excellent"
    ensures m == HighMessage <==> ApplyLoan.EligibilityClass(OverallScore(answers)) == "good"
    ensures m == FairMessage <==> ApplyLoan.EligibilityClass(OverallScore(answers)) == "fair"
    ensures m == PoorMessage <==> ApplyLoan.EligibilityClass(OverallScore(answers)) == "poor"
  {
    var score := OverallScore(answers);
    if score >= 80 then VeryHighMessage
    else if score >= 60 then HighMessage
    else if score >= 40 then FairMessage
    else PoorMessage
  }

  /** The loaded answers: three of four eligible, an overall score of 70, classed good. */
  lemma FixtureOverview()
    ensures EligibleCount(FixtureAnswers) == 3
    ensures OverallScore(FixtureAnswers) == 70
    ensures ApplyLoan.EligibilityClass(OverallScore(FixtureAnswers)) == "good"
    ensures OverallMessage(FixtureAnswers) == HighMessage
  {
    assert TotalScore(FixtureAnswers) == 280 by {
      assert TotalScore(FixtureAnswers[3..]) == 72;
      assert TotalScore(FixtureAnswers[2..]) == 117;
      assert TotalScore(FixtureAnswers[1..]) == 195;
    }
    assert EligibleCount(FixtureAnswers[1..]) == 2 by {
      assert EligibleCount(FixtureAnswers[3..]) == 1;
      assert EligibleCount(FixtureAnswers[2..]) == 1;
    }
  }

  class BorrowerEligibilityCheckComponent {
    var eligibilityResults: seq<LenderAnswer>
    var showDetailedResults: bool
    var errorMessage: string
    var isLoading: bool

    constructor()
      ensures eligibilityResults == [] && !showDetailedResults && errorMessage == "" && !isLoading
    {
      eligibilityResults := [];
      showDetailedResults := false;
      errorMessage := "";
      isLoading := false;
    }

    /**
     * Starts a check: raises the loading flag and clears the error. The answers
     * arrive in `FinishCheckEligibility`, the step the timer runs later.
     */
    method CheckEligibility()
      modifies this`isLoading, this`errorMessage
      ensures isLoading && errorMessage == ""
    {
      isLoading := true;
      errorMessage := "";
    }

    /** The deferred step of a check: loads the fixed answers and lowers the loading flag. */
    method FinishCheckEligibility()
      modifies this`eligibilityResults, this`isLoading
      ensures eligibilityResults == FixtureAnswers && !isLoading
    {
      eligibilityResults := FixtureAnswers;
      isLoading := false;
    }

    /** Shows or hides the detailed answers. */
    method ViewDetailedResults()
      modifies this`showDetailedResults
      ensures showDetailedResults == !old(showDetailedResults)
    {
      showDetailedResults := !showDetailedResults;
    }

    function GetEligibleCount(): (n: nat)
      reads this
      ensures n <= |eligibilityResults|
      ensures n == EligibleCount(eligibilityResults)
    {
      EligibleCount(eligibilityResults)
    }

    function GetTotalCount(): (n: nat)
      reads this
      ensures n == |eligibilityResults|
    {
      |eligibilityResults|
    }

    /** `getOverallEligibilityClass`: the class of the overall score. */
    function GetOverallEligibilityClass(): (c: string)
      reads this
      ensures c == "excellent" <==> OverallScore(eligibilityResults) >= 80
      ensures c == "good" <==> 60 <= OverallScore(eligibilityResults) < 80
      ensures c == "fair" <==> 40 <= OverallScore(eligibilityResults) < 60
      ensures c == "poor" <==> OverallScore(eligibilityResults) < 40
    {
      ApplyLoan.EligibilityClass(OverallScore(eligibilityResults))
    }
  }
}

=== FILE: eligibility_match.dfy ===
/**
 * Best-match rule selection of the REST client (`ApiService.checkEligibility`):
 * every rule is tested against four hard thresholds, a qualifying rule earns
 * a base score plus three independent bonuses, and the first rule reaching
 * the highest score is the best match.
 */
module EligibilityMatch {
  import opened Wrappers
  import opened Records

  /** The borrower figures the selection reads. */
  datatype BorrowerData = BorrowerData(monthlyIncome: int, creditScore: int, age: int, loanAmount: int)

  /**
   * The four hard checks: income, credit score, age range and loan range; a
   * rule whose age or loan range is empty lets nobody through.
   */
  predicate Qualifies(b: BorrowerData, rule: EligibilityRule)
    ensures Qualifies(b, rule) ==> rule.minAge <= rule.maxAge && rule.minLoanAmount <= rule.maxLoanAmount
  {
    && b.monthlyIncome >= rule.minMonthlyIncome
    && b.creditScore >= rule.minCreditScore
    && rule.minAge <= b.age <= rule.maxAge
    && rule.minLoanAmount <= b.loanAmount <= rule.maxLoanAmount
  }

  /**
   * The score of a qualifying rule: base 20, +15 when the credit score beats
   * the minimum by 50, +15 when income is at least 1.5 times the minimum,
   * +10 when the loan is at most 0.8 times the maximum (both fractions are
   * compared by cross-multiplication).
   */
  function RuleScore(b: BorrowerData, rule: EligibilityRule): (score: int)
    ensures 20 <= score <= 60
  {
    20
    + (if b.creditScore >= rule.minCreditScore + 50 then 15 else 0)
    + (if 2 * b.monthlyIncome >= 3 * rule.minMonthlyIncome then 15 else 0)
    + (if 5 * b.loanAmount <= 4 * rule.maxLoanAmount then 10 else 0)
  }

  /**
   * A better borrower never scores lower on the same rule: more income, a
   * higher credit score and a smaller loan can only add bonuses.
   */
  lemma RuleScoreMonotone(b1: BorrowerData, b2: BorrowerData, rule: EligibilityRule)
    requires b1.monthlyIncome <= b2.monthlyIncome
    requires b1.creditScore <= b2.creditScore
    requires b2.loanAmount <= b1.loanAmount
    ensures RuleScore(b1, rule) <= RuleScore(b2, rule)
  {
  }

  /** A borrower clearing every bonus threshold of a rule gets the top score 60. */
  lemma RuleScoreTop(b: BorrowerData, rule: EligibilityRule)
    ensures RuleScore(b, rule) == 60 <==>
      && b.creditScore >= rule.minCreditScore + 50
      && 2 * b.monthlyIncome >= 3 * rule.minMonthlyIncome
      && 5 * b.loanAmount <= 4 * rule.maxLoanAmount
  {
  }

  /**
   * Scans the rules in order. A rule replaces the current best only with a
   * strictly higher score, so the first rule reaching the maximum wins.
   */
  method CheckEligibility(b: BorrowerData, rules: seq<EligibilityRule>)
    returns (isEligible: bool, bestMatch: Option<EligibilityRule>, score: int)
    ensures isEligible <==> exists i :: 0 <= i < |rules| && Qualifies(b, rules[i])
    ensures isEligible <==> bestMatch.Some?
    ensures !isEligible ==> score == 0
    ensures isEligible ==> 20 <= score <= 60
    ensures forall i :: 0 <= i < |rules| && Qualifies(b, rules[i]) ==> RuleScore(b, rules[i]) <= score
    ensures bestMatch.Some? ==>
      exists k :: 0 <= k < |rules| && rules[k] == bestMatch.value
        && Qualifies(b, rules[k]) && RuleScore(b, rules[k]) == score
        && forall j :: 0 <= j < k && Qualifies(b, rules[j]) ==> RuleScore(b, rules[j]) < score
  {
    bestMatch := None;
    score := 0;
    ghost var bestIndex := 0;
    for i := 0 to |rules|
      invariant bestMatch.None? <==> forall j :: 0 <= j < i ==> !Qualifies(b, rules[j])
      invariant bestMatch.None? ==> score == 0
      invariant bestMatch.Some? ==>
        && 0 <= bestIndex < i && rules[bestIndex] == bestMatch.value
        && Qualifies(b, rules[bestIndex]) && RuleScore(b, rules[bestIndex]) == score
        && forall j :: 0 <= j < bestIndex && Qualifies(b, rules[j]) ==> RuleScore(b, rules[j]) < score
      invariant forall j :: 0 <= j < i && Qualifies(b, rules[j]) ==> RuleScore(b, rules[j]) <= score
    {
      var rule := rules[i];
      var eligible := true;
      if b.monthlyIncome < rule.minMonthlyIncome {
        eligible := false;
      }
      if b.creditScore < rule.minCreditScore {
        eligible := false;
      }
      if b.age < rule.minAge || b.age > rule.maxAge {
        eligible := false;
      }
      if b.loanAmount < rule.minLoanAmount || b.loanAmount > rule.maxLoanAmount {
        eligible := false;
      }
      if eligible {
        var s := 20;
        if b.creditScore >= rule.minCreditScore + 50 {
          s := s + 15;
        }
        if 2 * b.monthlyIncome >= 3 * rule.minMonthlyIncome {
          s := s + 15;
        }
        if 5 * b.loanAmount <= 4 * rule.maxLoanAmount {
          s := s + 10;
        }
        assert s == RuleScore(b, rule);
        if s > score {
          score := s;
          bestMatch := Some(rule);
          bestIndex := i;
        }
      }
    }
    isEligible := bestMatch.Some?;
  }
}

=== FILE: js.dfy ===
/**
 * The few JavaScript number rules the application relies on: `x || fallback`
 * treats both `undefined` and `0` as missing, and `Math.round` rounds halves up.
 */
module Js {
  import opened Wrappers

  /** `x || fallback` for an optional number. */
  function OrElse(x: Option<int>, fallback: int): int {
    if x.Some? && x.value != 0 then x.value else fallback
  }

  /** `x || 0` for an optional number. */
  function OrZero(x: Option<int>): int {
    OrElse(x, 0)
  }

  /** A string is truthy exactly when it is present and not empty. */
  predicate Truthy(s: Option<string>) {
    s.Some? && s.value != ""
  }

  function Min(a: int, b: int): int {
    if a <= b then a else b
  }

  function Max(a: int, b: int): int {
    if a >= b then a else b
  }

  /**
   * `Math.round(num / den)`: the integer nearest to num/den, halves rounded up.
   */
  function RoundDiv(num: int, den: int): (r: int)
    requires den > 0
    ensures 2 * den * r <= 2 * num + den < 2 * den * (r + 1)
  {
    (2 * num + den) / (2 * den)
  }

  /** Multiplying by a natural number keeps the order. */
  lemma {:induction false} MulMono(t: nat, x: int, y: int)
    requires x <= y
    ensures t * x <= t * y
  {
    if t > 0 {
      MulMono(t - 1, x, y);
      assert t * x == (t - 1) * x + x && t * y == (t - 1) * y + y;
    }
  }

  /** A rounded quotient of a number between den * lo and den * hi lies between lo and hi. */
  lemma RoundDivBetween(num: int, den: int, lo: int, hi: int)
    requires den > 0 && den * lo <= num <= den * hi
    ensures lo <= RoundDiv(num, den) <= hi
  {
    var r := RoundDiv(num, den);
    assert 2 * den * (hi + 1) == 2 * (den * hi) + 2 * den;
    assert 2 * den * lo == 2 * (den * lo);
    MulOrder(2 * den, hi + 1, r);
    MulOrder(2 * den, r + 1, lo);
  }

  /** Multiplying both sides by a natural number keeps their order, whichever it is. */
  lemma MulOrder(t: nat, x: int, y: int)
    ensures x <= y ==> t * x <= t * y
    ensures y <= x ==> t * y <= t * x
  {
    if x <= y {
      MulMono(t, x, y);
    }
    if y <= x {
      MulMono(t, y, x);
    }
  }

  /** A rounded percentage of a count out of a positive total lies in [0, 100]. */
  lemma RoundedPercentBounds(count: int, total: int)
    requires 0 <= count <= total && total > 0
    ensures 0 <= RoundDiv(100 * count, total) <= 100
  {
    RoundDivBetween(100 * count, total, 0, 100);
  }

  /** The same share in hundredths of a percent lies in [0, 10000]. */
  lemma RoundedHundredthsBounds(count: int, total: int)
    requires 0 <= count <= total && total > 0
    ensures 0 <= RoundDiv(10000 * count, total) <= 10000
  {
    RoundDivBetween(10000 * count, total, 0, 10000);
  }

  /** `count / total * 100` as an exact real; it lies in [0, 100] when the count is part of the total. */
  function Percent(count: nat, total: nat): (rate: real)
    requires count <= total && total > 0
    ensures 0.0 <= rate <= 100.0
    ensures rate * (total as real) == 100.0 * (count as real)
  {
    var q := (count as real) / (total as real);
    assert q * (total as real) == count as real;
    assert q <= 1.0 by {
      if q > 1.0 {
        assert q * (total as real) > 1.0 * (total as real);
      }
    }
    q * 100.0
  }

  /** The mean of `count` numbers adding up to `total`, and 0 for none (where JavaScript's division gives NaN). */
  function Average(total: int, count: nat): (avg: real)
    ensures count == 0 ==> avg == 0.0
    ensures count > 0 ==> avg * (count as real) == total as real
  {
    if count == 0 then 0.0 else (total as real) / (count as real)
  }

  /** Items that each lie in `lo..hi` have a mean in `lo..hi`. */
  lemma AverageBetween(total: int, count: nat, lo: int, hi: int)
    requires count > 0 && lo * count <= total <= hi * count
    ensures lo as real <= Average(total, count) <= hi as real
  {
    var c := count as real;
    assert hi as real == ((hi * count) as real) / c;
    assert lo as real == ((lo * count) as real) / c;
    assert (total as real) / c <= ((hi * count) as real) / c;
    assert ((lo * count) as real) / c <= (total as real) / c;
  }
}

=== FILE: lender_analytics.dfy ===
/**
 * The lender's analytics page (`LenderAnalyticsComponent.calculateAnalytics`):
 * headline figures computed from the lender's applications and stored in the
 * component's fields. Amount averages and rates are exact reals here, where
 * the original uses floating point.
 */
module LenderAnalytics {
  import opened Wrappers
  import opened Records
  import Js

  class LenderAnalyticsComponent {
    var loanApplications: seq<LoanApplication>
    var totalApplications: nat
    var pendingApplications: nat
    var approvedApplications: nat
    var rejectedApplications: nat
    var totalLoanAmount: int
    var averageLoanAmount: real
    var approvalRate: real
    var isLoading: bool

    /** The figures agree with the applications they were computed from. */
    ghost predicate Consistent()
      reads this
    {
      && totalApplications == |loanApplications|
      && pendingApplications == CountStatus(loanApplications, PENDING)
      && approvedApplications == CountStatus(loanApplications, APPROVED)
      && rejectedApplications == CountStatus(loanApplications, REJECTED)
      && totalLoanAmount == SumAmountOrRequested(loanApplications)
    }

    constructor()
      ensures loanApplications == [] && !isLoading
      ensures totalApplications == 0 && approvalRate == 0.0 && averageLoanAmount == 0.0
    {
      loanApplications := [];
      isLoading := false;
      totalApplications := 0;
      pendingApplications := 0;
      approvedApplications := 0;
      rejectedApplications := 0;
      totalLoanAmount := 0;
      averageLoanAmount := 0.0;
      approvalRate := 0.0;
    }

    /**
     * Recomputes the figures: the three status counts never exceed the total,
     * the total amount uses `loanAmount || requestedAmount || 0`, and the
     * average and the approval rate are 0 for an empty list.
     */
    method CalculateAnalytics()
      modifies this
      ensures loanApplications == old(loanApplications)
      ensures Consistent()
      ensures pendingApplications + approvedApplications + rejectedApplications <= totalApplications
      ensures averageLoanAmount == Js.Average(totalLoanAmount, totalApplications)
      ensures totalApplications == 0 ==> approvalRate == 0.0 && averageLoanAmount == 0.0
      ensures totalApplications > 0 ==>
        && approvalRate == Js.Percent(approvedApplications, totalApplications)
        && 0.0 <= approvalRate <= 100.0
    {
      totalApplications := |loanApplications|;
      pendingApplications := CountStatus(loanApplications, PENDING);
      approvedApplications := CountStatus(loanApplications, APPROVED);
      rejectedApplications := CountStatus(loanApplications, REJECTED);
      ThreeStatusCountsBounded(loanApplications, PENDING, APPROVED, REJECTED);
      totalLoanAmount := SumAmountOrRequested(loanApplications);
      averageLoanAmount := Js.Average(totalLoanAmount, totalApplications);
      approvalRate := if totalApplications > 0 then Js.Percent(approvedApplications, totalApplications) else 0.0;
    }

    /**
     * `loadAnalyticsData` once the lender's applications arrive: on success
     * they replace the list and the figures are recomputed; on failure
     * everything stays as it was. Loading ends either way.
     */
    method LoadAnalyticsData(response: Result<seq<LoanApplication>>)
      modifies this
      ensures !isLoading
      ensures response.Success? ==>
        && loanApplications == response.value
        && Consistent()
        && averageLoanAmount == Js.Average(totalLoanAmount, totalApplications)
        && approvalRate == (if totalApplications > 0 then Js.Percent(approvedApplications, totalApplications) else 0.0)
      ensures response.Failure? ==>
        && loanApplications == old(loanApplications)
        && totalApplications == old(totalApplications) && pendingApplications == old(pendingApplications)
        && approvedApplications == old(approvedApplications) && rejectedApplications == old(rejectedApplications)
        && totalLoanAmount == old(totalLoanAmount) && averageLoanAmount == old(averageLoanAmount)
        && approvalRate == old(approvalRate)
    {
      isLoading := true;
      if response.Success? {
        loanApplications := response.value;
        CalculateAnalytics();
      }
      isLoading := false;
    }
  }
}

=== FILE: lender_dashboard.dfy ===
/**
 * The lender's dashboard (`LenderDashboardComponent`): risk assessment and
 * recommendation of an application, three point scores, the bulk
 * approve/reject rule, the notification list, customer segments, the risk
 * distribution of approved loans, counts and sums, and the class tiers the
 * template uses.
 */
module LenderDashboard {
  import opened Wrappers
  import opened Records
  import Js
  import Strings
  import MockApi

  datatype Risk = Low | Medium | High

  /** Lower is safer. */
  function RiskRank(r: Risk): nat {
    match r
      case Low => 0
      case Medium => 1
      case High => 2
  }

  // ---- assessRisk -------------------------------------------------------

  /** 20 for a credit score of 750 or more, 40 from 650, 60 from 550, else 80. */
  function CreditRiskPoints(creditScore: int): (p: int)
    ensures p in {20, 40, 60, 80}
  {
    if creditScore >= 750 then 20
    else if creditScore >= 650 then 40
    else if creditScore >= 550 then 60
    else 80
  }

  /**
   * The loan-to-monthly-income ratio, compared by cross-multiplication: 20
   * up to 3 months of income, 40 up to 5, 60 up to 7, else 80. Without a
   * positive income the ratio counts as 0.
   */
  function IncomeRatioRiskPoints(loanAmount: int, monthlyIncome: int): (p: int)
    ensures p in {20, 40, 60, 80}
  {
    if monthlyIncome <= 0 || loanAmount <= 3 * monthlyIncome then 20
    else if loanAmount <= 5 * monthlyIncome then 40
    else if loanAmount <= 7 * monthlyIncome then 60
    else 80
  }

  /** 'full-time' 20, 'part-time' 40, 'self-employed' 60, anything else 80. */
  function EmploymentRiskPoints(status: Option<string>): (p: int)
    ensures p in {20, 40, 60, 80}
  {
    if status == Some("full-time") then 20
    else if status == Some("part-time") then 40
    else if status == Some("self-employed") then 60
    else 80
  }

  /** Sum of the three risk points; missing numbers count as 0. */
  function RiskPoints(a: LoanApplication): (total: int)
    ensures 60 <= total <= 240
  {
    CreditRiskPoints(Js.OrZero(a.creditScore))
    + IncomeRatioRiskPoints(Js.OrZero(a.loanAmount), Js.OrZero(a.monthlyIncome))
    + EmploymentRiskPoints(a.employmentStatus)
  }

  /**
   * Low when the average of the three points is at most 33, medium when at
   * most 66, else high; the average is compared as `total <= 3 * 33`.
   */
  function AssessRisk(a: LoanApplication): (r: Risk)
    ensures r == Low <==> RiskPoints(a) <= 99
    ensures r == Medium <==> 99 < RiskPoints(a) <= 198
    ensures r == High <==> RiskPoints(a) > 198
  {
    var total := RiskPoints(a);
    if total <= 99 then Low else if total <= 198 then Medium else High
  }

  /** Low risk needs the best band in at least two of the three criteria. */
  lemma LowRiskNeedsTwoBestBands(a: LoanApplication)
    requires AssessRisk(a) == Low
    ensures var c, i, e := CreditRiskPoints(Js.OrZero(a.creditScore)),
                          IncomeRatioRiskPoints(Js.OrZero(a.loanAmount), Js.OrZero(a.monthlyIncome)),
                          EmploymentRiskPoints(a.employmentStatus);
      && ((c == 20 && i == 20) || (c == 20 && e == 20) || (i == 20 && e == 20))
      && c <= 40 && i <= 40 && e <= 40
  {
  }

  /** A higher credit score never makes the assessed risk worse. */
  lemma AssessRiskMonotoneInCredit(a: LoanApplication, better: int)
    requires better >= Js.OrZero(a.creditScore)
    ensures RiskRank(AssessRisk(a.(creditScore := Some(better)))) <= RiskRank(AssessRisk(a))
  {
    var b := a.(creditScore := Some(better));
    assert Js.OrZero(b.creditScore) >= Js.OrZero(a.creditScore);
    assert CreditRiskPoints(Js.OrZero(b.creditScore)) <= CreditRiskPoints(Js.OrZero(a.creditScore));
  }

  const StrongCandidate := "Strong candidate - Recommend approval with standard terms"
  const ModerateRisk := "Moderate risk - Consider approval with adjusted terms or additional documentation"
  const HighRisk := "High risk - Require additional documentation or consider rejection"
  const VeryHighRisk := "Very high risk - Recommend rejection or require significant collateral"

  /** The recommendation text for a risk level and credit score. */
  function GetRecommendation(a: LoanApplication): (text: string)
    ensures text in {StrongCandidate, ModerateRisk, HighRisk, VeryHighRisk}
    ensures text == StrongCandidate <==> AssessRisk(a) == Low && Js.OrZero(a.creditScore) >= 700
    ensures text == ModerateRisk <==> AssessRisk(a) == Medium && Js.OrZero(a.creditScore) >= 650
    ensures text == HighRisk <==> AssessRisk(a) == High && Js.OrZero(a.creditScore) >= 600
  {
    var risk := AssessRisk(a);
    var credit := Js.OrZero(a.creditScore);
    if risk == Low && credit >= 700 then StrongCandidate
    else if risk == Medium && credit >= 650 then ModerateRisk
    else if risk == High && credit >= 600 then HighRisk
    else VeryHighRisk
  }

  /** A credit score below 600 is always advised against, whatever the risk. */
  lemma PoorCreditIsVeryHighRisk(a: LoanApplication)
    requires Js.OrZero(a.creditScore) < 600
    ensures GetRecommendation(a) == VeryHighRisk
  {
  }

  // ---- calculateRiskScore / calculateConfidenceScore / scenario risk -----

  /** Credit 0-40, income ratio 0-30 and employment 0-30 points. */
  function RiskScore(a: LoanApplication): (score: int)
    ensures 0 <= score <= 100
  {
    var credit := Js.OrZero(a.creditScore);
    var income := Js.OrZero(a.monthlyIncome);
    var loan := Js.OrZero(a.loanAmount);
    (if credit >= 750 then 40 else if credit >= 700 then 30 else if credit >= 650 then 20 else if credit >= 600 then 10 else 0)
    + (if income <= 0 || loan <= 3 * income then 30 else if loan <= 5 * income then 20 else if loan <= 7 * income then 10 else 0)
    + (if a.employmentStatus == Some("full-time") then 30
       else if a.employmentStatus == Some("part-time") then 20
       else if a.employmentStatus == Some("self-employed") then 15
       else 0)
  }

  /** The point score and the risk level agree at the extremes: a full score is low risk. */
  lemma FullRiskScoreIsLowRisk(a: LoanApplication)
    requires RiskScore(a) == 100
    ensures AssessRisk(a) == Low
  {
  }

  /** Credit 20-40, income 10-30 and employment 10-30 points, capped at 100. */
  function ConfidenceScore(a: LoanApplication): (score: int)
    ensures 40 <= score <= 100
  {
    var credit := Js.OrZero(a.creditScore);
    var income := Js.OrZero(a.monthlyIncome);
    var score :=
      (if credit >= 750 then 40 else if credit >= 700 then 35 else if credit >= 650 then 30 else if credit >= 600 then 25 else 20)
      + (if income >= 50000 then 30 else if income >= 30000 then 25 else if income >= 20000 then 20 else if income >= 10000 then 15 else 10)
      + (if a.employmentStatus == Some("full-time") then 30
         else if a.employmentStatus == Some("part-time") then 20
         else if a.employmentStatus == Some("self-employed") then 15
         else 10);
    Js.Min(score, 100)
  }

  /** More income never lowers the confidence score. */
  lemma ConfidenceMonotoneInIncome(a: LoanApplication, more: int)
    requires more >= Js.OrZero(a.monthlyIncome)
    ensures ConfidenceScore(a) <= ConfidenceScore(a.(monthlyIncome := Some(more)))
  {
    assert Js.OrZero(Some(more)) >= Js.OrZero(a.monthlyIncome);
  }

  /**
   * Amount 10-30, term 10-30 and interest rate 10-40 points; the rate is in
   * basis points (8% = 800).
   */
  function ScenarioRiskScore(amount: int, term: int, rateBp: int): (score: int)
    ensures 30 <= score <= 100
  {
    (if amount <= 10000 then 10 else if amount <= 25000 then 20 else if amount <= 50000 then 25 else 30)
    + (if term <= 12 then 10 else if term <= 24 then 20 else if term <= 36 then 25 else 30)
    + (if rateBp <= 800 then 10 else if rateBp <= 1200 then 20 else if rateBp <= 1600 then 30 else 40)
  }

  /** A larger amount, a longer term or a higher rate never lowers the scenario risk. */
  lemma ScenarioRiskMonotone(amount1: int, term1: int, rate1: int, amount2: int, term2: int, rate2: int)
    requires amount1 <= amount2 && term1 <= term2 && rate1 <= rate2
    ensures ScenarioRiskScore(amount1, term1, rate1) <= ScenarioRiskScore(amount2, term2, rate2)
  {
  }

  // ---- class tiers -------------------------------------------------------

  /** A missing or zero score is 'score-low'; then 80 and 60 cut-offs. */
  function ScoreClass(score: Option<int>): (c: string)
    ensures c == "score-high" <==> Js.OrZero(score) != 0 && score.value >= 80
    ensures c == "score-medium" <==> Js.OrZero(score) != 0 && 60 <= score.value < 80
    ensures c == "score-low" <==> Js.OrZero(score) == 0 || score.value < 60
  {
    if Js.OrZero(score) == 0 then "score-low"
    else if score.value >= 80 then "score-high"
    else if score.value >= 60 then "score-medium"
    else "score-low"
  }

  /** `getStatusClass`: one class per decided or pending status, `status-default` for anything else. */
  function StatusClass(status: string): (c: string)
    ensures c == "status-approved" <==> status == APPROVED
    ensures c == "status-rejected" <==> status == REJECTED
    ensures c == "status-pending" <==> status == PENDING
    ensures c == "status-default" <==> status !in {APPROVED, REJECTED, PENDING}
  {
    if status == APPROVED then "status-approved"
    else if status == REJECTED then "status-rejected"
    else if status == PENDING then "status-pending"
    else "status-default"
  }

  /** `getStatusIcon`: check mark, cross, hourglass, or a question mark for anything else. */
  function StatusIcon(status: string): (icon: string)
    ensures icon == "\U{2705}" <==> status == APPROVED
    ensures icon == "\U{274C}" <==> status == REJECTED
    ensures icon == "\U{23F3}" <==> status == PENDING
    ensures icon == "\U{2753}" <==> status !in {APPROVED, REJECTED, PENDING}
  {
    if status == APPROVED then "\U{2705}"
    else if status == REJECTED then "\U{274C}"
    else if status == PENDING then "\U{23F3}"
    else "\U{2753}"
  }

  /** The status class and the status icon single out the same statuses. */
  lemma StatusClassAndIconAgree(status: string)
    ensures StatusClass(status) == "status-approved" <==> StatusIcon(status) == "\U{2705}"
    ensures StatusClass(status) == "status-rejected" <==> StatusIcon(status) == "\U{274C}"
    ensures StatusClass(status) == "status-pending" <==> StatusIcon(status) == "\U{23F3}"
    ensures StatusClass(status) == "status-default" <==> StatusIcon(status) == "\U{2753}"
  {
  }

  /** 'excellent' from 80, 'good' from 60, 'fair' from 40, else 'poor'. */
  function AffordabilityClass(score: int): (c: string)
    ensures c == "excellent" <==> score >= 80
    ensures c == "good" <==> 60 <= score < 80
    ensures c == "fair" <==> 40 <= score < 60
    ensures c == "poor" <==> score < 40
  {
    if score >= 80 then "excellent" else if score >= 60 then "good" else if score >= 40 then "fair" else "poor"
  }

  /** 'low' up to 30, 'medium' up to 60, else 'high'. */
  function RiskClass(score: int): (c: string)
    ensures c == "low" <==> score <= 30
    ensures c == "medium" <==> 30 < score <= 60
    ensures c == "high" <==> score > 60
  {
    if score <= 30 then "low" else if score <= 60 then "medium" else "high"
  }

  /** A scenario reads 'low' only at the floor of the scale: the lowest band of amount, term and rate. */
  lemma ScenarioRiskClassAtFloor(amount: int, term: int, rateBp: int)
    ensures RiskClass(ScenarioRiskScore(amount, term, rateBp)) == "low"
      <==> amount <= 10000 && term <= 12 && rateBp <= 800
  {
  }

  // ---- bulk decision -----------------------------------------------------

  datatype BulkSettings = BulkSettings(autoApprove: bool, minCreditScore: int, maxLoanAmount: int, batchSize: int)

  const DefaultBulkSettings := BulkSettings(false, 650, 50000, 10)

  /**
   * The status bulk processing gives a PENDING application: APPROVED when
   * auto-approval is on and the score reaches the minimum, else REJECTED
   * when the score is not positive (a missing score counts as 0), else it
   * stays PENDING.
   */
  function BulkDecision(a: LoanApplication, settings: BulkSettings): (status: string)
    ensures status in {APPROVED, REJECTED, PENDING}
    ensures status == APPROVED <==> settings.autoApprove && Js.OrZero(a.eligibilityScore) >= settings.minCreditScore
    ensures status == REJECTED <==>
      !(settings.autoApprove && Js.OrZero(a.eligibilityScore) >= settings.minCreditScore) && Js.OrZero(a.eligibilityScore) <= 0
  {
    var score := Js.OrZero(a.eligibilityScore);
    if settings.autoApprove && score >= settings.minCreditScore then APPROVED
    else if score <= 0 then REJECTED
    else PENDING
  }

  /** With the default settings (auto-approval off) bulk processing never approves. */
  lemma DefaultSettingsNeverApprove(a: LoanApplication)
    ensures BulkDecision(a, DefaultBulkSettings) != APPROVED
  {
  }

  /** `(firstName || 'Lender') + ' ' + (lastName || 'Manager')`. */
  function DeciderName(user: Option<User>): string {
    var first := if user.Some? && Js.Truthy(user.value.firstName) then user.value.firstName.value else "Lender";
    var last := if user.Some? && Js.Truthy(user.value.lastName) then user.value.lastName.value else "Manager";
    first + " " + last
  }

  /** The update bulk processing sends for an application it decides. */
  function BulkPatch(status: string, score: int, decider: string, nowIso: string): MockApi.ApplicationPatch {
    MockApi.ApplicationPatch(Some(status), None, None,
      Some("Bulk processed - Auto " + Strings.ToLower(status) + " based on score " + Strings.IntToString(score)),
      Some(nowIso), Some(decider))
  }

  /** What one application looks like after bulk processing. */
  function BulkOutcome(a: LoanApplication, settings: BulkSettings, decider: string, nowIso: string): (b: LoanApplication)
    ensures b.id == a.id
    ensures a.status != PENDING ==> b == a
    ensures a.status == PENDING ==> b.status == BulkDecision(a, settings)
    ensures a.status == PENDING && BulkDecision(a, settings) == PENDING ==> b == a
  {
    if a.status != PENDING then a
    else
      var decision := BulkDecision(a, settings);
      if decision == PENDING then a
      else MockApi.Overlay(a, BulkPatch(decision, Js.OrZero(a.eligibilityScore), decider, nowIso), nowIso)
  }

  /** Bulk processing only ever moves PENDING applications, and only to APPROVED or REJECTED. */
  lemma BulkOnlyDecidesPending(a: LoanApplication, settings: BulkSettings, decider: string, nowIso: string)
    ensures var b := BulkOutcome(a, settings, decider, nowIso);
      b.status != a.status ==> a.status == PENDING && b.status in {APPROVED, REJECTED}
  {
  }

  // ---- notifications -----------------------------------------------------

  datatype NotificationType = InfoNote | SuccessNote | WarningNote | ErrorNote

  datatype Notification = Notification(id: string, kind: NotificationType, message: string, timestamp: int, read: bool)

  /** Where `splice(index, 1)` starts for a list of length `len`. */
  function SpliceStart(len: nat, index: int): (k: nat)
    ensures k <= len
    ensures 0 <= index <= len ==> k == index
    ensures index > len ==> k == len
    ensures -(len as int) <= index < 0 ==> k == len + index
    ensures index < -(len as int) ==> k == 0
  {
    if index < 0 then (if len + index < 0 then 0 else len + index)
    else if index > len then len
    else index
  }

  /** The list after `splice(index, 1)`. */
  function SpliceOne<T>(s: seq<T>, index: int): (r: seq<T>)
    ensures 0 <= index < |s| ==> r == s[..index] + s[index + 1..]
    ensures index >= |s| ==> r == s
    ensures |s| > 0 ==> |r| == |s| - 1 || index >= |s|
  {
    var k := SpliceStart(|s|, index);
    if k < |s| then s[..k] + s[k + 1..] else s
  }

  /** Position of the first notification with the given id. */
  function NotificationIndex(s: seq<Notification>, id: string): (r: Option<nat>)
    ensures r.None? <==> forall i :: 0 <= i < |s| ==> s[i].id != id
    ensures r.Some? ==>
      && r.value < |s| && s[r.value].id == id
      && forall i :: 0 <= i < r.value ==> s[i].id != id
  {
    if s == [] then None
    else if s[0].id == id then Some(0)
    else match NotificationIndex(s[1..], id)
      case None => None
      case Some(k) => Some(k + 1)
  }

  // ---- customer segments ------------------------------------------------

  /**
   * A customer segment with its derived figures: the mean amount (0 for an
   * empty segment) and the share of all applications in percent, which is
   * NaN (None) when there are no applications at all.
   */
  datatype Segment = Segment(name: string, minAmount: int, count: nat, totalAmount: int,
                             averageAmount: real, percentage: Option<real>)

  /**
   * The derived figures of a segment of `n` applications are right: the mean
   * of its total over its count (0 when empty), and its share in percent of
   * the `n` applications, NaN exactly when there are none.
   */
  predicate SharesRight(g: Segment, n: nat) {
    && (g.count == 0 ==> g.averageAmount == 0.0)
    && (g.count > 0 ==> g.averageAmount * (g.count as real) == g.totalAmount as real)
    && (g.percentage.None? <==> n == 0)
    && (g.percentage.Some? ==> g.percentage.value * (n as real) == 100.0 * (g.count as real))
  }

  /** `{ ...segment, averageAmount, percentage }` for a segment of `count` of `n` applications. */
  function WithShares(name: string, minAmount: int, count: nat, totalAmount: int, n: nat): (g: Segment)
    requires count <= n
    ensures g.name == name && g.minAmount == minAmount && g.count == count && g.totalAmount == totalAmount
    ensures SharesRight(g, n)
    ensures g.percentage.Some? ==> 0.0 <= g.percentage.value <= 100.0
  {
    Segment(name, minAmount, count, totalAmount, Js.Average(totalAmount, count),
            if n == 0 then None else Some(Js.Percent(count, n)))
  }

  /** Three segments whose counts make up all `n` applications have shares summing to 100 percent. */
  lemma SharesSumToHundred(a: Segment, b: Segment, c: Segment, n: nat)
    requires n > 0 && a.count + b.count + c.count == n
    requires SharesRight(a, n) && SharesRight(b, n) && SharesRight(c, n)
    ensures a.percentage.Some? && b.percentage.Some? && c.percentage.Some?
    ensures a.percentage.value + b.percentage.value + c.percentage.value == 100.0
  {
    var p0, p1, p2 := a.percentage.value, b.percentage.value, c.percentage.value;
    var m := n as real;
    var ca, cb, cc := a.count as real, b.count as real, c.count as real;
    assert ca + cb + cc == m;
    calc {
      (p0 + p1 + p2) * m;
      p0 * m + p1 * m + p2 * m;
      100.0 * ca + 100.0 * cb + 100.0 * cc;
      100.0 * (ca + cb + cc);
      100.0 * m;
    }
    assert (p0 + p1 + p2 - 100.0) * m == 0.0;
  }

  /** The segment an amount falls into: 0 High-Value, 1 Medium-Value, 2 Low-Value. */
  function SegmentOf(amount: int): (k: nat)
    ensures k < 3
    ensures k == 0 <==> amount >= 50000
    ensures k == 1 <==> 20000 <= amount < 50000
    ensures k == 2 <==> amount < 20000
  {
    if amount >= 50000 then 0 else if amount >= 20000 then 1 else 2
  }

  function CountInSegment(apps: seq<LoanApplication>, k: nat): (n: nat)
    ensures n <= |apps|
  {
    if apps == [] then 0
    else (if SegmentOf(Js.OrZero(apps[0].loanAmount)) == k then 1 else 0) + CountInSegment(apps[1..], k)
  }

  function AmountInSegment(apps: seq<LoanApplication>, k: nat): int {
    if apps == [] then 0
    else (if SegmentOf(Js.OrZero(apps[0].loanAmount)) == k then LoanAmount(apps[0]) else 0) + AmountInSegment(apps[1..], k)
  }

  lemma {:induction false} SegmentAppend(a: seq<LoanApplication>, b: seq<LoanApplication>, k: nat)
    ensures CountInSegment(a + b, k) == CountInSegment(a, k) + CountInSegment(b, k)
    ensures AmountInSegment(a + b, k) == AmountInSegment(a, k) + AmountInSegment(b, k)
  {
    if a == [] {
      assert a + b == b;
    } else {
      assert (a + b)[1..] == a[1..] + b;
      SegmentAppend(a[1..], b, k);
    }
  }

  /** Appending one application adds it to its own segment only. */
  lemma SegmentSnoc(a: seq<LoanApplication>, app: LoanApplication, k: nat)
    ensures CountInSegment(a + [app], k) == CountInSegment(a, k) + (if SegmentOf(Js.OrZero(app.loanAmount)) == k then 1 else 0)
    ensures AmountInSegment(a + [app], k) == AmountInSegment(a, k) + (if SegmentOf(Js.OrZero(app.loanAmount)) == k then LoanAmount(app) else 0)
  {
    SegmentAppend(a, [app], k);
    assert [app][1..] == [];
  }

  /** Every application lies in exactly one segment: the counts and totals add up. */
  lemma {:induction false} SegmentsPartition(apps: seq<LoanApplication>)
    ensures CountInSegment(apps, 0) + CountInSegment(apps, 1) + CountInSegment(apps, 2) == |apps|
    ensures AmountInSegment(apps, 0) + AmountInSegment(apps, 1) + AmountInSegment(apps, 2) == SumLoanAmount(apps)
  {
    if apps != [] {
      SegmentsPartition(apps[1..]);
    }
  }

  // ---- risk distribution ------------------------------------------------

  function CountRisk(apps: seq<LoanApplication>, r: Risk): (n: nat)
    ensures n <= |apps|
  {
    if apps == [] then 0
    else (if AssessRisk(apps[0]) == r then 1 else 0) + CountRisk(apps[1..], r)
  }

  /** Each application has exactly one risk level. */
  lemma {:induction false} RiskLevelsPartition(apps: seq<LoanApplication>)
    ensures CountRisk(apps, Low) + CountRisk(apps, Medium) + CountRisk(apps, High) == |apps|
  {
    if apps != [] {
      RiskLevelsPartition(apps[1..]);
    }
  }

  datatype RiskDistribution = RiskDistribution(lowRisk: nat, mediumRisk: nat, highRisk: nat, total: nat)

  /** `BulkOutcome` on every element. */
  ghost function BulkAll(s: seq<LoanApplication>, settings: BulkSettings, decider: string, nowIso: string): (r: seq<LoanApplication>)
    ensures |r| == |s|
    ensures forall i :: 0 <= i < |s| ==> r[i] == BulkOutcome(s[i], settings, decider, nowIso)
  {
    if s == [] then [] else [BulkOutcome(s[0], settings, decider, nowIso)] + BulkAll(s[1..], settings, decider, nowIso)
  }

  /** With unique ids and ids kept in place, the id of position i is found at i. */
  lemma IndexIsPosition(l: seq<LoanApplication>, snapshot: seq<LoanApplication>, i: nat)
    requires |l| == |snapshot| && i < |snapshot| && UniqueIds(snapshot)
    requires forall p :: 0 <= p < |snapshot| ==> l[p].id == snapshot[p].id
    ensures IndexOfId(l, snapshot[i].id) == Some(i)
  {
    assert l[i].id == snapshot[i].id;
  }

  /** One step of the bulk loop, in terms of whole lists. */
  lemma BulkStep(before: seq<LoanApplication>, after: seq<LoanApplication>, snapshot: seq<LoanApplication>, i: nat,
                 settings: BulkSettings, decider: string, nowIso: string)
    requires i < |snapshot|
    requires before == BulkAll(snapshot[..i], settings, decider, nowIso) + snapshot[i..]
    requires |after| == |before|
    requires after[i] == BulkOutcome(snapshot[i], settings, decider, nowIso)
    requires forall p :: 0 <= p < |before| && p != i ==> after[p] == before[p]
    ensures after == BulkAll(snapshot[..i + 1], settings, decider, nowIso) + snapshot[i + 1..]
  {
    var expected := BulkAll(snapshot[..i + 1], settings, decider, nowIso) + snapshot[i + 1..];
    assert |after| == |expected|;
    forall p | 0 <= p < |after|
      ensures after[p] == expected[p]
    {
      if p < i {
        assert after[p] == before[p] == BulkOutcome(snapshot[p], settings, decider, nowIso);
      } else if p > i {
        assert after[p] == before[p] == snapshot[p];
      }
    }
  }

  /**
   * The list after the loop body has handled `app`: a PENDING application
   * that the rule decides is overlaid with the decision and written back at
   * the position of its id, when the list holds that id.
   */
  function ProcessAt(apps: seq<LoanApplication>, app: LoanApplication,
                     settings: BulkSettings, decider: string, nowIso: string): (r: seq<LoanApplication>)
    ensures |r| == |apps|
    ensures forall p :: 0 <= p < |apps| ==> r[p].id == apps[p].id
  {
    if app.status == PENDING && BulkDecision(app, settings) != PENDING then
      match IndexOfId(apps, app.id)
      case Some(k) => apps[k := BulkOutcome(app, settings, decider, nowIso)]
      case None => apps
    else apps
  }

  /** With unique ids and the first i applications decided, handling the next one decides the first i+1. */
  lemma ProcessAtStep(apps: seq<LoanApplication>, snapshot: seq<LoanApplication>, i: nat,
                      settings: BulkSettings, decider: string, nowIso: string)
    requires i < |snapshot| && UniqueIds(snapshot)
    requires apps == BulkAll(snapshot[..i], settings, decider, nowIso) + snapshot[i..]
    ensures ProcessAt(apps, snapshot[i], settings, decider, nowIso)
            == BulkAll(snapshot[..i + 1], settings, decider, nowIso) + snapshot[i + 1..]
  {
    UnvisitedAt(apps, snapshot, i, settings, decider, nowIso);
    DecidedPrefixKeepsIds(apps, snapshot, i, settings, decider, nowIso);
    ProcessAtIsUpdate(apps, snapshot, i, settings, decider, nowIso);
    BulkStep(apps, apps[i := BulkOutcome(snapshot[i], settings, decider, nowIso)], snapshot, i, settings, decider, nowIso);
  }

  /** With unique ids in place, handling the unvisited application i replaces position i by its outcome. */
  lemma ProcessAtIsUpdate(apps: seq<LoanApplication>, snapshot: seq<LoanApplication>, i: nat,
                          settings: BulkSettings, decider: string, nowIso: string)
    requires i < |snapshot| == |apps| && UniqueIds(snapshot) && apps[i] == snapshot[i]
    requires forall p :: 0 <= p < |snapshot| ==> apps[p].id == snapshot[p].id
    ensures ProcessAt(apps, snapshot[i], settings, decider, nowIso)
            == apps[i := BulkOutcome(snapshot[i], settings, decider, nowIso)]
  {
    var a := snapshot[i];
    if a.status == PENDING && BulkDecision(a, settings) != PENDING {
      IndexIsPosition(apps, snapshot, i);
    } else {
      assert apps[i := BulkOutcome(a, settings, decider, nowIso)] == apps;
    }
  }

  /** Deciding applications keeps their ids, so a partly decided list has the snapshot's ids in place. */
  lemma DecidedPrefixKeepsIds(apps: seq<LoanApplication>, snapshot: seq<LoanApplication>, i: nat,
                              settings: BulkSettings, decider: string, nowIso: string)
    requires i <= |snapshot|
    requires apps == BulkAll(snapshot[..i], settings, decider, nowIso) + snapshot[i..]
    ensures |apps| == |snapshot|
    ensures forall p :: 0 <= p < |snapshot| ==> apps[p].id == snapshot[p].id
  {
    var done := BulkAll(snapshot[..i], settings, decider, nowIso);
    forall p | 0 <= p < |snapshot|
      ensures apps[p].id == snapshot[p].id
    {
      if p < i {
        assert apps[p] == done[p] == BulkOutcome(snapshot[p], settings, decider, nowIso);
      } else {
        assert apps[p] == snapshot[p];
      }
    }
  }

  /**
   * The loop body for the application at position i of the snapshot: a PENDING
   * application that the rule decides is overlaid with the decision and written
   * back at the position of its id in the current list.
   */
  method BulkProcessOne(apps: seq<LoanApplication>, snapshot: seq<LoanApplication>, i: nat,
                        settings: BulkSettings, decider: string, nowIso: string)
    returns (apps': seq<LoanApplication>)
    requires i < |snapshot| == |apps|
    requires forall p :: 0 <= p < |snapshot| ==> apps[p].id == snapshot[p].id
    ensures apps' == ProcessAt(apps, snapshot[i], settings, decider, nowIso)
    ensures |apps'| == |apps|
    ensures forall p :: 0 <= p < |snapshot| ==> apps'[p].id == snapshot[p].id
    ensures UniqueIds(snapshot) && apps == BulkAll(snapshot[..i], settings, decider, nowIso) + snapshot[i..] ==>
      apps' == BulkAll(snapshot[..i + 1], settings, decider, nowIso) + snapshot[i + 1..]
  {
    apps' := apps;
    var app := snapshot[i];
    if app.status == PENDING {
      var newStatus, updated := DecideOne(app, settings, decider, nowIso);
      if newStatus != PENDING {
        var index := IndexOfId(apps, updated.id);
        if index.Some? {
          apps' := apps[index.value := updated];
        }
      }
    }
    if UniqueIds(snapshot) && apps == BulkAll(snapshot[..i], settings, decider, nowIso) + snapshot[i..] {
      ProcessAtStep(apps, snapshot, i, settings, decider, nowIso);
    }
  }

  /** Before step i the application at position i is still the snapshot's. */
  lemma UnvisitedAt(before: seq<LoanApplication>, snapshot: seq<LoanApplication>, i: nat,
                    settings: BulkSettings, decider: string, nowIso: string)
    requires i < |snapshot|
    requires before == BulkAll(snapshot[..i], settings, decider, nowIso) + snapshot[i..]
    ensures before[i] == snapshot[i]
  {
    assert |BulkAll(snapshot[..i], settings, decider, nowIso)| == i;
  }

  /** The decision for one PENDING application and the application as it would be updated. */
  method DecideOne(app: LoanApplication, settings: BulkSettings, decider: string, nowIso: string)
    returns (newStatus: string, updated: LoanApplication)
    requires app.status == PENDING
    ensures newStatus == BulkDecision(app, settings)
    ensures newStatus != PENDING ==> updated == BulkOutcome(app, settings, decider, nowIso)
    ensures updated.id == app.id
  {
    var score := Js.OrZero(app.eligibilityScore);
    newStatus := PENDING;
    if settings.autoApprove && score >= settings.minCreditScore {
      newStatus := APPROVED;
    } else if score <= 0 {
      newStatus := REJECTED;
    }
    assert newStatus == BulkDecision(app, settings);
    updated := MockApi.Overlay(app, BulkPatch(newStatus, score, decider, nowIso), nowIso);
  }

  /**
   * The bulk loop: visits every application of the snapshot in list order and
   * applies the rule to each PENDING one, writing it back at the position of its
   * id. With unique ids the result is `BulkOutcome` applied position by position.
   */
  method BulkDecideAll(snapshot: seq<LoanApplication>, settings: BulkSettings, decider: string, nowIso: string)
    returns (apps: seq<LoanApplication>, pendingCount: nat)
    ensures pendingCount == CountStatus(snapshot, PENDING)
    ensures |apps| == |snapshot|
    ensures forall p :: 0 <= p < |snapshot| ==> apps[p].id == snapshot[p].id
    ensures UniqueIds(snapshot) ==> apps == BulkAll(snapshot, settings, decider, nowIso)
  {
    apps := snapshot;
    pendingCount := 0;
    for i := 0 to |snapshot|
      invariant |apps| == |snapshot|
      invariant forall p :: 0 <= p < |snapshot| ==> apps[p].id == snapshot[p].id
      invariant pendingCount == CountStatus(snapshot[..i], PENDING)
      invariant UniqueIds(snapshot) ==> apps == BulkAll(snapshot[..i], settings, decider, nowIso) + snapshot[i..]
    {
      assert snapshot[..i + 1] == snapshot[..i] + [snapshot[i]];
      CountStatusAppend(snapshot[..i], [snapshot[i]], PENDING);
      if snapshot[i].status == PENDING {
        pendingCount := pendingCount + 1;
      }
      apps := BulkProcessOne(apps, snapshot, i, settings, decider, nowIso);
    }
    assert snapshot[..|snapshot|] == snapshot;
  }

  class LenderDashboardComponent {
    var currentUser: Option<User>
    var loanApplications: seq<LoanApplication>
    var notifications: seq<Notification>
    var bulkSettings: BulkSettings
    var isBulkProcessing: bool

    /**
     * The dashboard after `ngOnInit`: the lender's applications as the
     * service answered them, or none when the request failed (the error is
     * only logged).
     */
    constructor(user: Option<User>, fetched: Result<seq<LoanApplication>>, initialNotes: seq<Notification>)
      ensures currentUser == user && notifications == initialNotes
      ensures fetched.Success? ==> loanApplications == fetched.value
      ensures fetched.Failure? ==> loanApplications == []
      ensures bulkSettings == DefaultBulkSettings && !isBulkProcessing
    {
      currentUser := user;
      loanApplications := if fetched.Success? then fetched.value else [];
      notifications := initialNotes;
      bulkSettings := DefaultBulkSettings;
      isBulkProcessing := false;
    }

    function GetPendingCount(): (n: nat)
      reads this
      ensures n == CountStatus(loanApplications, PENDING)
    {
      |WithStatus(loanApplications, PENDING)|
    }

    function GetApprovedCount(): (n: nat)
      reads this
      ensures n == CountStatus(loanApplications, APPROVED)
    {
      |WithStatus(loanApplications, APPROVED)|
    }

    /**
     * Sum of `loanAmount || requestedAmount || 0` over the approved
     * applications: 0 when none is approved, never negative when no amount is.
     */
    function GetTotalApprovedAmount(): (v: int)
      reads this
      ensures CountStatus(loanApplications, APPROVED) == 0 ==> v == 0
      ensures (forall a :: a in loanApplications ==> AmountOrRequested(a) >= 0) ==> v >= 0
    {
      var approved := WithStatus(loanApplications, APPROVED);
      SumAmountOrRequestedNonNegative(approved);
      SumAmountOrRequested(approved)
    }

    /** The approved share in percent, 0 for an empty list. */
    function GetApprovalRate(): (rate: real)
      reads this
      ensures 0.0 <= rate <= 100.0
      ensures loanApplications == [] ==> rate == 0.0
      ensures loanApplications != [] ==> rate == Js.Percent(CountStatus(loanApplications, APPROVED), |loanApplications|)
    {
      if |loanApplications| == 0 then 0.0
      else Js.Percent(GetApprovedCount(), |loanApplications|)
    }

    /** Risk levels of the approved applications. */
    function GetRiskDistribution(): (d: RiskDistribution)
      reads this
      ensures d.lowRisk + d.mediumRisk + d.highRisk == d.total
      ensures d.total == CountStatus(loanApplications, APPROVED)
    {
      var approved := WithStatus(loanApplications, APPROVED);
      RiskLevelsPartition(approved);
      RiskDistribution(CountRisk(approved, Low), CountRisk(approved, Medium), CountRisk(approved, High), |approved|)
    }

    /**
     * The `forEach` over the applications: puts each one in one of the three
     * segments by `loanAmount || 0` and accumulates counts and totals.
     */
    method TallySegments(applications: seq<LoanApplication>) returns (counts: seq<nat>, totals: seq<int>)
      ensures |counts| == 3 && |totals| == 3
      ensures forall k :: 0 <= k < 3 ==> counts[k] == CountInSegment(applications, k)
      ensures forall k :: 0 <= k < 3 ==> totals[k] == AmountInSegment(applications, k)
    {
      counts := [0, 0, 0];
      totals := [0, 0, 0];
      for i := 0 to |applications|
        invariant |counts| == 3 && |totals| == 3
        invariant counts[0] == CountInSegment(applications[..i], 0) && totals[0] == AmountInSegment(applications[..i], 0)
        invariant counts[1] == CountInSegment(applications[..i], 1) && totals[1] == AmountInSegment(applications[..i], 1)
        invariant counts[2] == CountInSegment(applications[..i], 2) && totals[2] == AmountInSegment(applications[..i], 2)
      {
        var app := applications[i];
        var amount := Js.OrZero(app.loanAmount);
        var k := if amount >= 50000 then 0 else if amount >= 20000 then 1 else 2;
        counts := counts[k := counts[k] + 1];
        totals := totals[k := totals[k] + amount];
        assert applications[..i + 1] == applications[..i] + [app];
        SegmentSnoc(applications[..i], app, 0);
        SegmentSnoc(applications[..i], app, 1);
        SegmentSnoc(applications[..i], app, 2);
      }
      assert applications[..|applications|] == applications;
    }

    /**
     * The three segments with their counts and totals from `TallySegments`,
     * each with its mean amount and its share of all applications.
     */
    method GetCustomerSegments(applications: seq<LoanApplication>) returns (segments: seq<Segment>)
      ensures |segments| == 3
      ensures segments[0].name == "High-Value" && segments[1].name == "Medium-Value" && segments[2].name == "Low-Value"
      ensures forall k :: 0 <= k < 3 ==> segments[k].count == CountInSegment(applications, k)
      ensures forall k :: 0 <= k < 3 ==> segments[k].totalAmount == AmountInSegment(applications, k)
      ensures segments[0].count + segments[1].count + segments[2].count == |applications|
      ensures segments[0].totalAmount + segments[1].totalAmount + segments[2].totalAmount == SumLoanAmount(applications)
      ensures forall k :: 0 <= k < 3 ==> SharesRight(segments[k], |applications|)
      ensures applications != [] ==>
        && segments[0].percentage.Some? && segments[1].percentage.Some? && segments[2].percentage.Some?
        && segments[0].percentage.value + segments[1].percentage.value + segments[2].percentage.value == 100.0
    {
      var counts, totals := TallySegments(applications);
      SegmentsPartition(applications);
      var n := |applications|;
      var high := WithShares("High-Value", 50000, counts[0], totals[0], n);
      var medium := WithShares("Medium-Value", 20000, counts[1], totals[1], n);
      var low := WithShares("Low-Value", 0, counts[2], totals[2], n);
      if n > 0 {
        SharesSumToHundred(high, medium, low, n);
      }
      segments := [high, medium, low];
    }

    /** Prepends an unread notification whose id is the current time in text. */
    method AddNotification(kind: NotificationType, message: string, now: nat)
      modifies this
      ensures notifications == [Notification(Strings.NatToString(now), kind, message, now, false)] + old(notifications)
      ensures loanApplications == old(loanApplications)
      ensures bulkSettings == old(bulkSettings) && currentUser == old(currentUser) && isBulkProcessing == old(isBulkProcessing)
    {
      notifications := [Notification(Strings.NatToString(now), kind, message, now, false)] + notifications;
    }

    /** `notifications.splice(index, 1)`. */
    method DismissNotification(index: int)
      modifies this
      ensures notifications == SpliceOne(old(notifications), index)
      ensures loanApplications == old(loanApplications)
      ensures bulkSettings == old(bulkSettings) && currentUser == old(currentUser) && isBulkProcessing == old(isBulkProcessing)
    {
      notifications := SpliceOne(notifications, index);
    }

    /** The deferred auto-removal: drops the first notification with that id, if any. */
    method ExpireNotification(id: string)
      modifies this
      ensures NotificationIndex(old(notifications), id).None? ==> notifications == old(notifications)
      ensures NotificationIndex(old(notifications), id).Some? ==>
        var k := NotificationIndex(old(notifications), id).value;
        notifications == old(notifications)[..k] + old(notifications)[k + 1..]
      ensures loanApplications == old(loanApplications)
      ensures bulkSettings == old(bulkSettings) && currentUser == old(currentUser) && isBulkProcessing == old(isBulkProcessing)
    {
      var index := NotificationIndex(notifications, id);
      if index.Some? {
        notifications := SpliceOne(notifications, index.value);
      }
    }

    /** Runs the bulk rule over the dashboard's applications and stores the result. */
    method ApplyBulkDecisions(nowIso: string) returns (pendingCount: nat)
      modifies this
      ensures pendingCount == CountStatus(old(loanApplications), PENDING)
      ensures |loanApplications| == |old(loanApplications)|
      ensures UniqueIds(old(loanApplications)) ==>
        loanApplications == BulkAll(old(loanApplications), bulkSettings, DeciderName(currentUser), nowIso)
      ensures notifications == old(notifications) && bulkSettings == old(bulkSettings)
      ensures currentUser == old(currentUser) && isBulkProcessing == old(isBulkProcessing)
    {
      var apps;
      apps, pendingCount := BulkDecideAll(loanApplications, bulkSettings, DeciderName(currentUser), nowIso);
      loanApplications := apps;
    }

    /**
     * `processBulkApplications` as written: the busy flag is raised, and it
     * is lowered only by the completion of the last PENDING application, so
     * with no PENDING application it stays raised.
     */
    method ProcessBulkApplications(nowIso: string)
      modifies this
      ensures isBulkProcessing <==> CountStatus(old(loanApplications), PENDING) == 0
      ensures |loanApplications| == |old(loanApplications)|
      ensures UniqueIds(old(loanApplications)) ==>
        loanApplications == BulkAll(old(loanApplications), bulkSettings, DeciderName(currentUser), nowIso)
      ensures notifications == old(notifications) && bulkSettings == old(bulkSettings) && currentUser == old(currentUser)
    {
      isBulkProcessing := true;
      var processed := ApplyBulkDecisions(nowIso);
      if processed > 0 {
        isBulkProcessing := false;
      }
    }

    /** The same step with the busy flag always lowered once processing ends. */
    method ProcessBulkApplicationsCorrected(nowIso: string)
      modifies this
      ensures !isBulkProcessing
      ensures |loanApplications| == |old(loanApplications)|
      ensures UniqueIds(old(loanApplications)) ==>
        loanApplications == BulkAll(old(loanApplications), bulkSettings, DeciderName(currentUser), nowIso)
      ensures notifications == old(notifications) && bulkSettings == old(bulkSettings) && currentUser == old(currentUser)
    {
      isBulkProcessing := true;
      var _ := ApplyBulkDecisions(nowIso);
      isBulkProcessing := false;
    }
  }
}

=== FILE: lender_rules.dfy ===
/**
 * The lender's rule editor (`LenderRulesComponent`): a small add/edit state
 * machine over a form, validation on submit, and the list updates made when
 * the backend replies. Each backend call is split in two: the submitting
 * method returns the `Request` it would send, and an `On...` method applies
 * the reply. The timers that blank the messages after a few seconds are the
 * explicit steps `ClearSuccessMessage` and `ClearErrorMessage`.
 */
module LenderRules {
  import opened Wrappers
  import opened Records
  import Js
  import Lists

  const AgeOrderError := "Minimum age must be less than maximum age"
  const CreatedMessage := "Rule created successfully!"
  const UpdatedMessage := "Rule updated successfully!"
  const DeletedMessage := "Rule deleted successfully!"

  /** The reactive form: an absent value is an empty input. */
  datatype RuleForm = RuleForm(
    minSalary: Option<int>,
    maxLoanAmount: Option<int>,
    minCreditScore: Option<int>,
    minAge: Option<int>,
    maxAge: Option<int>,
    isActive: Option<bool>)

  /** `ruleForm.reset()`: every control empty. */
  const EmptyForm := RuleForm(None, None, None, None, None, None)

  /** `ruleForm.reset({ isActive: true })`, the form `addRule` opens. */
  const NewRuleForm := RuleForm(None, None, None, None, None, Some(true))

  /** The values `editRule` patches into the form. */
  function FormOf(rule: LenderRule): (f: RuleForm)
    ensures f.minAge == Some(rule.minAge) && f.maxAge == Some(rule.maxAge)
    ensures f.minSalary.Some? && f.maxLoanAmount.Some? && f.minCreditScore.Some? && f.isActive.Some?
  {
    RuleForm(Some(rule.minSalary), Some(rule.maxLoanAmount), Some(rule.minCreditScore),
             Some(rule.minAge), Some(rule.maxAge), Some(rule.isActive))
  }

  /**
   * The form validators: every numeric control is required, the salary is at
   * least 0, the loan cap at least 1000, the credit score in [300, 850] and
   * both ages in [18, 100]. `isActive` carries no validator, so neither an
   * emptied form nor the one `addRule` opens passes.
   */
  predicate FormValid(f: RuleForm)
    ensures FormValid(f) ==> f != EmptyForm && f != NewRuleForm
  {
    && f.minSalary.Some? && f.minSalary.value >= 0
    && f.maxLoanAmount.Some? && f.maxLoanAmount.value >= 1000
    && f.minCreditScore.Some? && 300 <= f.minCreditScore.value <= 850
    && f.minAge.Some? && 18 <= f.minAge.value <= 100
    && f.maxAge.Some? && 18 <= f.maxAge.value <= 100
  }

  /** The form `editRule` fills passes exactly when the rule's values are within the validators' bounds. */
  lemma FormOfValid(rule: LenderRule)
    ensures FormValid(FormOf(rule)) <==>
      && rule.minSalary >= 0 && rule.maxLoanAmount >= 1000
      && 300 <= rule.minCreditScore <= 850
      && 18 <= rule.minAge <= 100 && 18 <= rule.maxAge <= 100
  {
  }

  /** What a submission or a deletion sends to the backend. */
  datatype Request = NoRequest | Create(form: RuleForm) | Update(ruleId: int, form: RuleForm) | Delete(ruleId: int)

  /** `editingRuleId` used as a condition: `null` and `0` are both falsy. */
  predicate IdTruthy(id: Option<int>) {
    id.Some? && id.value != 0
  }

  function RuleId(r: LenderRule): int {
    r.id
  }

  /**
   * What a valid form submits: nothing when the ages are out of order, a
   * creation when adding, an update of the edited rule when editing with a
   * truthy id, and nothing otherwise.
   */
  function SubmitRequest(form: RuleForm, isAdding: bool, isEditing: bool, editingRuleId: Option<int>): (req: Request)
    requires FormValid(form)
    ensures req.Create? <==> form.minAge.value < form.maxAge.value && isAdding
    ensures req.Update? <==>
      form.minAge.value < form.maxAge.value && !isAdding && isEditing && IdTruthy(editingRuleId)
    ensures req.Create? ==> req.form == form
    ensures req.Update? ==> req.form == form && Some(req.ruleId) == editingRuleId
    ensures !req.Delete?
  {
    if form.minAge.value >= form.maxAge.value then NoRequest
    else if isAdding then Create(form)
    else if isEditing && IdTruthy(editingRuleId) then Update(editingRuleId.value, form)
    else NoRequest
  }

  /**
   * The rule list after an update reply: the first rule with that id is
   * replaced, every other position is kept, and an absent id changes nothing.
   */
  function ReplaceRule(rules: seq<LenderRule>, ruleId: int, updated: LenderRule): (r: seq<LenderRule>)
    ensures |r| == |rules|
    ensures Lists.FirstIndex(rules, RuleId, ruleId).None? ==> r == rules
    ensures Lists.FirstIndex(rules, RuleId, ruleId).Some? ==>
      var k := Lists.FirstIndex(rules, RuleId, ruleId).value;
      && r[k] == updated
      && (forall i :: 0 <= i < |rules| && i != k ==> r[i] == rules[i])
      && (forall i :: 0 <= i < k ==> rules[i].id != ruleId)
  {
    match Lists.FirstIndex(rules, RuleId, ruleId)
    case None => rules
    case Some(k) => rules[k := updated]
  }

  /** Replacing a rule by one with the same id keeps the list's ids in place. */
  lemma ReplaceRuleKeepsIds(rules: seq<LenderRule>, ruleId: int, updated: LenderRule)
    requires updated.id == ruleId
    ensures forall i :: 0 <= i < |rules| ==> ReplaceRule(rules, ruleId, updated)[i].id == rules[i].id
  {
    var r := ReplaceRule(rules, ruleId, updated);
    forall i | 0 <= i < |rules|
      ensures r[i].id == rules[i].id
    {
      var index := Lists.FirstIndex(rules, RuleId, ruleId);
      if index.Some? && i == index.value {
        assert RuleId(rules[i]) == ruleId;
      }
    }
  }

  class LenderRulesComponent {
    var rules: seq<LenderRule>
    var isLoading: bool
    var isAdding: bool
    var isEditing: bool
    var isSaving: bool
    var editingRuleId: Option<int>
    var errorMessage: string
    var successMessage: string
    var form: RuleForm

    /** The editor is never adding and editing at once, and only editing records a rule id. */
    ghost predicate Valid()
      reads this
    {
      && !(isAdding && isEditing)
      && (editingRuleId.Some? ==> isEditing)
    }

    constructor()
      ensures Valid()
      ensures rules == [] && !isLoading && !isAdding && !isEditing && !isSaving && editingRuleId == None
      ensures errorMessage == "" && successMessage == ""
    {
      rules := [];
      isLoading := false;
      isAdding := false;
      isEditing := false;
      isSaving := false;
      editingRuleId := None;
      errorMessage := "";
      successMessage := "";
      form := EmptyForm;
    }

    /**
     * `loadRules`: the service's rules on success; on failure the old rules
     * stay and the error is reported after a prefix. Loading ends either way.
     */
    method LoadRules(response: Result<seq<LenderRule>>)
      modifies this`rules, this`errorMessage, this`isLoading
      requires Valid()
      ensures Valid()
      ensures !isLoading
      ensures response.Success? ==> rules == response.value && errorMessage == old(errorMessage)
      ensures response.Failure? ==>
        && rules == old(rules)
        && errorMessage == "Failed to load rules: " + response.error
    {
      isLoading := true;
      match response {
        case Success(loaded) => rules := loaded;
        case Failure(message) => errorMessage := "Failed to load rules: " + message;
      }
      isLoading := false;
    }

    /** Opens the form for a new rule. */
    method AddRule()
      modifies this
      ensures Valid()
      ensures isAdding && !isEditing && editingRuleId == None && form == NewRuleForm
      ensures rules == old(rules) && isSaving == old(isSaving)
      ensures errorMessage == old(errorMessage) && successMessage == old(successMessage)
    {
      isAdding := true;
      isEditing := false;
      editingRuleId := None;
      form := NewRuleForm;
    }

    /** Opens the form on an existing rule. */
    method EditRule(rule: LenderRule)
      modifies this
      ensures Valid()
      ensures isEditing && !isAdding && editingRuleId == Some(rule.id) && form == FormOf(rule)
      ensures rules == old(rules) && isSaving == old(isSaving)
      ensures errorMessage == old(errorMessage) && successMessage == old(successMessage)
    {
      isEditing := true;
      isAdding := false;
      editingRuleId := Some(rule.id);
      form := FormOf(rule);
    }

    /** Closes the form. */
    method CancelEdit()
      modifies this
      ensures Valid()
      ensures !isAdding && !isEditing && editingRuleId == None && form == EmptyForm
      ensures rules == old(rules) && isSaving == old(isSaving)
      ensures errorMessage == old(errorMessage) && successMessage == old(successMessage)
    {
      isAdding := false;
      isEditing := false;
      editingRuleId := None;
      form := EmptyForm;
    }

    /**
     * Submits the form. An invalid form sends nothing and changes nothing
     * modelled here. A valid one clears both messages and raises `isSaving`;
     * out-of-order ages then set the age error and lower `isSaving` again.
     * With neither a creation nor an update to send, `isSaving` stays raised.
     */
    method OnSubmit() returns (req: Request)
      requires Valid()
      modifies this
      ensures Valid()
      ensures !FormValid(old(form)) ==>
        && req == NoRequest && isSaving == old(isSaving)
        && errorMessage == old(errorMessage) && successMessage == old(successMessage)
      ensures FormValid(old(form)) ==>
        && req == SubmitRequest(old(form), isAdding, isEditing, editingRuleId)
        && successMessage == ""
        && (old(form).minAge.value >= old(form).maxAge.value ==> errorMessage == AgeOrderError && !isSaving)
        && (old(form).minAge.value < old(form).maxAge.value ==> errorMessage == "" && isSaving)
      ensures rules == old(rules) && form == old(form)
      ensures isAdding == old(isAdding) && isEditing == old(isEditing) && editingRuleId == old(editingRuleId)
    {
      req := NoRequest;
      if FormValid(form) {
        isSaving := true;
        errorMessage := "";
        successMessage := "";
        if form.minAge.value >= form.maxAge.value {
          errorMessage := AgeOrderError;
          isSaving := false;
          return;
        }
        if isAdding {
          req := Create(form);
        } else if isEditing && IdTruthy(editingRuleId) {
          req := Update(editingRuleId.value, form);
        }
      }
    }

    /** A successful creation: the new rule is appended and the form closes. */
    method OnCreated(newRule: LenderRule)
      modifies this
      ensures Valid()
      ensures rules == old(rules) + [newRule]
      ensures successMessage == CreatedMessage && errorMessage == old(errorMessage) && !isSaving
      ensures !isAdding && !isEditing && editingRuleId == None && form == EmptyForm
    {
      rules := rules + [newRule];
      successMessage := CreatedMessage;
      isSaving := false;
      CancelEdit();
    }

    /** A failed creation reports the server's message, else the error's, else "Unknown error". */
    method OnCreateFailed(serverMessage: Option<string>, message: Option<string>)
      modifies this`errorMessage, this`isSaving
      ensures errorMessage == "Failed to create rule: " +
        (if Js.Truthy(serverMessage) then serverMessage.value
         else if Js.Truthy(message) then message.value
         else "Unknown error")
      ensures !isSaving
    {
      var reason := if Js.Truthy(serverMessage) then serverMessage.value
                    else if Js.Truthy(message) then message.value
                    else "Unknown error";
      errorMessage := "Failed to create rule: " + reason;
      isSaving := false;
    }

    /** A successful update: the rule with that id is replaced in place and the form closes. */
    method OnUpdated(ruleId: int, updatedRule: LenderRule)
      modifies this
      ensures Valid()
      ensures rules == ReplaceRule(old(rules), ruleId, updatedRule)
      ensures successMessage == UpdatedMessage && errorMessage == old(errorMessage) && !isSaving
      ensures !isAdding && !isEditing && editingRuleId == None && form == EmptyForm
    {
      var index := Lists.FirstIndex(rules, RuleId, ruleId);
      if index.Some? {
        rules := rules[index.value := updatedRule];
      }
      successMessage := UpdatedMessage;
      isSaving := false;
      CancelEdit();
    }

    method OnUpdateFailed(message: string)
      modifies this`errorMessage, this`isSaving
      ensures errorMessage == "Failed to update rule: " + message && !isSaving
    {
      errorMessage := "Failed to update rule: " + message;
      isSaving := false;
    }

    /** Deletion asks for confirmation first; only a confirmed deletion is sent. */
    method DeleteRule(ruleId: int, confirmed: bool) returns (req: Request)
      ensures req == (if confirmed then Delete(ruleId) else NoRequest)
    {
      req := if confirmed then Delete(ruleId) else NoRequest;
    }

    /** A successful deletion drops every rule with that id, keeping the rest in order. */
    method OnDeleted(ruleId: int)
      modifies this`rules, this`successMessage
      ensures rules == Lists.Without(old(rules), RuleId, ruleId)
      ensures forall i :: 0 <= i < |rules| ==> rules[i].id != ruleId
      ensures successMessage == DeletedMessage
    {
      rules := Lists.Without(rules, RuleId, ruleId);
      successMessage := DeletedMessage;
    }

    method OnDeleteFailed(message: string)
      modifies this`errorMessage
      ensures errorMessage == "Failed to delete rule: " + message
    {
      errorMessage := "Failed to delete rule: " + message;
    }

    /** The deferred blanking of the success message. */
    method ClearSuccessMessage()
      modifies this`successMessage
      ensures successMessage == ""
    {
      successMessage := "";
    }

    /** The deferred blanking of the error message after a failed creation. */
    method ClearErrorMessage()
      modifies this`errorMessage
      ensures errorMessage == ""
    {
      errorMessage := "";
    }
  }
}

=== FILE: lists.dfy ===
/**
 * The two list idioms the components use on records keyed by a numeric id:
 * `list.findIndex(x => x.id === id)` and `list.filter(x => x.id !== id)`.
 */
module Lists {
  import opened Wrappers

  /** The first position whose key is id, or None (`findIndex` returning -1). */
  function FirstIndex<T>(s: seq<T>, key: T -> int, id: int): (r: Option<nat>)
    ensures r.None? <==> forall i :: 0 <= i < |s| ==> key(s[i]) != id
    ensures r.Some? ==>
      && r.value < |s| && key(s[r.value]) == id
      && forall i :: 0 <= i < r.value ==> key(s[i]) != id
  {
    if s == [] then None
    else if key(s[0]) == id then Some(0)
    else match FirstIndex(s[1..], key, id)
      case None => None
      case Some(k) => Some(k + 1)
  }

  /** The elements whose key is not id, in their original order. */
  function Without<T(==)>(s: seq<T>, key: T -> int, id: int): (r: seq<T>)
    ensures |r| <= |s|
    ensures forall i :: 0 <= i < |r| ==> r[i] in s && key(r[i]) != id
    ensures forall i :: 0 <= i < |s| && key(s[i]) != id ==> s[i] in r
  {
    if s == [] then []
    else if key(s[0]) == id then Without(s[1..], key, id)
    else [s[0]] + Without(s[1..], key, id)
  }

  /** Filtering distributes over concatenation, so the survivors keep their order. */
  lemma {:induction false} WithoutAppend<T>(a: seq<T>, b: seq<T>, key: T -> int, id: int)
    ensures Without(a + b, key, id) == Without(a, key, id) + Without(b, key, id)
  {
    if a == [] {
      assert a + b == b;
    } else {
      assert (a + b)[1..] == a[1..] + b;
      WithoutAppend(a[1..], b, key, id);
    }
  }

  /** With no element carrying id, filtering changes nothing. */
  lemma {:induction false} WithoutAbsent<T>(s: seq<T>, key: T -> int, id: int)
    requires forall i :: 0 <= i < |s| ==> key(s[i]) != id
    ensures Without(s, key, id) == s
  {
    if s != [] {
      WithoutAbsent(s[1..], key, id);
    }
  }

  /** Filtering twice by the same id is filtering once. */
  lemma WithoutIdempotent<T>(s: seq<T>, key: T -> int, id: int)
    ensures Without(Without(s, key, id), key, id) == Without(s, key, id)
  {
    var r := Without(s, key, id);
    WithoutAbsent(r, key, id);
  }

  /** The number of elements carrying id. */
  function CountKey<T>(s: seq<T>, key: T -> int, id: int): (n: nat)
    ensures n <= |s|
  {
    if s == [] then 0 else (if key(s[0]) == id then 1 else 0) + CountKey(s[1..], key, id)
  }

  /** Filtering removes exactly the elements carrying id. */
  lemma {:induction false} WithoutLength<T>(s: seq<T>, key: T -> int, id: int)
    ensures |Without(s, key, id)| == |s| - CountKey(s, key, id)
  {
    if s != [] {
      WithoutLength(s[1..], key, id);
    }
  }
}

=== FILE: mock_api.dfy ===
/**
 * The in-browser mock backend (`MockApiService`): login and registration
 * against a fixed user list, loan application creation and update, the
 * per-lender application filter and the per-rule eligibility answer.
 * The fixture lists are rebuilt on every call, so they appear here as
 * constants handed to each operation.
 */
module MockApi {
  import opened Wrappers
  import opened Records
  import Strings
  import Js

  /** What login and registration answer with. */
  datatype AuthResponse = AuthResponse(id: int, username: string, roles: seq<string>, token: string)

  /** The fields a caller may overlay on an application (`Partial<LoanApplication>`). */
  datatype ApplicationPatch = ApplicationPatch(
    status: Option<string>,
    loanAmount: Option<int>,
    eligibilityScore: Option<int>,
    comments: Option<string>,
    decisionDate: Option<string>,
    decisionBy: Option<string>)

  const MockUsers: seq<User> := [
    User(1, "admin1", Some("admin@lendflow.com"), [ADMIN], Some(ADMIN), Some("Admin"), Some("User"), None, None, None, None),
    User(2, "cust1", Some("john.doe@email.com"), [BORROWER], Some(BORROWER), Some("John"), Some("Doe"), None, None, None, None),
    User(3, "lender1", Some("sarah.johnson@abcfinance.com"), [LENDER], Some(LENDER), Some("Sarah"), Some("Johnson"), None, None, None, None)
  ]

  const MockCustomers: seq<CustomerProfile> := [CustomerProfile(1, 2, "John Doe", 35, 75000, 720)]

  const MockLenders: seq<LenderProfile> := [LenderProfile(1, 3, "ABC Finance")]

  const MockRules: seq<LenderRule> := [
    LenderRule(1, 1, 50000, 10000, 500000, 650, 21, 65, ["EMPLOYED", "SELF_EMPLOYED"], true),
    LenderRule(2, 1, 30000, 5000, 200000, 600, 18, 70, ["EMPLOYED", "SELF_EMPLOYED", "STUDENT"], true)
  ]

  const MockApplications: seq<LoanApplication> := [
    LoanApplication(1, 2, 2, 1, Some(250000), Some(250000), "Home renovation", 60, PENDING,
      "2024-01-15T10:30:00Z", None, Some(75), Some(75000), Some(720), Some("EMPLOYED"),
      Some("Application under review"), None, None),
    LoanApplication(2, 2, 2, 1, Some(150000), Some(150000), "Business expansion", 36, APPROVED,
      "2024-01-10T14:20:00Z", Some("2024-01-12T09:15:00Z"), Some(85), Some(75000), Some(720), Some("EMPLOYED"),
      None, Some("2024-01-12T09:15:00Z"), Some("Lender Manager"))
  ]

  /** `users.find(u => u.username === name)`. */
  function FindUser(users: seq<User>, username: string): (r: Option<User>)
    ensures r.None? <==> forall i :: 0 <= i < |users| ==> users[i].username != username
    ensures r.Some? ==>
      exists k :: 0 <= k < |users| && users[k] == r.value && users[k].username == username
        && forall i :: 0 <= i < k ==> users[i].username != username
  {
    if users == [] then None
    else if users[0].username == username then Some(users[0])
    else
      var r := FindUser(users[1..], username);
      assert r.Some? ==> forall k :: 0 <= k < |users[1..]| ==> users[1..][k] == users[k + 1];
      r
  }

  /**
   * Any password is accepted for a known username; the token is
   * `mock-jwt-token-` followed by the user's id.
   */
  function Login(users: seq<User>, username: string, password: string): (r: Result<AuthResponse>)
    ensures r.Failure? <==> forall i :: 0 <= i < |users| ==> users[i].username != username
    ensures r.Failure? ==> r.error == "Invalid credentials"
    ensures r.Success? ==>
      exists k :: 0 <= k < |users| && users[k].username == username
        && r.value == AuthResponse(users[k].id, username, users[k].roles, "mock-jwt-token-" + Strings.IntToString(users[k].id))
    ensures r.Success? ==>
      && FindUser(users, username).Some?
      && r.value.id == FindUser(users, username).value.id
      && r.value.roles == FindUser(users, username).value.roles
  {
    match FindUser(users, username)
      case None => Failure("Invalid credentials")
      case Some(u) => Success(AuthResponse(u.id, u.username, u.roles, "mock-jwt-token-" + Strings.IntToString(u.id)))
  }

  /** The password plays no part in a mock login. */
  lemma LoginIgnoresPassword(users: seq<User>, username: string, p1: string, p2: string)
    ensures Login(users, username, p1) == Login(users, username, p2)
  {
  }

  /**
   * A new user gets id `users.length + 1`, the single role BORROWER and a
   * `token-<now>` token; a taken username is refused. The new user is pushed
   * onto a list rebuilt on the next call, so no later call sees it.
   */
  function Register(users: seq<User>, username: string, now: int): (r: Result<AuthResponse>)
    ensures r.Failure? <==> exists i :: 0 <= i < |users| && users[i].username == username
    ensures r.Failure? ==> r.error == "Username already exists"
    ensures r.Success? ==>
      && r.value.id == |users| + 1 && r.value.roles == [BORROWER]
      && r.value.username == username && r.value.token == "token-" + Strings.IntToString(now)
  {
    if FindUser(users, username).Some? then Failure("Username already exists")
    else Success(AuthResponse(|users| + 1, username, [BORROWER], "token-" + Strings.IntToString(now)))
  }

  /** The largest id in a non-empty list (`Math.max(...ids)`). */
  function MaxId(apps: seq<LoanApplication>): (m: int)
    requires |apps| > 0
    ensures forall i :: 0 <= i < |apps| ==> apps[i].id <= m
    ensures exists i :: 0 <= i < |apps| && apps[i].id == m
  {
    if |apps| == 1 then apps[0].id
    else
      var rest := MaxId(apps[1..]);
      assert forall i :: 1 <= i < |apps| ==> apps[i] == apps[1..][i - 1];
      if apps[0].id >= rest then apps[0].id else rest
  }

  /**
   * A new PENDING application for the demo customer, with id one more than
   * the largest existing id, `loanAmount` equal to the requested amount and
   * purpose defaulting to 'Personal loan' when none (or an empty one) is given.
   */
  function CreateLoanApplication(apps: seq<LoanApplication>, requestedAmount: int, purpose: Option<string>, nowIso: string)
    : (a: LoanApplication)
    requires |apps| > 0
    ensures forall i :: 0 <= i < |apps| ==> apps[i].id < a.id
    ensures exists i :: 0 <= i < |apps| && apps[i].id == a.id - 1
    ensures a.status == PENDING
    ensures a.requestedAmount == a.loanAmount == Some(requestedAmount)
    ensures a.loanPurpose == (if Js.Truthy(purpose) then purpose.value else "Personal loan")
    ensures a.createdAt == nowIso
  {
    LoanApplication(MaxId(apps) + 1, 2, 2, 1, Some(requestedAmount), Some(requestedAmount),
      if Js.Truthy(purpose) then purpose.value else "Personal loan", 36, PENDING, nowIso, None,
      Some(0), Some(75000), Some(720), Some("EMPLOYED"), None, None, None)
  }

  /** With the fixture list the next application id is 3. */
  lemma CreateOnFixturesGetsIdThree(amount: int, purpose: Option<string>, nowIso: string)
    ensures CreateLoanApplication(MockApplications, amount, purpose, nowIso).id == 3
  {
    assert MockApplications[1].id == 2;
  }

  /**
   * `{ ...app, ...updates, updatedAt: now }`: the fields a patch cannot carry
   * are kept, a field the patch leaves out keeps its value, and the update
   * time is always the new one.
   */
  function Overlay(a: LoanApplication, p: ApplicationPatch, nowIso: string): (r: LoanApplication)
    ensures r.id == a.id && r.customerId == a.customerId && r.borrowerId == a.borrowerId
    ensures r.lenderId == a.lenderId && r.requestedAmount == a.requestedAmount
    ensures r.loanPurpose == a.loanPurpose && r.loanTerm == a.loanTerm && r.createdAt == a.createdAt
    ensures r.monthlyIncome == a.monthlyIncome && r.creditScore == a.creditScore
    ensures r.employmentStatus == a.employmentStatus
    ensures r.updatedAt == Some(nowIso)
    ensures p == ApplicationPatch(None, None, None, None, None, None) ==> r == a.(updatedAt := Some(nowIso))
  {
    a.(status := p.status.GetOr(a.status),
       loanAmount := if p.loanAmount.Some? then p.loanAmount else a.loanAmount,
       eligibilityScore := if p.eligibilityScore.Some? then p.eligibilityScore else a.eligibilityScore,
       comments := if p.comments.Some? then p.comments else a.comments,
       decisionDate := if p.decisionDate.Some? then p.decisionDate else a.decisionDate,
       decisionBy := if p.decisionBy.Some? then p.decisionBy else a.decisionBy,
       updatedAt := Some(nowIso))
  }

  /** Applying the same updates twice gives what applying them once gives. */
  lemma OverlayIdempotent(a: LoanApplication, p: ApplicationPatch, nowIso: string)
    ensures Overlay(Overlay(a, p, nowIso), p, nowIso) == Overlay(a, p, nowIso)
  {
  }

  /**
   * Replaces, in place, the first entry with the given id by its overlay;
   * fails with 'Application not found' when no entry has the id.
   */
  method UpdateLoanApplication(apps: array<LoanApplication>, id: int, updates: ApplicationPatch, nowIso: string)
    returns (r: Result<LoanApplication>)
    modifies apps
    ensures IndexOfId(old(apps[..]), id).None? ==>
      r == Failure("Application not found") && apps[..] == old(apps[..])
    ensures IndexOfId(old(apps[..]), id).Some? ==>
      var k := IndexOfId(old(apps[..]), id).value;
      r == Success(Overlay(old(apps[k]), updates, nowIso)) && apps[..] == old(apps[..])[k := r.value]
  {
    var index := IndexOfId(apps[..], id);
    if index.None? {
      return Failure("Application not found");
    }
    var updated := Overlay(apps[index.value], updates, nowIso);
    apps[index.value] := updated;
    return Success(updated);
  }

  /** The applications of one lender, in list order. */
  function ByLender(apps: seq<LoanApplication>, lenderId: int): (r: seq<LoanApplication>)
    ensures |r| <= |apps|
    ensures forall i :: 0 <= i < |r| ==> r[i].lenderId == lenderId && r[i] in apps
    ensures forall a :: a in apps && a.lenderId == lenderId ==> a in r
  {
    if apps == [] then []
    else if apps[0].lenderId == lenderId then [apps[0]] + ByLender(apps[1..], lenderId)
    else ByLender(apps[1..], lenderId)
  }

  /** Filtering a concatenation filters each part and keeps them in order. */
  lemma {:induction false} ByLenderAppend(a: seq<LoanApplication>, b: seq<LoanApplication>, lenderId: int)
    ensures ByLender(a + b, lenderId) == ByLender(a, lenderId) + ByLender(b, lenderId)
  {
    if a == [] {
      assert a + b == b;
    } else {
      assert (a + b)[1..] == a[1..] + b;
      ByLenderAppend(a[1..], b, lenderId);
    }
  }

  /** `lenders.find(l => l.id === id)`. */
  function FindLender(lenders: seq<LenderProfile>, id: int): (r: Option<LenderProfile>)
    ensures r.None? <==> forall i :: 0 <= i < |lenders| ==> lenders[i].id != id
    ensures r.Some? ==>
      exists k :: 0 <= k < |lenders| && lenders[k] == r.value && lenders[k].id == id
        && forall i :: 0 <= i < k ==> lenders[i].id != id
  {
    if lenders == [] then None
    else if lenders[0].id == id then Some(lenders[0])
    else
      var r := FindLender(lenders[1..], id);
      assert r.Some? ==> forall k :: 0 <= k < |lenders[1..]| ==> lenders[1..][k] == lenders[k + 1];
      r
  }

  /** `applications.find(a => a.id === id)`: the entry at the first position holding that id. */
  function FindApplication(apps: seq<LoanApplication>, id: int): (r: Option<LoanApplication>)
    ensures r.None? <==> IndexOfId(apps, id).None?
    ensures r.Some? ==> IndexOfId(apps, id).Some? && r.value == apps[IndexOfId(apps, id).value]
  {
    match IndexOfId(apps, id)
      case None => None
      case Some(k) => Some(apps[k])
  }

  /**
   * The customer meets a rule: salary, credit score, age range and the
   * maximum loan amount. The rule's minimum loan amount and employment types
   * are not consulted, and a missing requested amount never qualifies.
   */
  predicate RuleEligible(c: CustomerProfile, rule: LenderRule, requested: Option<int>)
    ensures RuleEligible(c, rule, requested) ==> rule.minAge <= rule.maxAge && requested.Some?
  {
    && c.salary >= rule.minSalary
    && c.creditScore >= rule.minCreditScore
    && c.age >= rule.minAge
    && c.age <= rule.maxAge
    && requested.Some? && requested.value <= rule.maxLoanAmount
  }

  lemma RuleEligibleIgnoresMinLoanAndEmployment(c: CustomerProfile, rule: LenderRule, requested: Option<int>, minLoan: int, types: seq<string>)
    ensures RuleEligible(c, rule.(minLoanAmount := minLoan, employmentTypes := types), requested) == RuleEligible(c, rule, requested)
  {
  }

  function Summary(rule: LenderRule): RuleSummary {
    RuleSummary(rule.minSalary, rule.maxLoanAmount, rule.minCreditScore, rule.minAge, rule.maxAge)
  }

  /** Active rules whose lender exists. */
  predicate Answered(lenders: seq<LenderProfile>, rule: LenderRule) {
    rule.isActive && FindLender(lenders, rule.lenderId).Some?
  }

  /** The answer for one rule whose lender is `lender`. */
  function ResultFor(c: CustomerProfile, requested: Option<int>, lender: LenderProfile, rule: LenderRule): EligibilityResult {
    EligibilityResult(lender.id, lender.displayName, Summary(rule), RuleEligible(c, rule, requested))
  }

  /** `res` is the answer the rule gives: its lender's id and name, its thresholds and its verdict. */
  predicate Answers(c: CustomerProfile, requested: Option<int>, lenders: seq<LenderProfile>, res: EligibilityResult, rule: LenderRule) {
    && Answered(lenders, rule)
    && res.lenderId == rule.lenderId
    && res.lenderName == FindLender(lenders, rule.lenderId).value.displayName
    && res.rule == Summary(rule)
    && res.eligible == RuleEligible(c, rule, requested)
  }

  /** One answer per active rule whose lender exists, in rule order. */
  function RuleResults(c: CustomerProfile, requested: Option<int>, lenders: seq<LenderProfile>, rules: seq<LenderRule>)
    : (r: seq<EligibilityResult>)
    ensures |r| <= |rules|
    ensures forall i :: 0 <= i < |r| ==> exists j :: 0 <= j < |rules| && Answers(c, requested, lenders, r[i], rules[j])
    ensures (forall j :: 0 <= j < |rules| ==> Answered(lenders, rules[j])) ==> |r| == |rules|
  {
    if rules == [] then []
    else
      var rest := RuleResults(c, requested, lenders, rules[1..]);
      var r := if Answered(lenders, rules[0])
        then [ResultFor(c, requested, FindLender(lenders, rules[0].lenderId).value, rules[0])] + rest
        else rest;
      assert forall i :: 0 <= i < |r| ==> exists j :: 0 <= j < |rules| && Answers(c, requested, lenders, r[i], rules[j]) by {
        forall i | 0 <= i < |r|
          ensures exists j :: 0 <= j < |rules| && Answers(c, requested, lenders, r[i], rules[j])
        {
          if Answered(lenders, rules[0]) && i == 0 {
            assert Answers(c, requested, lenders, r[0], rules[0]);
          } else {
            var i' := if Answered(lenders, rules[0]) then i - 1 else i;
            assert r[i] == rest[i'];
            var j' :| 0 <= j' < |rules[1..]| && Answers(c, requested, lenders, rest[i'], rules[1..][j']);
            assert rules[1..][j'] == rules[j' + 1];
          }
        }
      }
      assert (forall j :: 0 <= j < |rules| ==> Answered(lenders, rules[j])) ==>
        forall j :: 0 <= j < |rules[1..]| ==> Answered(lenders, rules[1..][j]);
      r
  }

  /**
   * The answers to a concatenation of rules are the answers to each part,
   * so the answers follow the rules' order, one per answered rule.
   */
  lemma {:induction false} RuleResultsAppend(c: CustomerProfile, requested: Option<int>, lenders: seq<LenderProfile>,
                                             a: seq<LenderRule>, b: seq<LenderRule>)
    ensures RuleResults(c, requested, lenders, a + b)
            == RuleResults(c, requested, lenders, a) + RuleResults(c, requested, lenders, b)
  {
    if a == [] {
      assert a + b == b;
    } else {
      assert (a + b)[1..] == a[1..] + b;
      assert (a + b)[0] == a[0];
      RuleResultsAppend(c, requested, lenders, a[1..], b);
    }
  }

  /** A single rule gets exactly its own answer when it is answered, and none otherwise. */
  lemma RuleResultsOfOne(c: CustomerProfile, requested: Option<int>, lenders: seq<LenderProfile>, rule: LenderRule)
    ensures Answered(lenders, rule) ==>
      RuleResults(c, requested, lenders, [rule]) == [ResultFor(c, requested, FindLender(lenders, rule.lenderId).value, rule)]
    ensures !Answered(lenders, rule) ==> RuleResults(c, requested, lenders, [rule]) == []
  {
    assert [rule][1..] == [];
  }

  /**
   * Per-rule eligibility of the demo customer for one application; an
   * unknown application id fails with 'Application not found'.
   */
  function CheckEligibility(apps: seq<LoanApplication>, customer: CustomerProfile, lenders: seq<LenderProfile>,
                            rules: seq<LenderRule>, applicationId: int): (r: Result<seq<EligibilityResult>>)
    ensures r.Failure? <==> forall i :: 0 <= i < |apps| ==> apps[i].id != applicationId
    ensures r.Failure? ==> r.error == "Application not found"
    ensures r.Success? ==>
      && IndexOfId(apps, applicationId).Some?
      && r.value == RuleResults(customer, apps[IndexOfId(apps, applicationId).value].requestedAmount, lenders, rules)
  {
    match FindApplication(apps, applicationId)
      case None => Failure("Application not found")
      case Some(a) => Success(RuleResults(customer, a.requestedAmount, lenders, rules))
  }

  /**
   * On the fixtures, application 1 (250000 requested) meets the first rule
   * but exceeds the second rule's 200000 maximum.
   */
  lemma FixtureEligibility()
    ensures CheckEligibility(MockApplications, MockCustomers[0], MockLenders, MockRules, 1)
      == Success([
        EligibilityResult(1, "ABC Finance", RuleSummary(50000, 500000, 650, 21, 65), true),
        EligibilityResult(1, "ABC Finance", RuleSummary(30000, 200000, 600, 18, 70), false)])
  {
    var c := MockCustomers[0];
    var amount := Some(250000);
    assert FindApplication(MockApplications, 1) == Some(MockApplications[0]);
    assert FindLender(MockLenders, 1) == Some(MockLenders[0]);
    assert MockRules[1..][1..] == [];
    var tail := RuleResults(c, amount, MockLenders, MockRules[1..]);
    assert tail == [ResultFor(c, amount, MockLenders[0], MockRules[1])] + RuleResults(c, amount, MockLenders, MockRules[1..][1..]);
    assert RuleResults(c, amount, MockLenders, MockRules) == [ResultFor(c, amount, MockLenders[0], MockRules[0])] + tail;
    assert ResultFor(c, amount, MockLenders[0], MockRules[0]) == EligibilityResult(1, "ABC Finance", RuleSummary(50000, 500000, 650, 21, 65), true);
    assert ResultFor(c, amount, MockLenders[0], MockRules[1]) == EligibilityResult(1, "ABC Finance", RuleSummary(30000, 200000, 600, 18, 70), false);
    assert MockApplications[0].requestedAmount == amount;
    assert tail == [ResultFor(c, amount, MockLenders[0], MockRules[1])];
    assert CheckEligibility(MockApplications, c, MockLenders, MockRules, 1) == Success(RuleResults(c, amount, MockLenders, MockRules));
    var first := EligibilityResult(1, "ABC Finance", RuleSummary(50000, 500000, 650, 21, 65), true);
    var second := EligibilityResult(1, "ABC Finance", RuleSummary(30000, 200000, 600, 18, 70), false);
    assert RuleResults(c, amount, MockLenders, MockRules) == [first] + [second];
    assert [first] + [second] == [first, second];
  }
}

=== FILE: my_applications.dfy ===
/**
 * The borrower's list of their own applications
 * (`BorrowerMyApplicationsComponent`): the detail panel, the badge and icon of
 * a status, the lender names it knows, and the tallies above the list. Its
 * eligibility class uses the cut-offs of `ApplyLoan.EligibilityClass`.
 */
module MyApplications {
  import opened Wrappers
  import opened Records
  import Js

  /** `getStatusBadgeClass`: one class per final status, the pending badge for anything else. */
  function StatusBadgeClass(status: string): (c: string)
    ensures c == "badge--success" <==> status == APPROVED
    ensures c == "badge--error" <==> status == REJECTED
    ensures c == "badge--warning" <==> status == CANCELLED
    ensures c == "badge--pending" <==> status !in {APPROVED, REJECTED, CANCELLED}
  {
    if status == APPROVED then "badge--success"
    else if status == REJECTED then "badge--error"
    else if status == CANCELLED then "badge--warning"
    else "badge--pending"
  }

  /** `getStatusIcon`: a check mark, a cross, a warning sign, or an hourglass for anything else. */
  function StatusIcon(status: string): (icon: string)
    ensures icon in {"\U{2705}", "\U{274C}", "\U{26A0}\U{FE0F}", "\U{23F3}"}
  {
    if status == APPROVED then "\U{2705}"
    else if status == REJECTED then "\U{274C}"
    else if status == CANCELLED then "\U{26A0}\U{FE0F}"
    else "\U{23F3}"
  }

  /** The badge and the icon always tell the same story. */
  lemma BadgeAndIconAgree(status: string)
    ensures StatusBadgeClass(status) == "badge--success" <==> StatusIcon(status) == "\U{2705}"
    ensures StatusBadgeClass(status) == "badge--error" <==> StatusIcon(status) == "\U{274C}"
    ensures StatusBadgeClass(status) == "badge--warning" <==> StatusIcon(status) == "\U{26A0}\U{FE0F}"
    ensures StatusBadgeClass(status) == "badge--pending" <==> StatusIcon(status) == "\U{23F3}"
  {
  }

  const UnknownLender := "Unknown Lender"

  /** `getLenderName`: the three lenders the screen knows by id, otherwise "Unknown Lender". */
  function LenderName(lenderId: int): (name: string)
    ensures name == UnknownLender <==> lenderId !in {1, 2, 3}
    ensures lenderId == 1 ==> name == "City Bank"
    ensures lenderId == 2 ==> name == "State Bank"
    ensures lenderId == 3 ==> name == "National Bank"
  {
    if lenderId == 1 then "City Bank"
    else if lenderId == 2 then "State Bank"
    else if lenderId == 3 then "National Bank"
    else UnknownLender
  }

  /**
   * `getTotalApprovedAmount`: the approved loan amounts added without a
   * default, so one approved application without an amount makes the whole
   * sum NaN, here `None`.
   */
  function TotalApprovedAmount(apps: seq<LoanApplication>): (r: Option<int>)
    ensures r.None? <==> exists i :: 0 <= i < |apps| && apps[i].status == APPROVED && apps[i].loanAmount.None?
    ensures r.Some? ==> r.value == ApprovedAmount(apps)
  {
    if apps == [] then Some(0)
    else
      var rest := TotalApprovedAmount(apps[1..]);
      if apps[0].status != APPROVED then
        rest
      else if apps[0].loanAmount.None? || rest.None? then
        None
      else
        Some(apps[0].loanAmount.value + rest.value)
  }

  /** Sum of `eligibilityScore || 0` over the list. */
  function SumScores(apps: seq<LoanApplication>): int {
    if apps == [] then 0 else Js.OrZero(apps[0].eligibilityScore) + SumScores(apps[1..])
  }

  /** Every recorded score lies in 0..100. */
  ghost predicate ScoresInRange(apps: seq<LoanApplication>) {
    forall i :: 0 <= i < |apps| ==> 0 <= Js.OrZero(apps[i].eligibilityScore) <= 100
  }

  lemma {:induction false} SumScoresBounded(apps: seq<LoanApplication>)
    requires ScoresInRange(apps)
    ensures 0 <= SumScores(apps) <= 100 * |apps|
  {
    if apps != [] {
      assert ScoresInRange(apps[1..]) by {
        forall i | 0 <= i < |apps[1..]|
          ensures 0 <= Js.OrZero(apps[1..][i].eligibilityScore) <= 100
        {
          assert apps[1..][i] == apps[i + 1];
        }
      }
      SumScoresBounded(apps[1..]);
    }
  }

  /** `getAverageEligibilityScore`: the mean of `eligibilityScore || 0`, 0 for no applications. */
  function AverageEligibilityScore(apps: seq<LoanApplication>): (avg: real)
    ensures apps == [] ==> avg == 0.0
    ensures apps != [] ==> avg * (|apps| as real) == SumScores(apps) as real
  {
    Js.Average(SumScores(apps), |apps|)
  }

  /** With every score in 0..100 the average is in 0..100 too. */
  lemma AverageScoreInRange(apps: seq<LoanApplication>)
    requires ScoresInRange(apps)
    ensures 0.0 <= AverageEligibilityScore(apps) <= 100.0
  {
    SumScoresBounded(apps);
    if apps != [] {
      Js.AverageBetween(SumScores(apps), |apps|, 0, 100);
    }
  }

  class BorrowerMyApplicationsComponent {
    var applications: seq<LoanApplication>
    var selectedApplication: Option<LoanApplication>
    var showApplicationDetails: bool

    constructor(apps: seq<LoanApplication>)
      ensures applications == apps && selectedApplication.None? && !showApplicationDetails
    {
      applications := apps;
      selectedApplication := None;
      showApplicationDetails := false;
    }

    /** Opens the detail panel on one application. */
    method ViewApplicationDetails(app: LoanApplication)
      modifies this`selectedApplication, this`showApplicationDetails
      ensures selectedApplication == Some(app) && showApplicationDetails
    {
      selectedApplication := Some(app);
      showApplicationDetails := true;
    }

    /** Closes the detail panel and forgets the selection. */
    method CloseApplicationDetails()
      modifies this`selectedApplication, this`showApplicationDetails
      ensures selectedApplication.None? && !showApplicationDetails
    {
      showApplicationDetails := false;
      selectedApplication := None;
    }

    /** `getApplicationStats`: the length and the approved, pending and rejected counts. */
    function GetApplicationStats(): (s: ApplicationStats)
      reads this
      ensures s.total == |applications|
      ensures s.approved == |WithStatus(applications, APPROVED)|
      ensures s.pending == |WithStatus(applications, PENDING)|
      ensures s.rejected == |WithStatus(applications, REJECTED)|
      ensures s.approved + s.pending + s.rejected <= s.total
    {
      Stats(applications)
    }
  }
}

=== FILE: records.dfy ===
/**
 * Record shapes shared by the services and components (users, loan
 * applications, lenders and their rules), and the status counts and amount
 * sums that several screens compute over a list of loan applications.
 */
module Records {
  import opened Wrappers
  import Js
  import Dates

  const PENDING := "PENDING"
  const APPROVED := "APPROVED"
  const REJECTED := "REJECTED"
  const CANCELLED := "CANCELLED"
  const UNDER_REVIEW := "UNDER_REVIEW"

  const ADMIN := "ADMIN"
  const LENDER := "LENDER"
  const BORROWER := "BORROWER"

  /** A signed-in person. `role` is the single role string the guards compare. */
  datatype User = User(
    id: int,
    username: string,
    email: Option<string>,
    roles: seq<string>,
    role: Option<string>,
    firstName: Option<string>,
    lastName: Option<string>,
    creditScore: Option<int>,
    monthlyIncome: Option<int>,
    employmentStatus: Option<string>,
    dateOfBirth: Option<Dates.Date>)

  /** A loan application; times are ISO strings, optional numbers may be missing. */
  datatype LoanApplication = LoanApplication(
    id: int,
    customerId: int,
    borrowerId: int,
    lenderId: int,
    requestedAmount: Option<int>,
    loanAmount: Option<int>,
    loanPurpose: string,
    loanTerm: int,
    status: string,
    createdAt: string,
    updatedAt: Option<string>,
    eligibilityScore: Option<int>,
    monthlyIncome: Option<int>,
    creditScore: Option<int>,
    employmentStatus: Option<string>,
    comments: Option<string>,
    decisionDate: Option<string>,
    decisionBy: Option<string>)

  /** A lender's eligibility rule as the rules screen and the mock service hold it. */
  datatype LenderRule = LenderRule(
    id: int,
    lenderId: int,
    minSalary: int,
    minLoanAmount: int,
    maxLoanAmount: int,
    minCreditScore: int,
    minAge: int,
    maxAge: int,
    employmentTypes: seq<string>,
    isActive: bool)

  /** A lender as the REST backend describes it; rates are in basis points (8.5% = 850). */
  datatype Lender = Lender(
    id: Option<int>,
    companyName: string,
    minLoanAmount: int,
    maxLoanAmount: int,
    minCreditScore: int,
    minMonthlyIncome: int,
    minAge: int,
    maxAge: int,
    minInterestRate: int,
    maxInterestRate: int,
    specializations: seq<string>,
    isActive: bool)

  /** An eligibility rule as the REST backend describes it. */
  datatype EligibilityRule = EligibilityRule(
    id: Option<int>,
    lenderId: int,
    ruleName: string,
    minLoanAmount: int,
    maxLoanAmount: int,
    minCreditScore: int,
    minMonthlyIncome: int,
    minAge: int,
    maxAge: int,
    isActive: bool)

  datatype CustomerProfile = CustomerProfile(id: int, userId: int, fullName: string, age: int, salary: int, creditScore: int)

  datatype LenderProfile = LenderProfile(id: int, userId: int, displayName: string)

  /** The thresholds of a rule that an eligibility answer echoes back. */
  datatype RuleSummary = RuleSummary(minSalary: int, maxLoanAmount: int, minCreditScore: int, minAge: int, maxAge: int)

  datatype EligibilityResult = EligibilityResult(lenderId: int, lenderName: string, rule: RuleSummary, eligible: bool)

  /** `app.loanAmount || 0`. */
  function LoanAmount(a: LoanApplication): int {
    Js.OrZero(a.loanAmount)
  }

  /** `app.loanAmount || app.requestedAmount || 0`. */
  function AmountOrRequested(a: LoanApplication): int {
    Js.OrElse(a.loanAmount, Js.OrZero(a.requestedAmount))
  }

  /** No two applications share an id. */
  ghost predicate UniqueIds(apps: seq<LoanApplication>) {
    forall i, j :: 0 <= i < j < |apps| ==> apps[i].id != apps[j].id
  }

  /** `apps.findIndex(a => a.id === id)`: the first position holding that id. */
  function IndexOfId(apps: seq<LoanApplication>, id: int): (r: Option<nat>)
    ensures r.None? <==> forall i :: 0 <= i < |apps| ==> apps[i].id != id
    ensures r.Some? ==>
      && r.value < |apps| && apps[r.value].id == id
      && forall i :: 0 <= i < r.value ==> apps[i].id != id
  {
    if apps == [] then None
    else if apps[0].id == id then Some(0)
    else match IndexOfId(apps[1..], id)
      case None => None
      case Some(k) => Some(k + 1)
  }

  /** Number of applications with the given status. */
  function CountStatus(apps: seq<LoanApplication>, status: string): (n: nat)
    ensures n <= |apps|
  {
    if apps == [] then 0
    else (if apps[0].status == status then 1 else 0) + CountStatus(apps[1..], status)
  }

  /** The applications with the given status, in list order. */
  function WithStatus(apps: seq<LoanApplication>, status: string): (r: seq<LoanApplication>)
    ensures |r| == CountStatus(apps, status)
    ensures forall i :: 0 <= i < |r| ==> r[i].status == status && r[i] in apps
    ensures forall a :: a in apps && a.status == status ==> a in r
  {
    if apps == [] then []
    else
      var rest := WithStatus(apps[1..], status);
      if apps[0].status == status then [apps[0]] + rest else rest
  }

  /** Sum of `loanAmount || 0` over the list. */
  function SumLoanAmount(apps: seq<LoanApplication>): int {
    if apps == [] then 0 else LoanAmount(apps[0]) + SumLoanAmount(apps[1..])
  }

  /** The status tally several screens show. */
  datatype ApplicationStats = ApplicationStats(total: nat, approved: nat, pending: nat, rejected: nat)

  /** Length and the APPROVED, PENDING and REJECTED counts; the three never exceed the total. */
  function Stats(apps: seq<LoanApplication>): (s: ApplicationStats)
    ensures s.total == |apps|
    ensures s.approved == CountStatus(apps, APPROVED) && s.pending == CountStatus(apps, PENDING)
    ensures s.rejected == CountStatus(apps, REJECTED)
    ensures s.approved + s.pending + s.rejected <= s.total
  {
    ThreeStatusCountsBounded(apps, APPROVED, PENDING, REJECTED);
    ApplicationStats(|apps|, CountStatus(apps, APPROVED), CountStatus(apps, PENDING), CountStatus(apps, REJECTED))
  }

  /** Sum of `loanAmount || requestedAmount || 0` over the list. */
  function SumAmountOrRequested(apps: seq<LoanApplication>): int {
    if apps == [] then 0 else AmountOrRequested(apps[0]) + SumAmountOrRequested(apps[1..])
  }

  /** Amounts that are all non-negative add up to a non-negative sum. */
  lemma {:induction false} SumAmountOrRequestedNonNegative(apps: seq<LoanApplication>)
    ensures (forall a :: a in apps ==> AmountOrRequested(a) >= 0) ==> SumAmountOrRequested(apps) >= 0
  {
    if apps != [] {
      assert apps[0] in apps;
      assert forall a :: a in apps[1..] ==> a in apps;
      SumAmountOrRequestedNonNegative(apps[1..]);
    }
  }

  /** Sum of `loanAmount || 0` over the APPROVED applications. */
  function ApprovedAmount(apps: seq<LoanApplication>): int {
    if apps == [] then 0
    else (if apps[0].status == APPROVED then LoanAmount(apps[0]) else 0) + ApprovedAmount(apps[1..])
  }

  /** The approved amount is the total loan amount of the approved sub-list. */
  lemma {:induction false} ApprovedAmountIsSumOfApproved(apps: seq<LoanApplication>)
    ensures ApprovedAmount(apps) == SumLoanAmount(WithStatus(apps, APPROVED))
  {
    if apps != [] {
      ApprovedAmountIsSumOfApproved(apps[1..]);
    }
  }

  /** Applications with three different statuses never outnumber the list. */
  lemma {:induction false} ThreeStatusCountsBounded(apps: seq<LoanApplication>, s1: string, s2: string, s3: string)
    requires s1 != s2 && s1 != s3 && s2 != s3
    ensures CountStatus(apps, s1) + CountStatus(apps, s2) + CountStatus(apps, s3) <= |apps|
  {
    if apps != [] {
      ThreeStatusCountsBounded(apps[1..], s1, s2, s3);
    }
  }

  lemma {:induction false} CountStatusAppend(a: seq<LoanApplication>, b: seq<LoanApplication>, status: string)
    ensures CountStatus(a + b, status) == CountStatus(a, status) + CountStatus(b, status)
  {
    if a == [] {
      assert a + b == b;
    } else {
      assert (a + b)[1..] == a[1..] + b;
      CountStatusAppend(a[1..], b, status);
    }
  }

  lemma {:induction false} SumLoanAmountAppend(a: seq<LoanApplication>, b: seq<LoanApplication>)
    ensures SumLoanAmount(a + b) == SumLoanAmount(a) + SumLoanAmount(b)
  {
    if a == [] {
      assert a + b == b;
    } else {
      assert (a + b)[1..] == a[1..] + b;
      SumLoanAmountAppend(a[1..], b);
    }
  }
}

=== FILE: role_guard.dfy ===
/**
 * The route guard that admits a user only when the route's required roles
 * are absent or empty, or the current user holds one of them (`RoleGuard`).
 * Navigation is returned as a value instead of being performed.
 */
module RoleGuard {
  import opened Wrappers
  import Auth

  /** Whether the route activates, and where the router is sent otherwise. */
  datatype Decision = Decision(allow: bool, navigateTo: Option<string>)

  /**
   * Allows without navigation when no roles are required or the user holds
   * one of them; otherwise navigates to '/dashboard' and refuses.
   */
  function CanActivate(s: Auth.Session, requiredRoles: Option<seq<string>>): (d: Decision)
    ensures d.allow <==>
      || requiredRoles.None? || requiredRoles.value == []
      || exists i :: 0 <= i < |requiredRoles.value| && Auth.HasRole(s, requiredRoles.value[i])
    ensures d.allow ==> d.navigateTo.None?
    ensures !d.allow ==> d.navigateTo == Some("/dashboard")
  {
    if requiredRoles.None? || |requiredRoles.value| == 0 then Decision(true, None)
    else if Auth.HasAnyRole(s, requiredRoles.value) then Decision(true, None)
    else Decision(false, Some("/dashboard"))
  }

  /** The order (and repetition count) of the required roles does not matter. */
  lemma OrderIndependent(s: Auth.Session, roles1: seq<string>, roles2: seq<string>)
    requires multiset(roles1) == multiset(roles2)
    ensures CanActivate(s, Some(roles1)) == CanActivate(s, Some(roles2))
  {
    forall r | r in roles1
      ensures r in roles2
    {
      assert r in multiset(roles1);
    }
    forall r | r in roles2
      ensures r in roles1
    {
      assert r in multiset(roles2);
    }
    if Auth.HasAnyRole(s, roles1) {
      var i :| 0 <= i < |roles1| && Auth.HasRole(s, roles1[i]);
      assert roles1[i] in roles2;
    }
    if Auth.HasAnyRole(s, roles2) {
      var i :| 0 <= i < |roles2| && Auth.HasRole(s, roles2[i]);
      assert roles2[i] in roles1;
    }
  }

  /** Without a signed-in user only routes that require no role open. */
  lemma NoUserNeedsNoRoles(s: Auth.Session, roles: seq<string>)
    requires s.user.None? && roles != []
    ensures !CanActivate(s, Some(roles)).allow
  {
  }
}

=== FILE: smart_matching.dfy ===
/**
 * Lender matching for a borrower (`SmartMatchingComponent`): every lender is
 * scored against the borrower's profile, given a tier, and the list is sorted
 * by score and filtered by the borrower's limits. The profile the component
 * scores is fixed in its code (credit score 720, monthly income 75000, age
 * 35); these are the constants below. Interest rates are in basis points.
 */
module SmartMatching {
  import opened Wrappers
  import opened Records
  import Js
  import Strings
  import Sorting
  import Dates

  const MockCreditScore := 720
  const MockMonthlyIncome := 75000
  const MockAge := 35
  /** `income × 12 × 0.4`, a whole number for this income. */
  const MaxLoanForUser := MockMonthlyIncome * 24 / 5
  const DefaultProcessingFee := 500
  const PersonalLoans := "Personal Loans"
  const DefaultAge := 25

  datatype MatchStatus = Eligible | PartiallyEligible | NotEligible

  datatype LenderMatch = LenderMatch(
    lender: Lender,
    matchScore: int,
    matchReasons: seq<string>,
    interestRate: int,
    processingFee: int,
    maxLoanAmount: int,
    eligibilityStatus: MatchStatus)

  predicate CreditMet(l: Lender) { MockCreditScore >= l.minCreditScore }
  predicate IncomeMet(l: Lender) { MockMonthlyIncome >= l.minMonthlyIncome }
  predicate AgeMet(l: Lender) { l.minAge <= MockAge <= l.maxAge }
  predicate LoanRangeMet(l: Lender) { l.minLoanAmount <= MaxLoanForUser <= l.maxLoanAmount }
  predicate Specialized(l: Lender) { PersonalLoans in l.specializations }

  /** The points of one criterion: its weight when met, else nothing. */
  function Award(met: bool, points: int): int {
    if met then points else 0
  }

  /** The tier of a score: 80 and above, 60 and above, or below. */
  function StatusFor(score: int): (s: MatchStatus)
    ensures s == Eligible <==> score >= 80
    ensures s == PartiallyEligible <==> 60 <= score < 80
    ensures s == NotEligible <==> score < 60
  {
    if score >= 80 then Eligible else if score >= 60 then PartiallyEligible else NotEligible
  }

  /**
   * One reason per criterion checked, in the order they are checked: a met
   * criterion starts with a check mark and an unmet one with a warning sign;
   * the specialization adds a fifth reason only when it holds.
   */
  function Reasons(l: Lender): (r: seq<string>)
    ensures |r| == if Specialized(l) then 5 else 4
    ensures forall i :: 0 <= i < |r| ==> |r[i]| > 0
    ensures r[0][0] == '\U{2705}' <==> CreditMet(l)
    ensures r[1][0] == '\U{2705}' <==> IncomeMet(l)
    ensures r[2][0] == '\U{2705}' <==> AgeMet(l)
    ensures r[3][0] == '\U{2705}' <==> LoanRangeMet(l)
    ensures forall i :: 0 <= i < 4 ==> r[i][0] in {'\U{2705}', '\U{26A0}'}
  {
    [ if CreditMet(l) then "\U{2705} Credit score meets requirements"
      else "\U{26A0}\U{FE0F} Credit score " + Strings.IntToString(MockCreditScore)
           + " below required " + Strings.IntToString(l.minCreditScore),
      if IncomeMet(l) then "\U{2705} Income meets requirements"
      else "\U{26A0}\U{FE0F} Income $" + Strings.IntToString(MockMonthlyIncome)
           + " below required $" + Strings.IntToString(l.minMonthlyIncome),
      if AgeMet(l) then "\U{2705} Age within range"
      else "\U{26A0}\U{FE0F} Age " + Strings.IntToString(MockAge) + " outside range "
           + Strings.IntToString(l.minAge) + "-" + Strings.IntToString(l.maxAge),
      if LoanRangeMet(l) then "\U{2705} Loan amount within range"
      else "\U{26A0}\U{FE0F} Max loan $" + Strings.IntToString(MaxLoanForUser) + " outside range $"
           + Strings.IntToString(l.minLoanAmount) + "-$" + Strings.IntToString(l.maxLoanAmount) ]
    + (if Specialized(l) then ["\U{1F3AF} Specializes in personal loans"] else [])
  }

  /**
   * `calculateMatchScore`: credit 30, income 25, age 15, loan range 20 and
   * the personal-loan specialization 10 points; the score is capped at 100
   * and its tier decides the status.
   */
  function CalculateMatchScore(l: Lender): (m: LenderMatch)
    ensures m.lender == l
    ensures 0 <= m.matchScore <= 100
    ensures m.matchScore == Award(CreditMet(l), 30) + Award(IncomeMet(l), 25) + Award(AgeMet(l), 15)
                            + Award(LoanRangeMet(l), 20) + Award(Specialized(l), 10)
    ensures m.eligibilityStatus == StatusFor(m.matchScore)
    ensures |m.matchReasons| == if Specialized(l) then 5 else 4
    ensures m.interestRate == l.minInterestRate && m.processingFee == DefaultProcessingFee
    ensures m.maxLoanAmount <= l.maxLoanAmount && m.maxLoanAmount <= MaxLoanForUser
    ensures m.maxLoanAmount == l.maxLoanAmount || m.maxLoanAmount == MaxLoanForUser
  {
    var score := Award(CreditMet(l), 30) + Award(IncomeMet(l), 25) + Award(AgeMet(l), 15)
                 + Award(LoanRangeMet(l), 20) + Award(Specialized(l), 10);
    LenderMatch(l, Js.Min(100, score), Reasons(l), l.minInterestRate, DefaultProcessingFee,
                Js.Min(l.maxLoanAmount, MaxLoanForUser), StatusFor(score))
  }

  /** A lender that fails the credit and the income criteria is never even partially eligible. */
  lemma CreditAndIncomeDecide(l: Lender)
    requires !CreditMet(l) && !IncomeMet(l)
    ensures CalculateMatchScore(l).matchScore <= 45
    ensures CalculateMatchScore(l).eligibilityStatus == NotEligible
  {
  }

  /** `calculateAge`: 25 without a date of birth, otherwise the age on `today`. */
  function CalculateAge(dateOfBirth: Option<Dates.Date>, today: Dates.Date): (age: int)
    ensures dateOfBirth.None? ==> age == DefaultAge
    ensures dateOfBirth.Some? ==>
      && !Dates.Before(today, Dates.Anniversary(dateOfBirth.value, age))
      && Dates.Before(today, Dates.Anniversary(dateOfBirth.value, age + 1))
  {
    if dateOfBirth.None? then DefaultAge else Dates.AgeOn(dateOfBirth.value, today)
  }

  /** `getMatchScoreClass`: tiers at 80, 70 and 60. */
  function MatchScoreClass(score: int): (c: string)
    ensures c == "score-excellent" <==> score >= 80
    ensures c == "score-good" <==> 70 <= score < 80
    ensures c == "score-fair" <==> 60 <= score < 70
    ensures c == "score-poor" <==> score < 60
  {
    if score >= 80 then "score-excellent"
    else if score >= 70 then "score-good"
    else if score >= 60 then "score-fair"
    else "score-poor"
  }

  /** The excellent class and the ELIGIBLE status pick out the same scores. */
  lemma ExcellentIffEligible(l: Lender)
    ensures MatchScoreClass(CalculateMatchScore(l).matchScore) == "score-excellent"
            <==> CalculateMatchScore(l).eligibilityStatus == Eligible
  {
  }

  datatype Filters = Filters(minMatchScore: int, maxInterestRate: int, maxProcessingFee: int)

  /** 70 points, 15% (1500 basis points) and a fee of 1000. */
  const DefaultFilters := Filters(70, 1500, 1000)

  predicate Passes(m: LenderMatch, f: Filters) {
    m.matchScore >= f.minMatchScore && m.interestRate <= f.maxInterestRate && m.processingFee <= f.maxProcessingFee
  }

  /** The matches that pass every filter, in their order. */
  function FilterMatches(s: seq<LenderMatch>, f: Filters): (r: seq<LenderMatch>)
    ensures |r| <= |s|
    ensures forall i :: 0 <= i < |r| ==> Passes(r[i], f) && r[i] in s
    ensures forall i :: 0 <= i < |s| && Passes(s[i], f) ==> s[i] in r
  {
    if s == [] then []
    else if Passes(s[0], f) then [s[0]] + FilterMatches(s[1..], f)
    else FilterMatches(s[1..], f)
  }

  /** Filtering a concatenation filters each part: the kept matches stay in order, each once. */
  lemma {:induction false} FilterMatchesAppend(a: seq<LenderMatch>, b: seq<LenderMatch>, f: Filters)
    ensures FilterMatches(a + b, f) == FilterMatches(a, f) + FilterMatches(b, f)
  {
    if a == [] {
      assert a + b == b;
    } else {
      assert (a + b)[1..] == a[1..] + b;
      FilterMatchesAppend(a[1..], b, f);
    }
  }

  function Score(m: LenderMatch): int {
    m.matchScore
  }

  /** Filtering a list sorted by score leaves it sorted. */
  lemma {:induction false} FilterKeepsOrder(s: seq<LenderMatch>, f: Filters)
    requires Sorting.SortedDesc(s, Score)
    ensures Sorting.SortedDesc(FilterMatches(s, f), Score)
  {
    if s != [] {
      assert Sorting.SortedDesc(s[1..], Score);
      FilterKeepsOrder(s[1..], f);
      var rest := FilterMatches(s[1..], f);
      if Passes(s[0], f) {
        var r := [s[0]] + rest;
        forall i, j | 0 <= i < j < |r|
          ensures Score(r[i]) >= Score(r[j])
        {
          if i == 0 {
            assert r[j] == rest[j - 1] && rest[j - 1] in s[1..];
          }
        }
      }
    }
  }

  /** Lenders scored in their order. */
  function MatchAll(lenders: seq<Lender>): (r: seq<LenderMatch>)
    ensures |r| == |lenders|
    ensures forall i :: 0 <= i < |lenders| ==> r[i] == CalculateMatchScore(lenders[i])
  {
    if lenders == [] then [] else [CalculateMatchScore(lenders[0])] + MatchAll(lenders[1..])
  }

  function CountEligible(s: seq<LenderMatch>): (n: nat)
    ensures n <= |s|
  {
    if s == [] then 0 else (if s[0].eligibilityStatus == Eligible then 1 else 0) + CountEligible(s[1..])
  }

  class SmartMatchingComponent {
    var lenderMatches: seq<LenderMatch>
    var selectedFilters: Filters
    var isLoading: bool

    constructor()
      ensures lenderMatches == [] && selectedFilters == DefaultFilters && !isLoading
    {
      lenderMatches := [];
      selectedFilters := DefaultFilters;
      isLoading := false;
    }

    /**
     * Scores every fetched lender and sorts the matches by score, best first.
     * A failed fetch keeps the old matches. Loading ends either way.
     */
    method LoadLenderMatches(fetched: Result<seq<Lender>>)
      modifies this`lenderMatches, this`isLoading
      ensures !isLoading
      ensures fetched.Failure? ==> lenderMatches == old(lenderMatches)
      ensures fetched.Success? ==>
        && lenderMatches == Sorting.SortDesc(MatchAll(fetched.value), Score)
        && multiset(lenderMatches) == multiset(MatchAll(fetched.value))
        && Sorting.SortedDesc(lenderMatches, Score)
      ensures fetched.Success? ==>
        forall k :: Sorting.KeyFilter(lenderMatches, Score, k) == Sorting.KeyFilter(MatchAll(fetched.value), Score, k)
    {
      isLoading := true;
      if fetched.Success? {
        var lenders := fetched.value;
        lenderMatches := MatchAll(lenders);
        SortByMatchScore();
        forall k {
          Sorting.SortDescStable(MatchAll(lenders), Score, k);
        }
      }
      isLoading := false;
    }

    /** Reorders the matches by score, best first, keeping equal scores in their order. */
    method SortByMatchScore()
      modifies this`lenderMatches
      ensures lenderMatches == Sorting.SortDesc(old(lenderMatches), Score)
      ensures multiset(lenderMatches) == multiset(old(lenderMatches))
      ensures Sorting.SortedDesc(lenderMatches, Score)
      ensures forall k :: Sorting.KeyFilter(lenderMatches, Score, k) == Sorting.KeyFilter(old(lenderMatches), Score, k)
    {
      forall k {
        Sorting.SortDescStable(lenderMatches, Score, k);
      }
      lenderMatches := Sorting.SortDesc(lenderMatches, Score);
    }

    /** Keeps the matches within the selected limits. */
    method ApplyFilters()
      modifies this`lenderMatches
      ensures lenderMatches == FilterMatches(old(lenderMatches), selectedFilters)
      ensures Sorting.SortedDesc(old(lenderMatches), Score) ==> Sorting.SortedDesc(lenderMatches, Score)
    {
      if Sorting.SortedDesc(lenderMatches, Score) {
        FilterKeepsOrder(lenderMatches, selectedFilters);
      }
      lenderMatches := FilterMatches(lenderMatches, selectedFilters);
    }

    /** Restores the default limits and scores the fetched lenders again. */
    method ResetFilters(fetched: Result<seq<Lender>>)
      modifies this
      ensures selectedFilters == DefaultFilters && !isLoading
      ensures fetched.Failure? ==> lenderMatches == old(lenderMatches)
      ensures fetched.Success? ==>
        && lenderMatches == Sorting.SortDesc(MatchAll(fetched.value), Score)
        && multiset(lenderMatches) == multiset(MatchAll(fetched.value))
        && Sorting.SortedDesc(lenderMatches, Score)
      ensures fetched.Success? ==>
        forall k :: Sorting.KeyFilter(lenderMatches, Score, k) == Sorting.KeyFilter(MatchAll(fetched.value), Score, k)
    {
      selectedFilters := DefaultFilters;
      LoadLenderMatches(fetched);
    }

    /** The number of ELIGIBLE matches. */
    function GetEligibleCount(): (n: nat)
      reads this
      ensures n <= |lenderMatches|
      ensures n == CountEligible(lenderMatches)
    {
      CountEligible(lenderMatches)
    }
  }
}

=== FILE: sorting.dfy ===
/**
 * The stable descending sort the screens obtain from `Array.prototype.sort`
 * with a comparator `(a, b) => key(b) - key(a)`: elements with larger keys
 * come first, and elements with equal keys keep their relative order.
 */
module Sorting {

  /** Keys never increase from left to right. */
  ghost predicate SortedDesc<T>(s: seq<T>, key: T -> int) {
    forall i, j :: 0 <= i < j < |s| ==> key(s[i]) >= key(s[j])
  }

  /** Places `x` just before the first element whose key does not exceed its own. */
  function Insert<T>(x: T, s: seq<T>, key: T -> int): (r: seq<T>)
    ensures |r| == |s| + 1
    ensures multiset(r) == multiset(s) + multiset{x}
  {
    if s == [] then [x]
    else if key(s[0]) <= key(x) then [x] + s
    else
      assert s == [s[0]] + s[1..];
      [s[0]] + Insert(x, s[1..], key)
  }

  /** Inserting adds `x` and nothing else. */
  lemma {:induction false} InsertMember<T>(x: T, s: seq<T>, key: T -> int, j: nat)
    requires j < |Insert(x, s, key)|
    ensures Insert(x, s, key)[j] == x || exists m :: 0 <= m < |s| && s[m] == Insert(x, s, key)[j]
  {
    if s == [] {
      assert Insert(x, s, key) == [x];
    } else if key(s[0]) <= key(x) {
      assert Insert(x, s, key) == [x] + s;
      if j > 0 {
        assert Insert(x, s, key)[j] == s[j - 1];
      }
    } else {
      var rest := Insert(x, s[1..], key);
      assert Insert(x, s, key) == [s[0]] + rest;
      if j > 0 {
        InsertMember(x, s[1..], key, j - 1);
        if rest[j - 1] != x {
          var m :| 0 <= m < |s[1..]| && s[1..][m] == rest[j - 1];
          assert s[m + 1] == Insert(x, s, key)[j];
        }
      }
    }
  }

  /** An element no smaller than every key of a sorted list can go in front of it. */
  lemma ConsSorted<T>(h: T, s: seq<T>, key: T -> int)
    requires SortedDesc(s, key)
    requires forall j :: 0 <= j < |s| ==> key(h) >= key(s[j])
    ensures SortedDesc([h] + s, key)
  {
    var r := [h] + s;
    forall i, j | 0 <= i < j < |r|
      ensures key(r[i]) >= key(r[j])
    {
      assert r[j] == s[j - 1];
      if i > 0 {
        assert r[i] == s[i - 1];
      }
    }
  }

  /** The tail of a sorted list is sorted. */
  lemma TailSorted<T>(s: seq<T>, key: T -> int)
    requires s != [] && SortedDesc(s, key)
    ensures SortedDesc(s[1..], key)
  {
    forall i, j | 0 <= i < j < |s[1..]|
      ensures key(s[1..][i]) >= key(s[1..][j])
    {
      assert s[1..][i] == s[i + 1] && s[1..][j] == s[j + 1];
    }
  }

  /** Inserting into a sorted list keeps it sorted. */
  lemma {:induction false} InsertSorted<T>(x: T, s: seq<T>, key: T -> int)
    requires SortedDesc(s, key)
    ensures SortedDesc(Insert(x, s, key), key)
  {
    if s == [] {
      assert Insert(x, s, key) == [x];
    } else if key(s[0]) <= key(x) {
      assert Insert(x, s, key) == [x] + s;
      ConsSorted(x, s, key);
    } else {
      var rest := Insert(x, s[1..], key);
      TailSorted(s, key);
      InsertSorted(x, s[1..], key);
      forall j | 0 <= j < |rest|
        ensures key(s[0]) >= key(rest[j])
      {
        InsertMember(x, s[1..], key, j);
        if rest[j] != x {
          var m :| 0 <= m < |s[1..]| && s[1..][m] == rest[j];
          assert s[m + 1] == rest[j];
        }
      }
      assert Insert(x, s, key) == [s[0]] + rest;
      ConsSorted(s[0], rest, key);
    }
  }

  /** Insertion sort from the right, which keeps equal keys in input order. */
  function SortDesc<T>(s: seq<T>, key: T -> int): (r: seq<T>)
    ensures |r| == |s|
    ensures multiset(r) == multiset(s)
    ensures SortedDesc(r, key)
  {
    if s == [] then []
    else
      assert s == [s[0]] + s[1..];
      var rest := SortDesc(s[1..], key);
      InsertSorted(s[0], rest, key);
      Insert(s[0], rest, key)
  }

  /** The elements whose key is `k`, in list order. */
  function KeyFilter<T>(s: seq<T>, key: T -> int, k: int): (r: seq<T>)
    ensures |r| <= |s|
    ensures forall i :: 0 <= i < |r| ==> key(r[i]) == k
  {
    if s == [] then []
    else (if key(s[0]) == k then [s[0]] else []) + KeyFilter(s[1..], key, k)
  }

  /** Picking out one key distributes over concatenation. */
  lemma {:induction false} KeyFilterAppend<T>(a: seq<T>, b: seq<T>, key: T -> int, k: int)
    ensures KeyFilter(a + b, key, k) == KeyFilter(a, key, k) + KeyFilter(b, key, k)
  {
    if a == [] {
      assert a + b == b;
    } else {
      assert (a + b)[1..] == a[1..] + b;
      KeyFilterAppend(a[1..], b, key, k);
    }
  }

  /** `Insert` puts `x` before every element with the same key. */
  lemma {:induction false} InsertStable<T>(x: T, s: seq<T>, key: T -> int, k: int)
    ensures KeyFilter(Insert(x, s, key), key, k)
            == (if key(x) == k then [x] else []) + KeyFilter(s, key, k)
  {
    if s == [] {
      assert Insert(x, s, key) == [x];
      assert [x][1..] == [];
    } else if key(s[0]) <= key(x) {
      assert Insert(x, s, key) == [x] + s;
      assert ([x] + s)[1..] == s;
    } else {
      var rest := Insert(x, s[1..], key);
      assert Insert(x, s, key) == [s[0]] + rest;
      assert ([s[0]] + rest)[1..] == rest;
      InsertStable(x, s[1..], key, k);
    }
  }

  /** Sorting is stable: the elements of any one key keep their input order. */
  lemma {:induction false} SortDescStable<T>(s: seq<T>, key: T -> int, k: int)
    ensures KeyFilter(SortDesc(s, key), key, k) == KeyFilter(s, key, k)
  {
    if s != [] {
      SortDescStable(s[1..], key, k);
      InsertStable(s[0], SortDesc(s[1..], key), key, k);
    }
  }

  /** The first `n` of a stable sort keep, among equal keys, the earliest in input order. */
  lemma TakeKeepsFirstTies<T>(s: seq<T>, n: nat, key: T -> int, k: int)
    ensures KeyFilter(Take(SortDesc(s, key), n), key, k) <= KeyFilter(s, key, k)
  {
    var r := SortDesc(s, key);
    TakeRest(r, n);
    KeyFilterAppend(Take(r, n), r[|Take(r, n)|..], key, k);
    SortDescStable(s, key, k);
  }

  /** The first `n` elements, or all of them when there are fewer (`slice(0, n)`). */
  function Take<T>(s: seq<T>, n: nat): (r: seq<T>)
    ensures |r| <= n && |r| <= |s|
    ensures r <= s
    ensures |s| >= n ==> |r| == n
    ensures |s| <= n ==> r == s
  {
    if |s| <= n then s else s[..n]
  }

  /** A prefix of a sorted list is sorted. */
  lemma TakeSorted<T>(s: seq<T>, n: nat, key: T -> int)
    requires SortedDesc(s, key)
    ensures SortedDesc(Take(s, n), key)
  {
  }

  /** An element of a sorted list left out of a prefix has a key no larger than any in it. */
  lemma OutsideSortedPrefix<T>(s: seq<T>, n: nat, key: T -> int, e: T)
    requires SortedDesc(s, key) && e in s && e !in Take(s, n)
    ensures forall j :: 0 <= j < |Take(s, n)| ==> key(Take(s, n)[j]) >= key(e)
  {
    var top := Take(s, n);
    var k :| 0 <= k < |s| && s[k] == e;
    assert top == s[..|top|];
    assert k >= |top|;
    forall j | 0 <= j < |top|
      ensures key(top[j]) >= key(e)
    {
      assert top[j] == s[j];
    }
  }

  /** What `Take` leaves out is the rest of the list. */
  lemma TakeRest<T>(s: seq<T>, n: nat)
    ensures s == Take(s, n) + s[|Take(s, n)|..]
    ensures multiset(s) == multiset(Take(s, n)) + multiset(s[|Take(s, n)|..])
  {
    assert s == Take(s, n) + s[|Take(s, n)|..];
  }

  /** Sum of the keys of a list. */
  function SumKeys<T>(s: seq<T>, key: T -> int): int {
    if s == [] then 0 else key(s[0]) + SumKeys(s[1..], key)
  }

  lemma {:induction false} InsertSum<T>(x: T, s: seq<T>, key: T -> int)
    ensures SumKeys(Insert(x, s, key), key) == key(x) + SumKeys(s, key)
  {
    if s != [] && key(s[0]) > key(x) {
      InsertSum(x, s[1..], key);
    }
  }

  /** Sorting keeps the sum of the keys. */
  lemma {:induction false} SortDescSum<T>(s: seq<T>, key: T -> int)
    ensures SumKeys(SortDesc(s, key), key) == SumKeys(s, key)
  {
    if s != [] {
      SortDescSum(s[1..], key);
      InsertSum(s[0], SortDesc(s[1..], key), key);
    }
  }

  /** No two elements share a name. */
  ghost predicate DistinctBy<T, U>(s: seq<T>, name: T -> U) {
    forall i, j :: 0 <= i < j < |s| ==> name(s[i]) != name(s[j])
  }

  lemma {:induction false} InsertDistinct<T, U>(x: T, s: seq<T>, key: T -> int, name: T -> U)
    requires DistinctBy(s, name)
    requires forall i :: 0 <= i < |s| ==> name(s[i]) != name(x)
    ensures DistinctBy(Insert(x, s, key), name)
  {
    if s != [] && key(s[0]) > key(x) {
      var rest := Insert(x, s[1..], key);
      InsertDistinct(x, s[1..], key, name);
      forall j | 0 <= j < |rest|
        ensures name(s[0]) != name(rest[j])
      {
        assert rest[j] in multiset(rest);
        if rest[j] != x {
          assert rest[j] in multiset(s[1..]);
          var k :| 0 <= k < |s[1..]| && s[1..][k] == rest[j];
          assert s[k + 1] == rest[j];
        }
      }
    }
  }

  /** Sorting keeps the names distinct. */
  lemma {:induction false} SortDescDistinct<T, U>(s: seq<T>, key: T -> int, name: T -> U)
    requires DistinctBy(s, name)
    ensures DistinctBy(SortDesc(s, key), name)
  {
    if s != [] {
      SortDescDistinct(s[1..], key, name);
      var rest := SortDesc(s[1..], key);
      forall i | 0 <= i < |rest|
        ensures name(rest[i]) != name(s[0])
      {
        assert rest[i] in multiset(s[1..]);
        var k :| 0 <= k < |s[1..]| && s[1..][k] == rest[i];
        assert s[k + 1] == rest[i];
      }
      InsertDistinct(s[0], rest, key, name);
    }
  }
}

=== FILE: strings.dfy ===
/**
 * String operations the session token relies on: decimal formatting of numbers
 * (template-literal interpolation), `String.prototype.split` on one separator
 * character, the global `parseInt` with no radix, and lower-casing.
 */
module Strings {
  import opened Wrappers

  predicate IsDigit(c: char) {
    '0' <= c <= '9'
  }

  predicate AllDigits(s: string) {
    forall i :: 0 <= i < |s| ==> IsDigit(s[i])
  }

  function DigitChar(d: nat): (c: char)
    requires d < 10
    ensures IsDigit(c) && (c as int) - ('0' as int) == d
  {
    ((('0' as int) + d) as char)
  }

  function DigitValue(c: char): nat
    requires IsDigit(c)
  {
    (c as int) - ('0' as int)
  }

  /** Decimal digits of a non-negative number, with no leading zero. */
  function NatToString(n: nat): (s: string)
    ensures |s| >= 1 && AllDigits(s)
    ensures s[0] == '0' ==> n == 0
    decreases n
  {
    if n < 10 then [DigitChar(n)] else NatToString(n / 10) + [DigitChar(n % 10)]
  }

  /** How JavaScript prints an integer: a '-' sign for negatives, then decimal digits. */
  function IntToString(i: int): (s: string)
  {
    if i < 0 then "-" + NatToString(-i) else NatToString(i)
  }

  /** The value of a string of decimal digits. */
  function DecimalValue(s: string): nat
    requires AllDigits(s)
    decreases |s|
  {
    if s == [] then 0 else DecimalValue(s[..|s| - 1]) * 10 + DigitValue(s[|s| - 1])
  }

  lemma {:induction false} DecimalValueOfNatToString(n: nat)
    ensures DecimalValue(NatToString(n)) == n
    decreases n
  {
    if n >= 10 {
      var s := NatToString(n);
      assert s[..|s| - 1] == NatToString(n / 10);
      DecimalValueOfNatToString(n / 10);
    }
  }

  predicate IsHexDigit(c: char) {
    IsDigit(c) || 'a' <= c <= 'f' || 'A' <= c <= 'F'
  }

  function HexDigitValue(c: char): nat
    requires IsHexDigit(c)
  {
    if IsDigit(c) then DigitValue(c)
    else if 'a' <= c <= 'f' then (c as int) - ('a' as int) + 10
    else (c as int) - ('A' as int) + 10
  }

  function HexValue(s: string): nat
    requires forall i :: 0 <= i < |s| ==> IsHexDigit(s[i])
    decreases |s|
  {
    if s == [] then 0 else HexValue(s[..|s| - 1]) * 16 + HexDigitValue(s[|s| - 1])
  }

  /** The longest prefix of s made of decimal digits. */
  function DigitPrefix(s: string): (p: string)
    ensures p <= s && AllDigits(p)
    ensures |p| < |s| ==> !IsDigit(s[|p|])
  {
    if s != [] && IsDigit(s[0]) then [s[0]] + DigitPrefix(s[1..]) else []
  }

  /** The longest prefix of s made of hexadecimal digits. */
  function HexPrefix(s: string): (p: string)
    ensures p <= s && forall i :: 0 <= i < |p| ==> IsHexDigit(p[i])
  {
    if s != [] && IsHexDigit(s[0]) then [s[0]] + HexPrefix(s[1..]) else []
  }

  /** The white space and line terminators that `parseInt` skips before the number. */
  predicate IsJsWhiteSpace(c: char) {
    c == ' ' || c == '\t' || c == '\n' || c == '\r' || c == '\U{000B}' || c == '\U{000C}'
    || c == '\U{00A0}' || c == '\U{FEFF}' || c == '\U{1680}' || '\U{2000}' <= c <= '\U{200A}'
    || c == '\U{2028}' || c == '\U{2029}' || c == '\U{202F}' || c == '\U{205F}' || c == '\U{3000}'
  }

  function TrimStart(s: string): (t: string)
    ensures t <= s || (|t| <= |s| && t == s[|s| - |t|..])
    ensures t != [] ==> !IsJsWhiteSpace(t[0])
  {
    if s != [] && IsJsWhiteSpace(s[0]) then TrimStart(s[1..]) else s
  }

  /**
   * `parseInt(s)` with no radix: skip leading white space, read an optional sign,
   * then a "0x"/"0X" prefix selects hexadecimal, otherwise decimal; the longest
   * run of digits is read and the rest ignored. None stands for NaN: a text
   * without any decimal digit is NaN, and only a text with a '-' is negative.
   */
  function ParseInt(s: string): (r: Option<int>)
    ensures (forall i :: 0 <= i < |s| ==> !IsDigit(s[i])) ==> r.None?
    ensures r.Some? && r.value < 0 ==> '-' in s
  {
    var t := TrimStart(s);
    assert forall i :: 0 <= i < |t| ==> t[i] in s;
    var negative := t != [] && t[0] == '-';
    var u := if t != [] && (t[0] == '-' || t[0] == '+') then t[1..] else t;
    var sign := if negative then -1 else 1;
    if |u| >= 2 && u[0] == '0' && (u[1] == 'x' || u[1] == 'X') then
      var h := HexPrefix(u[2..]);
      if h == [] then None else Some(sign * HexValue(h))
    else
      var d := DigitPrefix(u);
      if d == [] then None else Some(sign * DecimalValue(d))
  }

  /** A number printed by JavaScript is read back by `parseInt`. */
  lemma ParseIntOfNatToString(n: nat)
    ensures ParseInt(NatToString(n)) == Some(n)
  {
    var s := NatToString(n);
    assert TrimStart(s) == s;
    DigitPrefixOfDigits(s);
    DecimalValueOfNatToString(n);
  }

  lemma {:induction false} DigitPrefixOfDigits(s: string)
    requires AllDigits(s)
    ensures DigitPrefix(s) == s
    decreases |s|
  {
    if s != [] {
      DigitPrefixOfDigits(s[1..]);
    }
  }

  /** `s.split(sep)`: the pieces between occurrences of sep, always at least one. */
  function Split(s: string, sep: char): (parts: seq<string>)
    ensures |parts| >= 1
    ensures |parts| > 1 ==> sep in s
    decreases |s|
  {
    if s == [] then [""]
    else
      var rest := Split(s[1..], sep);
      assert sep in s[1..] ==> sep in s;
      if s[0] == sep then [""] + rest else [[s[0]] + rest[0]] + rest[1..]
  }

  lemma {:induction false} SplitWithoutSeparator(s: string, sep: char)
    requires sep !in s
    ensures Split(s, sep) == [s]
    decreases |s|
  {
    if s != [] {
      assert s[0] in s && s[1..] <= s[1..];
      assert forall c :: c in s[1..] ==> c in s;
      SplitWithoutSeparator(s[1..], sep);
      assert [s[0]] + s[1..] == s;
    }
  }

  /** Splitting at a first occurrence of the separator peels off the first piece. */
  lemma {:induction false} SplitAtFirst(a: string, b: string, sep: char)
    requires sep !in a
    ensures Split(a + [sep] + b, sep) == [a] + Split(b, sep)
    decreases |a|
  {
    if a != [] {
      var s := a + [sep] + b;
      assert s[0] == a[0] && a[0] in a;
      assert s[1..] == a[1..] + [sep] + b;
      assert forall c :: c in a[1..] ==> c in a;
      SplitAtFirst(a[1..], b, sep);
      assert [a[0]] + a[1..] == a;
    } else {
      assert a + [sep] + b == [sep] + b;
    }
  }

  /** `String.prototype.toLowerCase` on the ASCII letters: A-Z become a-z, every other character stays. */
  function ToLower(s: string): (t: string)
    ensures |t| == |s|
    ensures forall i :: 0 <= i < |s| && 'A' <= s[i] <= 'Z' ==> t[i] as int == s[i] as int + 32
    ensures forall i :: 0 <= i < |s| && !('A' <= s[i] <= 'Z') ==> t[i] == s[i]
  {
    if s == [] then []
    else
      var c := s[0];
      var l := if 'A' <= c <= 'Z' then ((c as int) + 32) as char else c;
      [l] + ToLower(s[1..])
  }

  /** Lowering twice is lowering once. */
  lemma ToLowerIdempotent(s: string)
    ensures ToLower(ToLower(s)) == ToLower(s)
  {
    var t := ToLower(s);
    assert forall i :: 0 <= i < |t| ==> !('A' <= t[i] <= 'Z');
  }
}

=== FILE: toasts.dfy ===
/**
 * The notification pop-ups (`ToastService`): an append-only list of toasts
 * with a counter that numbers them 1, 2, 3, ..., removal in two phases
 * (hide, then purge once the fade-out is over), and clearing. The timers of
 * the original become explicit steps: `ShowToast` reports whether an
 * automatic `RemoveToast` is due, and `PurgeToast` is the deferred second phase.
 */
module Toasts {
  import Lists

  datatype ToastType = Success | Error | Warning | Info

  datatype Toast = Toast(id: int, kind: ToastType, title: string, message: string, duration: int, show: bool)

  /** Ids strictly increase along the list. */
  ghost predicate IncreasingIds(s: seq<Toast>) {
    forall i, j :: 0 <= i < j < |s| ==> s[i].id < s[j].id
  }

  /** The list with `show` cleared on the toasts carrying `id`. */
  function Hide(s: seq<Toast>, id: int): (r: seq<Toast>)
    ensures |r| == |s|
    ensures forall i :: 0 <= i < |s| ==> r[i].id == s[i].id
  {
    if s == [] then []
    else [if s[0].id == id then s[0].(show := false) else s[0]] + Hide(s[1..], id)
  }

  /** Hiding touches only the toasts with that id, and only their `show` flag. */
  lemma {:induction false} HideChangesOnlyId(s: seq<Toast>, id: int)
    ensures forall i :: 0 <= i < |s| && s[i].id != id ==> Hide(s, id)[i] == s[i]
    ensures forall i :: 0 <= i < |s| && s[i].id == id ==> Hide(s, id)[i] == s[i].(show := false)
  {
    if s != [] {
      HideChangesOnlyId(s[1..], id);
      assert forall i :: 1 <= i < |s| ==> Hide(s, id)[i] == Hide(s[1..], id)[i - 1];
    }
  }

  /** Hiding an id that no toast carries changes nothing. */
  lemma HideUnknownId(s: seq<Toast>, id: int)
    requires forall i :: 0 <= i < |s| ==> s[i].id != id
    ensures Hide(s, id) == s
  {
    HideChangesOnlyId(s, id);
  }

  function ToastId(t: Toast): int {
    t.id
  }

  /** Purging keeps ids strictly increasing. */
  lemma {:induction false} WithoutIdIncreasing(s: seq<Toast>, id: int)
    requires IncreasingIds(s)
    ensures IncreasingIds(Lists.Without(s, ToastId, id))
  {
    if s != [] {
      WithoutIdIncreasing(s[1..], id);
      var rest := Lists.Without(s[1..], ToastId, id);
      forall m | 0 <= m < |rest|
        ensures s[0].id < rest[m].id
      {
        assert rest[m] in s[1..];
        var k :| 0 <= k < |s[1..]| && s[1..][k] == rest[m];
        assert s[k + 1] == rest[m];
      }
      if s[0].id != id {
        var r := [s[0]] + rest;
        forall i, j | 0 <= i < j < |r|
          ensures r[i].id < r[j].id
        {
          if i == 0 {
            assert r[j] == rest[j - 1];
          }
        }
      }
    }
  }

  class ToastService {
    var toasts: seq<Toast>
    var toastId: int

    ghost predicate Valid()
      reads this
    {
      && toastId >= 0
      && IncreasingIds(toasts)
      && forall i :: 0 <= i < |toasts| ==> 1 <= toasts[i].id <= toastId
    }

    constructor()
      ensures Valid() && toasts == [] && toastId == 0
    {
      toasts := [];
      toastId := 0;
    }

    /**
     * Appends a visible toast numbered one more than the previous one;
     * `autoRemove` says whether its removal is scheduled (positive duration).
     */
    method ShowToast(kind: ToastType, title: string, message: string, duration: int) returns (id: int, autoRemove: bool)
      modifies this
      requires Valid()
      ensures Valid()
      ensures toastId == old(toastId) + 1 && id == toastId
      ensures toasts == old(toasts) + [Toast(id, kind, title, message, duration, true)]
      ensures autoRemove <==> duration > 0
    {
      toastId := toastId + 1;
      id := toastId;
      toasts := toasts + [Toast(id, kind, title, message, duration, true)];
      autoRemove := duration > 0;
    }

    method ShowSuccess(title: string, message: string, duration: int := 5000) returns (id: int, autoRemove: bool)
      modifies this
      requires Valid()
      ensures Valid()
      ensures toastId == old(toastId) + 1 && id == toastId
      ensures toasts == old(toasts) + [Toast(id, Success, title, message, duration, true)]
      ensures autoRemove <==> duration > 0
    {
      id, autoRemove := ShowToast(Success, title, message, duration);
    }

    method ShowError(title: string, message: string, duration: int := 7000) returns (id: int, autoRemove: bool)
      modifies this
      requires Valid()
      ensures Valid()
      ensures toastId == old(toastId) + 1 && id == toastId
      ensures toasts == old(toasts) + [Toast(id, Error, title, message, duration, true)]
      ensures autoRemove <==> duration > 0
    {
      id, autoRemove := ShowToast(Error, title, message, duration);
    }

    method ShowWarning(title: string, message: string, duration: int := 6000) returns (id: int, autoRemove: bool)
      modifies this
      requires Valid()
      ensures Valid()
      ensures toastId == old(toastId) + 1 && id == toastId
      ensures toasts == old(toasts) + [Toast(id, Warning, title, message, duration, true)]
      ensures autoRemove <==> duration > 0
    {
      id, autoRemove := ShowToast(Warning, title, message, duration);
    }

    method ShowInfo(title: string, message: string, duration: int := 5000) returns (id: int, autoRemove: bool)
      modifies this
      requires Valid()
      ensures Valid()
      ensures toastId == old(toastId) + 1 && id == toastId
      ensures toasts == old(toasts) + [Toast(id, Info, title, message, duration, true)]
      ensures autoRemove <==> duration > 0
    {
      id, autoRemove := ShowToast(Info, title, message, duration);
    }

    /** First phase of removal: the toast stays in the list but is hidden. */
    method RemoveToast(id: int)
      modifies this
      requires Valid()
      ensures Valid()
      ensures toastId == old(toastId)
      ensures toasts == Hide(old(toasts), id)
    {
      toasts := Hide(toasts, id);
    }

    /** Second phase, once the fade-out is over: the toast leaves the list. */
    method PurgeToast(id: int)
      modifies this
      requires Valid()
      ensures Valid()
      ensures toastId == old(toastId)
      ensures toasts == Lists.Without(old(toasts), ToastId, id)
    {
      WithoutIdIncreasing(toasts, id);
      toasts := Lists.Without(toasts, ToastId, id);
    }

    /** Empties the list; the counter keeps counting, so ids are never reused. */
    method ClearAll()
      modifies this
      requires Valid()
      ensures Valid()
      ensures toasts == [] && toastId == old(toastId)
    {
      toasts := [];
    }
  }

  /**
   * A fresh service shown one toast of each kind with the default durations
   * numbers them 1 to 4 with durations 5000, 7000, 6000 and 5000, schedules
   * each for removal, and after `clearAll` numbers the next toast 5: ids are
   * never reused.
   */
  method DefaultDurations() returns (ids: seq<int>, durations: seq<int>, nextAfterClear: int)
    ensures ids == [1, 2, 3, 4]
    ensures durations == [5000, 7000, 6000, 5000]
    ensures nextAfterClear == 5
  {
    var service := new ToastService();
    var a, ra := service.ShowSuccess("t", "m");
    var b, rb := service.ShowError("t", "m");
    var c, rc := service.ShowWarning("t", "m");
    var d, rd := service.ShowInfo("t", "m");
    assert ra && rb && rc && rd;
    ids := [a, b, c, d];
    durations := [service.toasts[0].duration, service.toasts[1].duration,
                  service.toasts[2].duration, service.toasts[3].duration];
    service.ClearAll();
    var e, _ := service.ShowInfo("t", "m");
    nextAfterClear := e;
  }
}

=== FILE: wrappers.dfy ===
/** Failure-compatible wrappers: an optional value and a value-or-error result. */
module Wrappers {

  datatype Option<+T> = None | Some(value: T) {
    function GetOr(default: T): T {
      match this
      case Some(v) => v
      case None => default
    }
  }

  datatype Result<+R> = Success(value: R) | Failure(error: string) {
    predicate IsFailure() {
      Failure?
    }

    function PropagateFailure<U>(): Result<U>
      requires Failure?
    {
      Failure(error)
    }

    function Extract(): R
      requires Success?
    {
      value
    }
  }
}
